=== FILE: README.md ===
# render2 OpenGL core, modelled in Dafny

render2 is a thin C++ layer over OpenGL. This project models its core:

- **The context.** `OpenglContext` caches the driver's bindings:
  - the vertex array, program, framebuffer and viewport;
  - the pixel-pack and pixel-unpack buffers, and one buffer per target;
  - each texture unit;
  - the render configuration.

  It skips every driver call that would rebind what is already bound.
- **Qualified handles.** Every GL object name is paired with a generation qualifier handed out by the context.
- **The objects built on the context.** Vertex arrays and their attribute descriptors, vertex buffers, 2D and array textures, buffer textures, pixel buffers, framebuffers, reference-counted managed textures, the program registry, and uniforms and samplers.
- **The renderer's arena.** `RenderInfoBase`, plus the cached values that write into it in both revisions (validity flag and qualifier).
- **Supporting code.** The shader-header rewrite, the packed colour type and its 24-entry `twocolors` palette, and the checked integer cast.

**How the driver is modelled.**
- A driver call is a `Gl.Event`.
- An operation is a pure function returning a `Gl.Step`: the new state, the calls it issued, and whether a `tassert`/`assert` failed on the way.
  - Debug builds stop at a failed assertion. Release builds carry on, so the model keeps both the flag and the state after it.
- Undefined behaviour, such as indexing outside a vector or dereferencing null, becomes a precondition.
- `std::abort` and thrown exceptions become `Wrappers.Result` errors.

**The driver reference model.** `Driver.Replay` gives the events their meaning by applying them to a driver state. `Coherence.Coherent` states the promise behind the whole cache: whatever the context records as bound is what the driver holds. Every binding operation is proved to keep that relation.

**Corrected variants.** Where the code does something other than what it evidently intends, the model has both versions:
- the code as written, with a lemma exhibiting the discrepancy;
- a corrected version, with the intended property proved.

The rest of the model uses the corrected version (see "## Findings").

## Model

| member | source | states |
|---|---|---|
| Qualifier.Equal | include/render/opengl/Qualifier.h:20-22 | two handles are equal exactly when both the name and the generation agree |
| Qualifier.Clear | include/render/opengl/Qualifier.h:25-29 | a cleared handle equals the default handle |
| Qualifier.StaleNameIsUnequal | include/render/opengl/Qualifier.h:10-22 | a reused GL name under another generation is a different handle, so caches keyed on handles never confuse a deleted object with its successor |
| Qualifier.EqualIsEquivalence | include/render/opengl/Qualifier.h:20-22 | handle comparison is reflexive, symmetric and transitive |
| RenderConfig.AxisChange | opengl/OpenglContext.cpp:71-86 | the shared shape of every configuration setter: no call when the cached axis equals the request; otherwise exactly one call for the requested value, or an assertion when the value has no call (`Unset`, `Max`) |
| RenderConfig.SetBlend | opengl/OpenglContext.cpp:71-86 | the blend axis is stored; `glEnable`/`glDisable(GL_BLEND)` is issued iff it changes to a real value; it asserts iff it changes to `Unset`/`Max` |
| RenderConfig.SetBlendFunc | opengl/OpenglContext.cpp:88-118 | the same contract for the blend function, with the factor pairs of each enumerator |
| RenderConfig.SetBlendEquation | opengl/OpenglContext.cpp:120-144 | the same contract for the blend equation |
| RenderConfig.SetDepthTest | opengl/OpenglContext.cpp:146-161 | the same contract for the depth test |
| RenderConfig.SetDepthFunc | opengl/OpenglContext.cpp:163-181 | the same contract for the depth function |
| RenderConfig.SetDepthMask | opengl/OpenglContext.cpp:183-198 | the same contract for the depth mask |
| RenderConfig.SetSrgbMode | opengl/OpenglContext.cpp:200-217 | the same contract for framebuffer sRGB |
| RenderConfig.SetAll | opengl/OpenglContext.cpp:59-69 | the whole configuration (point size included) is stored; the calls are the seven setters' calls in order; re-applying the cached configuration issues nothing |
| OpenglContext.New | opengl/OpenglContext.cpp:421-427 | a fresh context has every unit empty, every buffer target at the default handle, qualifier counter 0 and an empty configuration |
| OpenglContext.SetConfiguration | opengl/OpenglContext.cpp:59-69 | only the cached configuration changes; re-applying it is silent |
| OpenglContext.BindVao | opengl/OpenglContext.cpp:219-225 | the vertex array is cached; `glBindVertexArray` iff it differs; the VAO-switch tally grows by exactly the number of calls; nothing else changes |
| OpenglContext.UseProgram | opengl/OpenglContext.cpp:269-275 | the same for `glUseProgram` and the program-switch tally |
| OpenglContext.BindPack | opengl/OpenglContext.cpp:227-232 | the pack buffer is cached; the bind is issued iff it differs; nothing else changes |
| OpenglContext.BindUnpack | opengl/OpenglContext.cpp:234-239 | the same for the unpack buffer |
| OpenglContext.UnbindPack | opengl/OpenglContext.cpp:241-246 | a set pack handle is forgotten and buffer 0 bound; an unset one leaves everything untouched |
| OpenglContext.UnbindUnpack | opengl/OpenglContext.cpp:248-253 | the same for the unpack buffer |
| OpenglContext.BindBuffer | opengl/OpenglContext.cpp:255-260 | the target's cached buffer becomes the handle; every other target keeps its buffer; the bind is issued iff the buffer differs |
| OpenglContext.BindTextureUnit | opengl/OpenglContext.cpp:262-267 | the active unit is cached; `glActiveTexture` iff it differs |
| OpenglContext.BindTexture | opengl/OpenglContext.cpp:277-293 | the unit records the texture and target; no call at all iff the unit already holds that texture under that target (or under no target); it asserts exactly when the unbound target would be passed to the driver |
| OpenglContext.BindFramebuffer | opengl/OpenglContext.cpp:319-324 | the framebuffer is cached; the bind is issued iff it differs |
| OpenglContext.SetViewport | opengl/OpenglContext.cpp:326-336 | the viewport is cached; `glViewport` iff it differs |
| OpenglContext.GetQualifier | opengl/OpenglContext.cpp:386-388 | hands out the counter's value and advances it by one |
| OpenglContext.IssueMany | opengl/OpenglContext.cpp:386-392 | successive qualifiers strictly increase, so no two objects of one context share one; from a non-negative counter none equals the screen framebuffer's -1 |
| OpenglContext.TallyDrawCall | opengl/OpenglContext.cpp:402-404 | counts one draw call and touches no other counter |
| OpenglContext.TallyBytesTransferred | opengl/OpenglContext.cpp:406-409 | counts one buffer upload and its bytes |
| OpenglContext.TallyUniformBytesTransferred | opengl/OpenglContext.cpp:411-414 | counts one uniform upload and its bytes |
| OpenglContext.Cycle | opengl/OpenglContext.cpp:416-419 | this frame's counters become last frame's and restart from zero |
| OpenglContext.UnbindUnits | opengl/OpenglContext.cpp:354-366 | the unit loop issues only unit selections and unbinds to texture 0; as written every selection is of unit 0; it asserts iff some occupied unit has no target |
| OpenglContext.ResetWith | opengl/OpenglContext.cpp:338-372 | after `reset()` the cache holds no program, vertex array, framebuffer, pixel buffer, buffer binding, configuration or unit binding; unit 0 is active and the counters and tallies survive |
| Coherence.NewIsCoherent | opengl/OpenglContext.cpp:421-427 | a new context agrees with a driver whose active unit is 0 |
| Coherence.BindVaoCoherent | opengl/OpenglContext.cpp:219-225 | skipping or issuing the bind keeps cache and driver in agreement |
| Coherence.UseProgramCoherent | opengl/OpenglContext.cpp:269-275 | the same for programs |
| Coherence.BindFramebufferCoherent | opengl/OpenglContext.cpp:319-324 | the same for framebuffers |
| Coherence.BindPackCoherent | opengl/OpenglContext.cpp:227-232 | the same for the pack buffer |
| Coherence.BindUnpackCoherent | opengl/OpenglContext.cpp:234-239 | the same for the unpack buffer |
| Coherence.UnbindPackCoherent | opengl/OpenglContext.cpp:241-246 | unbinding the pack buffer keeps the agreement |
| Coherence.UnbindUnpackCoherent | opengl/OpenglContext.cpp:248-253 | unbinding the unpack buffer keeps the agreement |
| Coherence.BindBufferCoherent | opengl/OpenglContext.cpp:255-260 | binding a buffer to any target other than the pixel-buffer targets keeps the agreement |
| Coherence.PackTableAlias | opengl/OpenglContext.cpp:227-260 | binding a buffer through the per-target table to the pack target leaves the dedicated pack field believing the old buffer is bound, while the driver now holds the new one |
| Coherence.BindTextureUnitCoherent | opengl/OpenglContext.cpp:262-267 | selecting a unit keeps the agreement |
| Coherence.SetViewportCoherent | opengl/OpenglContext.cpp:326-336 | setting the viewport keeps the agreement |
| Coherence.BindTextureCoherent | opengl/OpenglContext.cpp:277-293 | binding a texture to a unit (with its unbind-other-target step) keeps every unit in agreement with the driver |
| Coherence.SetBlendSettles | opengl/OpenglContext.cpp:71-86 | after the blend setter the requested blend state is in effect in the driver and the other axes are undisturbed |
| Coherence.SetBlendFuncSettles | opengl/OpenglContext.cpp:88-118 | the same for the blend function |
| Coherence.SetBlendEquationSettles | opengl/OpenglContext.cpp:120-144 | the same for the blend equation |
| Coherence.SetDepthTestSettles | opengl/OpenglContext.cpp:146-161 | the same for the depth test |
| Coherence.SetDepthFuncSettles | opengl/OpenglContext.cpp:163-181 | the same for the depth function |
| Coherence.SetDepthMaskSettles | opengl/OpenglContext.cpp:183-198 | the same for the depth mask |
| Coherence.SetSrgbModeSettles | opengl/OpenglContext.cpp:200-217 | the same for framebuffer sRGB |
| Coherence.SetConfigurationSettles | opengl/OpenglContext.cpp:59-69 | the seven setters in sequence bring every axis with a value into effect |
| Coherence.SetConfigurationCoherent | opengl/OpenglContext.cpp:59-69 | `setConfiguration` keeps the whole cache in agreement with the driver |
| ResetCoherence.UnbindUnitsFrame | opengl/OpenglContext.cpp:354-366 | the corrected unit loop changes the driver's textures only on the units it visits |
| ResetCoherence.UnbindUnitsClears | opengl/OpenglContext.cpp:354-366 | the corrected unit loop leaves every occupied unit's target unbound in the driver |
| ResetCoherence.UnbindUnitsAsWrittenKeeps | opengl/OpenglContext.cpp:354-366 | the loop as written changes no unit other than 0 |
| ResetCoherence.PixelBufferCalls | opengl/OpenglContext.cpp:341-348 | as written, the pixel-buffer unbinds change nothing in the driver; corrected, they unbind both pixel buffers |
| ResetCoherence.ResetClearsDriver | opengl/OpenglContext.cpp:338-372 | the corrected reset leaves the cache coherent and the driver with every previously cached texture and pixel buffer unbound |
| ResetCoherence.ResetAsWrittenLeavesBindings | opengl/OpenglContext.cpp:338-372 | the reset as written forgets a texture on any unit but 0, and forgets the pixel buffers, while the driver still has them bound |
| ShaderPrefix.FindChar | opengl/OpenglContext.cpp:22-36 | `find(c)` answers the first position holding `c`, or nothing iff `c` does not occur |
| ShaderPrefix.FindString | opengl/OpenglContext.cpp:22-36 | `find(p)` answers the first position where `p` starts, or nothing iff it never does |
| ShaderPrefix.Substr | opengl/OpenglContext.cpp:22-36 | `substr(i)` succeeds iff `i` is within the view and then yields its tail; `npos` throws |
| ShaderPrefix.SubstrAfter | opengl/OpenglContext.cpp:22-36 | `substr(i + 1)` with `npos` wraps to the whole view |
| ShaderPrefix.TrimShaderPrefix | opengl/OpenglContext.cpp:22-36 | succeeds exactly when the source has a `#` and, after the end of that `#`'s line, a `precision`; the result is then the source after the first `;` following that `precision` (from the `precision` itself when no `;` follows), a suffix of the source |
| ShaderPrefix.SetShaderSource | opengl/OpenglContext.cpp:38-57 | succeeds exactly when trimming does and the trimmed body's length fits a `GLint`, and then uploads the running dialect's header followed by the trimmed body; a body of 2^31 characters or more aborts in `safety_cast` |
| ShaderPrefix.TrimStages | opengl/OpenglContext.cpp:22-36 | for a source with a header line followed by `precision …;`, trimming yields what follows that `;` |
| ShaderPrefix.TrimEsHeader | opengl/OpenglContext.cpp:22-36 | a source stored with the GLES header loses exactly that header |
| ShaderPrefix.EsSourceOnDesktop | opengl/OpenglContext.cpp:38-57 | a GLES-headed source is re-headed for the desktop dialect with its body intact, and aborts exactly when the body left after the cut is too long for a `GLint` |
| ShaderPrefix.DesktopHeaderAloneThrows | opengl/OpenglContext.cpp:22-36 | a source with the desktop header and no `precision` is rejected |
| RenderInfo.Size | RenderInfoBase.h:93-99 | the size is zero exactly when the arena is empty |
| RenderInfo.Get | RenderInfoBase.h:31-37 | an in-range index yields exactly the element stored at that index |
| RenderInfo.SubSpan | RenderInfoBase.h:39-67 | the assertion fails iff the range is not inside the arena; a valid range yields exactly its elements; an invalid one is clamped and never reads outside |
| RenderInfo.Add | RenderInfoBase.h:69-75 | the element is appended and earlier elements are untouched |
| RenderInfo.PopBack | RenderInfoBase.h:85-87 | drops exactly the last element |
| RenderInfo.Append | RenderInfoBase.h:89-91 | the other arena's elements follow this one's, both in order |
| RenderInfo.Clear | RenderInfoBase.h:101-103 | the arena is empty afterwards |
| RenderInfo.PopUndoesAdd | RenderInfoBase.h:69-87 | `pop_back` undoes `add` |
| RenderInfo.WholeSpan | RenderInfoBase.h:39-67 | the span over the whole arena is its contents, with no assertion |
| RenderInfo.AppendSplits | RenderInfoBase.h:89-91 | after `append`, spans over the old size recover both halves |
| RenderInfo.AdjacentSpans | RenderInfoBase.h:39-67 | spans over adjacent ranges concatenate to the span over their union |
| RenderInfo.OverlongSpanIsClamped | RenderInfoBase.h:39-67 | a range past the end asserts and yields the tail from `begin` |
| CacheWrites.SetField | include/render/CachedValue.h:90-99 | writing through the member pointer sets that field and keeps every other field |
| CacheWrites.WriteOne | include/render/CachedValue.h:101-112 | writing one element changes that element only |
| CacheWrites.WriteAll | include/render/CachedValue.h:200-215 | the loop over the indices touches only the listed elements |
| CacheWrites.WriteAllReaches | include/render/CachedValue.h:200-215 | after the loop every listed element holds the value |
| ValidityCache.IsValid | include/render/CachedValue.h:86-88 | the shared dummy flag always reads false |
| ValidityCache.NewSingle | include/render/CachedValue.h:33-38 | a new value points at the dummy flag and no arena |
| ValidityCache.Send | include/render/CachedValue.h:101-112 | writes into the arena iff the value changes and the flag reads true; remembers the value either way |
| ValidityCache.SendCurrent | include/render/CachedValue.h:90-99 | with a true flag, the arena mirrors the value afterwards; otherwise it is untouched |
| ValidityCache.InitSingle | include/render/CachedValue.h:226-232 | attaches to the arena, flag and index, keeping the value |
| ValidityCache.UninitialisedNeverWrites | include/render/CachedValue.h:24-38 | a value never initialised never writes |
| ValidityCache.SendKeepsSynced | include/render/CachedValue.h:101-112 | `send` keeps the arena field in step with the cached value |
| ValidityCache.SendTwiceWritesOnce | include/render/CachedValue.h:101-112 | sending the same value twice is the same as sending it once |
| ValidityCache.NewMulti | include/render/CachedValue.h:121-126 | a new multi-value is unattached with no indices |
| ValidityCache.SendMulti | include/render/CachedValue.h:200-215 | writes every attached element iff the value changes and the flag reads true |
| ValidityCache.SendMultiCurrent | include/render/CachedValue.h:185-198 | with a true flag every attached element mirrors the value |
| ValidityCache.ClearMulti | include/render/CachedValue.h:152-157 | `clear(v)` returns the value to the freshly constructed state holding `v` |
| ValidityCache.InitMulti | include/render/CachedValue.h:234-244 | attaches one more index; asserts iff it would move to another arena or flag |
| ValidityCache.SendMultiKeepsSynced | include/render/CachedValue.h:200-215 | `send` keeps every attached element in step |
| ValidityCache.InitThenSendSyncs | include/render/CachedValue.h:200-244 | a fresh value initialised against a true flag and then sent a new value is mirrored in the arena |
| QualifiedCache.NewSingle | CachedValue.h:34-38 | a new value carries the unattached qualifier -1 |
| QualifiedCache.Send | CachedValue.h:86-97 | writes iff the qualifier matches, the value changes and the index is in range; remembers the value either way |
| QualifiedCache.ClearSingle | CachedValue.h:99-100 | `clear()` changes nothing |
| QualifiedCache.InitSingle | CachedValue.h:197-204 | takes the arena, qualifier and index, keeping the value |
| QualifiedCache.StaleQualifierNeverWrites | CachedValue.h:86-97 | a send on behalf of another object never reaches the arena |
| QualifiedCache.UnattachedNeverWrites | CachedValue.h:34-38 | a never-attached value ignores every live object's send |
| QualifiedCache.SendKeepsSynced | CachedValue.h:86-97 | sends under the right qualifier keep the arena in step |
| QualifiedCache.NewMulti | CachedValue.h:109-114 | a new multi-value is unattached with no indices |
| QualifiedCache.SendMulti | CachedValue.h:172-187 | writes every attached element iff the qualifier matches and the value changes |
| QualifiedCache.ClearMulti | CachedValue.h:140-144 | `clear(v)` drops the arena and indices and keeps the qualifier |
| QualifiedCache.InitMulti | CachedValue.h:206-214 | appends the index and takes the qualifier; asserts iff the arena changes |
| QualifiedCache.SendMultiKeepsSynced | CachedValue.h:172-187 | sends under the right qualifier keep every attached element in step |
| QualifiedCache.ClearedMultiWritesNothing | CachedValue.h:140-187 | a cleared value still passes the qualifier test but writes nothing |
| QualifiedCache.ClearThenInit | CachedValue.h:140-214 | re-initialising a cleared value attaches only the new index, without an assertion |
| Colors.Byte | include/render/Color.h:17-27 | each extracted channel is a byte |
| Colors.Red | include/render/Color.h:17-19 | the integer behind `redNormalized` is byte 0, a value below 256 |
| Colors.Green | include/render/Color.h:21-23 | the integer behind `greenNormalized` is byte 1, a value below 256 |
| Colors.Blue | include/render/Color.h:25-27 | the integer behind `blueNormalized` is byte 2, a value below 256 |
| Colors.Rgb | include/render/Color.h:70-72 | `rgb` is fully opaque |
| Colors.Rgba | include/render/Color.h:78-80 | byte-sized channels land in their own bytes |
| Colors.RgbRoundTrip | include/render/Color.h:17-72 | the channel extractions recover the components given to `rgb` |
| Colors.RgbaRoundTrip | include/render/Color.h:17-80 | the extractions and the alpha byte recover the components given to `rgba` |
| Colors.RgbIsOpaqueRgba | include/render/Color.h:70-80 | `rgb` is `rgba` with alpha 255 |
| Colors.Alpha | include/render/Color.h:225-229 | the colour channels are kept and alpha can only decrease, masked by the argument |
| Colors.AlphaExtremes | include/render/Color.h:225-229 | alpha 255 is the identity; alpha 0 makes the colour transparent |
| Colors.EqualIffSameBytes | include/render/Color.h:34-40 | two colours are equal iff every one of their four bytes agrees |
| Colors.Equal | include/render/Color.h:34-36 | comparing the packed words is equality of colours |
| Colors.ToSize | include/render/Color.h:207-213 | an `int` operand converted to `size_t` is reduced modulo 2^64 and unchanged when non-negative |
| Colors.PlusAsWritten | include/render/Color.h:207-209 | `+` as written always lands inside the palette |
| Colors.MinusAsWritten | include/render/Color.h:211-213 | `-` as written always lands inside the palette |
| Colors.Plus | include/render/Color.h:207-209 | stepping forward lands on the slot congruent to index plus step modulo 24 |
| Colors.Minus | include/render/Color.h:211-213 | stepping back lands on the slot congruent to index minus step modulo 24 |
| Colors.PlusMinusInverse | include/render/Color.h:207-213 | stepping forward and back returns to the same slot |
| Colors.AsWrittenAgreesWithoutWrap | include/render/Color.h:207-213 | without a `size_t` wrap, the written operators agree with the intended ones |
| Colors.MinusWrapsFromRed | include/render/Color.h:211-213 | one step back from red gives slot 15 as written, where 23 is meant |
| Colors.PlusNegativeWrapsFromRed | include/render/Color.h:207-209 | adding -1 to red gives slot 15 as written, where 23 is meant |
| Colors.PaletteSlot | include/render/Color.h:215-217 | the conversion reads a slot inside the palette |
| Colors.TwoRed | include/render/Color.h:193-195 | red is a palette slot, a third of the palette forward from blue |
| Colors.TwoGreen | include/render/Color.h:197-199 | green is a palette slot, a third of the palette forward from red |
| Colors.TwoBlue | include/render/Color.h:201-203 | blue is a palette slot, a third of the palette forward from green |
| Colors.PrimariesAThirdApart | include/render/Color.h:193-217 | stepping a third of the palette forward cycles red, green, blue and back to red, and the three are distinct |
| DataTypes.ByteSize | include/render/DataType.h:34-57 | every type's size is four bytes per scalar of its columns-by-rows shape |
| DataTypes.Columns | include/render/DataType.h:34-57 | a type has one to four columns |
| DataTypes.Rows | include/render/DataType.h:34-57 | a type has one to four rows |
| Vbo.SetData | include/render/opengl/OpenglVBO.h:75-88 | aborts iff the element size or count does not fit an `int`; otherwise records them, binds the buffer and uploads the product of the two as the byte count |
| Vbo.ByteSize | opengl/OpenglVBO.cpp:24-26 | for non-negative fields the byte count is non-negative, zero iff there are no elements or they are empty, and otherwise at least each field |
| Vbo.SetDataUploadsByteSize | include/render/opengl/OpenglVBO.h:75-88 | a `set` whose sizes fit succeeds, and its upload is `elementSize * count` bytes, which is `getByteSize` of the result and fits an `int` |
| Coherence.SetDataCoherent | include/render/opengl/OpenglVBO.h:75-88 | `set` keeps the cache coherent with the driver; afterwards the driver holds the VBO's buffer on the target, and that buffer's data store has the element size times the count in bytes |
| Vao.NewDescriptor | opengl/OpenglVAO.cpp:11-20 | a new name gets a fresh descriptor with the given divisor; a taken name asserts and leaves the vertex array unchanged |
| Vao.UnsignedDivisor | opengl/OpenglVAO.cpp:64-68 | the descriptor's `int` divisor as the `GLuint` that `add` compares and divides: a value up to 2^32-1 is unchanged, a negative one gains 2^32 |
| Vao.StrideMultiplier | opengl/OpenglVAO.cpp:64-70 | the multiplier lies between 1 and 2^32-1; it is exactly 1 without a `divisor_` or when the descriptor's divisor, taken as a `GLuint`, is not larger; otherwise it is the integer quotient of that `GLuint` by `divisor_` |
| Vao.AttributeDivisor | opengl/OpenglVAO.cpp:73-77 | the new attribute's `int` divisor is `divisor_` when that fits an `int` and `divisor_` minus 2^32 when it does not; without `divisor_` it is the descriptor's own divisor, whenever that fits an `int` |
| Vao.Growth | opengl/OpenglVAO.cpp:80 | the bytes `add` reserves before the `GLsizei` conversion are at least the type's size, and exactly that size without `divisor_` |
| Vao.Add | opengl/OpenglVAO.cpp:64-83 | the new attribute starts at the old stride with the divisor `value_or` gives; earlier attributes are untouched; the stride grows by the type's size times the multiplier, reduced modulo 2^32 into a `GLsizei`, so exactly by that product when it fits and by the type's size without `divisor_` |
| Vao.AddStrideWraps | opengl/OpenglVAO.cpp:80 | the stride's change differs from the reserved bytes by a multiple of 2^32, as `static_cast<GLsizei>` makes it |
| Vao.FreshIsLaidOut | opengl/OpenglVAO.cpp:11-20 | a fresh descriptor has no overlapping attributes |
| Vao.AddKeepsLaidOut | opengl/OpenglVAO.cpp:64-83 | while the stride's growth fits a `GLsizei`, `add` keeps every attribute inside its own bytes and inside the stride |
| Vao.NegativeDivisorShrinksStride | opengl/OpenglVAO.cpp:64-83 | after `newDescriptor(name, -1)`, `add(t, 1)` takes the multiplier 4294967295 and shrinks the stride by the type's size, so the new attribute overruns the vertex record |
| Vao.Slots | opengl/OpenglVAO.cpp:128-196 | a supported type takes one attribute slot per column; an unsupported one takes none |
| Vao.ColumnEvents | opengl/OpenglVAO.cpp:141-155 | for each column in order, the three calls of its own slot: the pointer with the type's kind, the column's component count, the stride and the attribute's offset plus the column's offset; the attribute's divisor; the enable |
| Vao.AttributeSlots | opengl/OpenglVAO.cpp:122-200 | the slot index advances by the total column count; the calls are each attribute's column calls, in order, starting at the slot after the previous attribute's last; every call is about a slot in that range; it asserts iff some type is unsupported |
| Vao.FinalizeWith | opengl/OpenglVAO.cpp:122-200 | binds the vertex array and buffer, then issues each attribute's column calls in place from the current attribute count, advances the count by the slots used, and asserts iff an attribute has an unsupported type |
| Vao.FinalizedPointer | opengl/OpenglVAO.cpp:122-200 | the pointer call `finalize` issues for column `k` of attribute `i` has its slot, kind, component count, stride and offset; its bytes lie inside the attribute iff the column is not the written third `mat3` column, and, corrected, inside the attribute's reserved bytes of a laid-out descriptor |
| Vao.SuccessiveFinalizesShareNoSlot | opengl/OpenglVAO.cpp:122-130 | two descriptors finalized one after the other get disjoint, consecutive slot ranges |
| Vao.Mat3ThirdColumnOverruns | opengl/OpenglVAO.cpp:145-149 | as written, the third `mat3` column reads past the attribute's 36 bytes and leaves a gap after the second |
| Vao.Mat3ThirdColumnCall | opengl/OpenglVAO.cpp:145-149 | as written, the third column's pointer is at offset +36, where +24 is meant |
| Vao.ColumnsTileTheAttribute | opengl/OpenglVAO.cpp:141-155 | corrected, each column stays inside the attribute, starts where the previous one ends, and the last one ends at the attribute's size |
| Vao.ColumnInside | opengl/OpenglVAO.cpp:141-155 | a column's bytes stay inside the attribute exactly when it is not the third column of a `mat3` as written |
| Vao.CorrectionOnlyMovesMat3 | opengl/OpenglVAO.cpp:145-149 | the correction moves only the third column of `mat3` |
| Vao.QuadUploadOnBoundBuffer | opengl/OpenglVAO.cpp:37 | uploading the six corners to an already bound buffer issues only the 48-byte upload |
| Vao.AddQuadDescriptor | opengl/OpenglVAO.cpp:22-38 | registers the descriptor, sets up one `vec2` slot and fills the buffer with six 8-byte vertices |
| Vao.QuadTakesOneSlot | opengl/OpenglVAO.cpp:22-25 | the quad takes exactly one slot |
| Texture.PixelBytes | opengl/OpenglTexture.cpp:107-119 | corrected, the bytes per pixel are those that the upload's format and type describe |
| Texture.ByteSize | opengl/OpenglTexture.cpp:107-119 | non-negative for a non-negative size; corrected, it is the pixel count times the upload's bytes per pixel |
| Texture.PixelBytesAsWritten | opengl/OpenglTexture.cpp:107-119 | the written table agrees with the upload for every format except `R` and `RGBA`, which it counts four times too large |
| Texture.MinFilter | opengl/OpenglTexture.cpp:45-77 | without mipmaps the minifying filter is the magnifying one |
| Texture.MinFilterDecomposes | opengl/OpenglTexture.cpp:45-86 | the combined filter filters like the magnifying filter within a level, and between levels as the mipmap setting says iff there are mipmaps |
| Texture.ParamCalls | opengl/OpenglTexture.cpp:208-211 | allocation is followed by exactly four parameter calls |
| Texture.MakeWith | opengl/OpenglTexture.cpp:169-214 | an oversized format is refused with no calls; supplied data of the wrong size is refused after the name is made; otherwise the texture is allocated, uploaded and parametrised, and one qualifier is used |
| Texture.SingleChannelUploadRefused | opengl/OpenglTexture.cpp:186-194 | a correctly sized single-channel upload is refused as written and accepted corrected |
| Texture.SetWrapping | opengl/OpenglTexture.cpp:125-133 | records the wrapping; issues calls iff it changes, ending with the two wrap parameters |
| Texture.SetWrappingIdempotent | opengl/OpenglTexture.cpp:125-133 | a repeated `setWrapping` issues nothing |
| Texture.MoveAssign | opengl/OpenglTexture.cpp:151-163 | the destination deletes its old name and takes the source; the source's handle is cleared; it asserts iff the contexts differ |
| Texture.MoveLeavesOneOwner | opengl/OpenglTexture.cpp:151-163 | after a move only the destination names the texture |
| Texture.LevelCalls | opengl/OpenglTexture.cpp:250-268 | each mip level takes exactly five calls |
| Texture.LevelsFrom | opengl/OpenglTexture.cpp:250-268 | the level loop issues five calls per remaining level |
| Texture.LevelAllocated | opengl/OpenglTexture.cpp:250-268 | level `j` is allocated at the base size halved `j` times |
| Texture.MakeArray | opengl/OpenglTexture.cpp:234-274 | refuses oversized formats without calls; otherwise allocates every level and sets the base and maximum level |
| Texture.ArrayLevelSizes | opengl/OpenglTexture.cpp:250-268 | every level of a made array texture is allocated at its halved size |
| BufferTexture.TexelBytes | opengl/OpenglBufferTexture.cpp:10-20 | a texel is four bytes per channel |
| BufferTexture.New | opengl/OpenglBufferTexture.cpp:49-54 | a fresh qualifier and no attached buffer |
| BufferTexture.Attach | opengl/OpenglBufferTexture.cpp:34-47 | issues calls iff the buffer is new and its elements are texels of the format; otherwise changes nothing |
| BufferTexture.AttachIdempotent | opengl/OpenglBufferTexture.cpp:34-47 | attaching the same buffer again issues nothing |
| BufferTexture.MismatchNeverAttaches | opengl/OpenglBufferTexture.cpp:34-47 | a buffer whose elements are not texels is never attached |
| ProgramRegistry.Register | opengl/ProgramRegistry.cpp:7-12 | a named program is stored under its name, other entries are untouched, and it asserts iff the name was taken; name 0 is ignored |
| ProgramRegistry.Unregister | opengl/ProgramRegistry.cpp:14-19 | removes the name; asserts iff the entry was not this program |
| ProgramRegistry.Move | opengl/ProgramRegistry.cpp:21-27 | the new program takes the name and other entries are untouched; the old name's entry is erased when the names differ; it asserts iff the old entry is not the old program, the names are the same, or the new name's entry is not the old program; with no new name it unregisters |
| ProgramRegistry.Lookup | opengl/ProgramRegistry.cpp:29-37 | finds a program iff its name is registered, and it is the registered one |
| ProgramRegistry.OperationsKeepWellFormed | opengl/ProgramRegistry.cpp:7-37 | no operation leaves an entry without a program |
| ProgramRegistry.RegisterThenLookup | opengl/ProgramRegistry.cpp:7-37 | a registered program is found under its name |
| ProgramRegistry.UnregisterUndoesRegister | opengl/ProgramRegistry.cpp:7-19 | unregistering undoes a registration that did not assert |
| ProgramRegistry.MoveHandsOver | opengl/ProgramRegistry.cpp:21-27 | after a move the name points at the new program |
| Uniforms.NextSampler | opengl/Uniforms.cpp:28-30 | hands out the program's next unit and advances it |
| Uniforms.Set | include/render/opengl/Uniforms.h:94-112 | stores the value; uploads iff it differs from the stored one; asserts iff a vector was stored |
| Uniforms.FirstSetUploads | include/render/opengl/Uniforms.h:94-112 | the first `set` always uploads |
| Uniforms.SetTwiceUploadsOnce | include/render/opengl/Uniforms.h:94-112 | setting the same value again uploads nothing |
| Uniforms.Successive | opengl/Uniforms.cpp:28-30 | the loop hands out `count` consecutive units |
| Uniforms.Initialize2D | opengl/Uniforms.cpp:17-40 | registers the sampler's units with the program and tallies four bytes for every unit held; the last call uploads with `count` as its element count, reading the first `count` units (none for a negative count); a refresh needs at least `count` units, since the call would otherwise read past them |
| Uniforms.Register2D | opengl/Uniforms.cpp:24-34 | a first call records the name, registers it with the program and takes `count` consecutive units after those held; a refresh changes neither |
| Uniforms.FreshInitializeHasCount | opengl/Uniforms.cpp:17-40 | a first initialisation gets exactly `count` units, asserts nothing and uploads all of them |
| Uniforms.InitializedSamplersDisjoint | opengl/Uniforms.cpp:17-40 | two samplers of one program get disjoint units |
| Uniforms.Set2D | opengl/Uniforms.cpp:50-60 | asserts iff the index is outside the units; otherwise binds the texture on that unit |
| Uniforms.SetFirst2D | opengl/Uniforms.cpp:42-48 | binds the texture on the first unit |
| Uniforms.InitializeSingle | opengl/Uniforms.cpp:78-130 | the shared initialise of the 3D sampler (78-98, `everyCall`) and the buffer-texture sampler (111-130). With `everyCall`, a first call takes two units and holds the second, and each refresh takes one more unit and holds it. Without `everyCall`, a first call takes one unit and a refresh takes none and keeps its unit. Either way it asserts iff re-initialised under another name, tallies four bytes and uploads the held unit last |
| Uniforms.InitializeSamplerBuffer | opengl/Uniforms.cpp:111-130 | a first call registers the sampler under its name and takes the program's next unit; a refresh keeps the unit and the program; asserts iff re-initialised under another name; uploads the unit last |
| Uniforms.InitializeSampler3DAsWritten | opengl/Uniforms.cpp:78-98 | a first call registers the name, takes two units and holds the second; a refresh takes one more unit and holds it; asserts iff re-initialised under another name; uploads the held unit last |
| Uniforms.Sampler3DSkipsAUnit | opengl/Uniforms.cpp:78-98 | as written the 3D sampler consumes two units and uses the second, and a refresh moves it again; corrected to initialise as the buffer-texture sampler does, it consumes one and keeps it |
| Uniforms.SetSingle | opengl/Uniforms.cpp:100-105 | binds the texture on the sampler's unit and leaves every other unit alone |
| Pbo.New | opengl/OpenglPBO.cpp:46-51 | a fresh qualifier, not mapped, no pending download |
| Pbo.Bind | opengl/OpenglPBO.cpp:8-10 | binds as the pack buffer; no call iff already bound |
| Pbo.Download | opengl/OpenglPBO.cpp:12-38 | refused while mapped; otherwise sizes the buffer for the texture, records that size and queues the read of level 0 last |
| Pbo.Unmap | opengl/OpenglPBO.cpp:40-44 | unmaps as the last call and clears the flag |
| Pbo.GetDownloadWith | include/render/opengl/OpenglPBO.h:65-90 | hands out a view iff a download is pending, the buffer is not mapped and mapping succeeds; the view holds the recorded bytes divided by the element size, and the pending size is cleared |
| Pbo.ReleaseRead | include/render/opengl/OpenglPBO.h:98-101 | releasing a view unmaps the buffer |
| Pbo.Destroy | opengl/OpenglPBO.cpp:53-62 | aborts iff mapped; deletes the buffer iff it is set and named |
| Pbo.MappedFlagNeverSet | include/render/opengl/OpenglPBO.h:65-90 | as written, nothing `getDownload` reaches has the buffer marked mapped |
| Pbo.ReadViewOutlivesMapping | include/render/opengl/OpenglPBO.h:65-101 | as written, a new download is accepted while a view is held; corrected, it is refused and the buffer cannot be destroyed until the view is released |
| Pbo.DownloadThenGet | opengl/OpenglPBO.cpp:12-38 | after `download`, one `getDownload` yields the recorded bytes and a second one is refused |
| ManagedTexture.Adjust | opengl/ManagedTexture.cpp:51-61 | the count changes only for a live storage, and only by the given amount |
| ManagedTexture.FromStorage | opengl/ManagedTexture.cpp:67-70 | the handle refers to the storage and counts itself |
| ManagedTexture.Copy | opengl/ManagedTexture.cpp:46-49 | the copy refers to the same storage and counts itself |
| ManagedTexture.Move | opengl/ManagedTexture.cpp:42-44 | the reference moves and the source is emptied, with no count change |
| ManagedTexture.CopyAssign | opengl/ManagedTexture.cpp:27-33 | uncounts the old storage and counts the new one |
| ManagedTexture.MoveAssign | opengl/ManagedTexture.cpp:35-40 | uncounts the old storage and adopts the other reference uncounted |
| ManagedTexture.Reset | opengl/ManagedTexture.cpp:81-84 | uncounts and forgets the storage |
| ManagedTexture.Destroy | opengl/ManagedTexture.cpp:63-65 | uncounts the storage |
| ManagedTexture.Get | opengl/ManagedTexture.cpp:8-17 | yields the texture iff the storage is alive |
| ManagedTexture.AdjustCounts | opengl/ManagedTexture.cpp:51-61 | changing one handle's count keeps the counts equal to the number of referring handles |
| ManagedTexture.FromStorageCounted | opengl/ManagedTexture.cpp:67-70 | making a handle keeps every count exact |
| ManagedTexture.CopyCounted | opengl/ManagedTexture.cpp:46-49 | copying keeps every count exact |
| ManagedTexture.MoveCounted | opengl/ManagedTexture.cpp:42-44 | moving keeps every count exact |
| ManagedTexture.CopyAssignCounted | opengl/ManagedTexture.cpp:27-33 | copy-assignment keeps every count exact, self-assignment included |
| ManagedTexture.MoveAssignCounted | opengl/ManagedTexture.cpp:35-40 | move-assignment between two handles keeps every count exact |
| ManagedTexture.ResetCounted | opengl/ManagedTexture.cpp:81-84 | `reset` keeps every count exact |
| ManagedTexture.DestroyCounted | opengl/ManagedTexture.cpp:63-65 | destroying a handle removes it from the count |
| ManagedTexture.UnusedMeansUnreferenced | opengl/ManagedTexture.cpp:23-25 | while counts are exact, an unused storage has no handle referring to it |
| ManagedTexture.SelfCopyAssignNeutral | opengl/ManagedTexture.cpp:27-33 | copy-assigning a handle to itself leaves the counts as they were |
| Framebuffer.New | opengl/OpenglFramebuffer.cpp:40-44 | a fresh qualifier and the driver's name |
| Framebuffer.FromName | opengl/OpenglFramebuffer.cpp:46-56 | name 0 gets the screen qualifier without using the counter; any other name gets a fresh one |
| Framebuffer.ScreenTarget | opengl/OpenglFramebuffer.cpp:62-64 | the default framebuffer with qualifier -1 |
| Framebuffer.ScreenTargetsShareHandle | opengl/OpenglFramebuffer.cpp:62-64 | all screen targets are one handle, so binding a second after the first is skipped |
| Framebuffer.FreshFramebuffersDistinct | opengl/OpenglFramebuffer.cpp:40-56 | framebuffers made one after the other never share a handle, and none is the screen's |
| Framebuffer.Bind | opengl/OpenglFramebuffer.cpp:8-10 | binds through the context; no call iff already bound |
| Framebuffer.Attach | opengl/OpenglFramebuffer.cpp:16-20 | binds if needed, then attaches the texture as the last call |
| Framebuffer.AttachColor0 | opengl/OpenglFramebuffer.cpp:12-14 | attaches mip level 0 as colour attachment 0 |
| Framebuffer.AttachLayer | opengl/OpenglFramebuffer.cpp:22-26 | binds if needed, then attaches the layer as the last call |
| Framebuffer.AttachBindsOnce | opengl/OpenglFramebuffer.cpp:16-20 | a second attach to the same framebuffer issues only the attachment |
| Convert.StaticCast | Convert.h:39 | the cast yields the value of the target type that is congruent to the input modulo 2^bits |
| Convert.Casts32 | Convert.h:39 | the 32-bit casts written with their constants are the general cast at `uint32_t` and `int32_t` |
| Convert.ToInt32Periodic | Convert.h:39 | a cast to `int32_t` does not distinguish values that differ by a multiple of 2^32 |
| Convert.SafetyCast | Convert.h:33-40 | aborts iff the target type cannot hold the value, and otherwise returns it unchanged |
| Convert.AutoSafety | Convert.h:42-57 | the conversion aborts iff the value is outside the requested type, and otherwise yields the value unchanged, as `safety_cast` does |
| Convert.SafetyCastAgreesWithStaticCast | Convert.h:33-40 | the checked cast passes a value exactly when the plain cast would not change it |
| Convert.RoundTrip | Convert.h:33-40 | a value both types hold survives a cast there and back |
| Convert.WideningNeverAborts | Convert.h:33-40 | widening to a type of the same signedness never aborts |

## Left out

- Logging, file I/O and the `gli` texture loader (`TextureLoader`) are not modelled. They do no caching and hold no invariant.
- Floating-point code is not modelled: the normalised colour channels, sRGB/linear conversion, `te::angle`, framebuffer `clear` with float colours, and the point size (carried as an uncompared `real`).
- `uniqueColor` is not modelled: it depends on `std::hash`.
- `Program.cpp` and `OpenglRenderer` are not modelled: they compile and link shaders and draw through the driver.
  - The body of `Program::getNextSampler` is not part of this model either. It is taken to be a post-increment of the program's sampler count.
- The context's `registerProgram`/`unRegisterProgram` only forward to `ProgramRegistry`, which is modelled instead. `getScreenFramebufferQualifier` is the constant -1.
- The model is of the desktop build. The `WRANGLE_GLESv3` (OpenGL ES 3) build is not modelled. It differs in four places:
  - `setSRGBMode` (opengl/OpenglContext.cpp:201-216) is compiled out, so it issues no call and stores nothing in the cached configuration.
  - `TextureTarget` (opengl/TextureTarget.cpp:19-22) maps the 1D, 1D-array and rectangle targets to -1.
  - The vertex-array constructor (opengl/OpenglVAO.cpp:51-55) calls `glGenVertexArrays` instead of `glCreateVertexArrays`.
  - The texture loader drops the compressed sRGB formats, but the loader is not modelled anyway.
- RenderConfig.SetSrgbMode: models the desktop build. Under `WRANGLE_GLESv3` the call is a no-op, so neither this contract nor Coherence.SetSrgbModeSettles holds for that build.
- The array form of `Uniform::set` is not modelled. Only its effect of storing a vector is, so a later scalar `set` asserts.
- The GL enumeration tables are left out: `BufferTarget`, `BufferUsageHint`, `TextureTarget`, `Attachment::get`, and the format tables of textures and buffer textures. Events carry the model's own enumerations instead.
- The `MAX` sentinels of the enumerations are left out. `dataTypeByteSize` has no entry for them.
- `i16vec2` is left out: `finalize` mentions it, but `DataType.h` does not define it.
- Destructors of textures, framebuffers and vertex arrays, and `generateMipmap`, are not modelled, except for the texture deleted when `make` refuses mismatched data. They issue one delete or one call and hold no state.
- Texture.MakeWith: on success the local texture is returned by move; whether the moved-from local's destructor deletes the name depends on the definition of `DEFAULT_MOVE`, which is not part of this model. The model takes the move to leave nothing to delete, so the success path ends with the parameter calls.
- `OpenglVBO` is modelled only through `set` and `getByteSize`. The other members forward to the context.
- Vbo.ByteSize: the `int` product is taken unbounded. Its overflow would be undefined behaviour, and Vbo.SetData requires the product to fit an `int`.
- OpenglContext.BindVao: counters and tallies are unbounded integers; their 32/64-bit overflow is not modelled.
- OpenglContext.UnbindPack: `Qualified::operator bool` is not part of this model and is taken as an uninterpreted parameter.
- Pbo.Bind: the context declares no overload for a pixel buffer. The pack binding is assumed, because every use of the buffer is as `GL_PIXEL_PACK_BUFFER`.
- Vao.Add: the `+=` onto the `GLsizei` stride is an unbounded sum. Its signed overflow is undefined behaviour in C++ and is not modelled. `integer_t` is not part of this model; it is taken to hold the product of a type's size and a multiplier below 2^32. `OpenglVAO.h` declares the parameter as `std::optional<int>`, while the definition takes `std::optional<GLuint>`; the model follows the definition.
- Vao.AddKeepsLaidOut: proved only while the stride's growth fits a `GLsizei`. Lemma Vao.NegativeDivisorShrinksStride shows a descriptor that is no longer laid out once it does not.
- Uniforms.Initialize2D: a refresh with fewer units than `count` makes `glUniform1iv` read past the vector, which is undefined behaviour. The model requires at least `count` units on a refresh.
- Colors.Alpha: takes the alpha as a byte. The source's assertion that the argument is at most 255 is the type.
- Pbo.ReadViewOutlivesMapping: whether the moved-from view unmaps depends on the definition of `DEFAULT_MOVE`, which is not part of this model (see the findings).

## Findings

| source | as written | input that shows it | evidently intended | confidence | as-written member | corrected member |
|---|---|---|---|---|---|---|
| opengl/OpenglContext.cpp:354-366 | `unit++` sits after the loop in `reset()`, so every unbind selects unit 0 | a texture bound on unit 1 stays bound in the driver after `reset()`, while the cache says nothing is bound | select each unit before unbinding it | high (not executed) | ResetCoherence.ResetAsWrittenLeavesBindings | ResetCoherence.ResetClearsDriver |
| opengl/OpenglContext.cpp:341-348 | the pixel buffers are unbound with `glBindFramebuffer(GL_PIXEL_PACK_BUFFER, 0)`, which the driver rejects | any bound pack buffer stays bound after `reset()` | `glBindBuffer(target, 0)` | high (not executed) | ResetCoherence.PixelBufferCalls | ResetCoherence.ResetClearsDriver |
| opengl/OpenglVAO.cpp:145-149 | the third `mat3` column is at offset + 9 floats | any `mat3` attribute: column 3 reads bytes 36..47 of a 36-byte attribute | offset + 6 floats | high (not executed) | Vao.Mat3ThirdColumnCall | Vao.FinalizedPointer |
| include/render/Color.h:211-213 | `index - i` wraps in `size_t` before `% 24` | `red() - 1` gives slot 15 | slot 23 | high (not executed) | Colors.MinusWrapsFromRed | Colors.PlusMinusInverse |
| include/render/Color.h:207-209 | `index + i` with negative `i` wraps the same way | `red() + (-1)` gives slot 15 | slot 23 | medium (not executed) | Colors.PlusNegativeWrapsFromRed | Colors.Plus |
| opengl/OpenglTexture.cpp:107-119 | `getByteSize` counts 4 bytes per pixel for `R` and 16 for `RGBA` | a correctly sized `R` upload to `make` is refused by the size check | 1 and 4, as the upload's format and type say | high (not executed) | Texture.SingleChannelUploadRefused | Texture.Make |
| include/render/opengl/OpenglPBO.h:65-90 | `getDownload` never sets `bufferMapped` | after `getDownload`, a new `download` is accepted while the view is held | mark the buffer mapped until the view is released | high (not executed) | Pbo.MappedFlagNeverSet | Pbo.ReadViewOutlivesMapping |
| include/render/opengl/OpenglPBO.h:89-101 | the returned view is a moved temporary whose destructor unmaps the buffer | any successful `getDownload`: the buffer is unmapped before the caller reads it | leave the unmap to the caller's view | medium (not executed; `DEFAULT_MOVE` not shown) | Pbo.GetDownloadAsWritten | Pbo.GetDownload |
| opengl/Uniforms.cpp:78-98 | the 3D sampler calls `getNextSampler` twice | the first 3D sampler of a program uses unit 1 and wastes unit 0 | take one unit, as the buffer-texture sampler does | medium (not executed) | Uniforms.Sampler3DSkipsAUnit | Uniforms.InitializeSamplerBuffer |

=== FILE: buffer_texture.dfy ===
/**
 * `OpenglBufferTexture`: a texture whose texels are read from a vertex
 * buffer. Attaching a buffer is de-duplicated by handle and refused when
 * the buffer's element size is not the texel size of the format.
 */
module BufferTexture {
  import opened Gl
  import opened Qualifier
  import C = OpenglContext
  import V = Vbo

  datatype InternalFormat = R32F | RGBA32F | RGB32F | RGB32UI | RGB32I

  datatype BufferTexture = BufferTexture(id: Qualified, format: InternalFormat, boundVbo: Qualified)

  /** `getInternalFormat()`. */
  function GlFormat(f: InternalFormat): GlInternalFormat {
    match f
    case R32F => GlInternalFormat.R32F
    case RGBA32F => GlInternalFormat.RGBA32F
    case RGB32F => GlInternalFormat.RGB32F
    case RGB32UI => GlInternalFormat.RGB32UI
    case RGB32I => GlInternalFormat.RGB32I
  }

  /** Channels per texel, as the format's name spells them. */
  function Channels(f: InternalFormat): nat {
    match f
    case R32F => 1
    case RGBA32F => 4
    case _ => 3
  }

  /** `getInternalFormatByteSize()`: every channel is a 32-bit value. */
  function TexelBytes(f: InternalFormat): (r: int)
    ensures r == 4 * Channels(f)
  {
    match f
    case R32F => 4
    case RGBA32F => 16
    case RGB32F => 12
    case RGB32UI => 12
    case RGB32I => 12
  }

  /** The constructor: a fresh qualifier from the context, the driver's name, nothing attached. */
  function New(ctx: C.Context, name: nat, f: InternalFormat): (r: (C.Context, BufferTexture))
    ensures r.1.id == Qualified(name, ctx.qualifierCounter) && r.1.format == f && r.1.boundVbo == Default
    ensures r.0.qualifierCounter == ctx.qualifierCounter + 1
  {
    var issued := C.GetQualifier(ctx);
    (issued.state, BufferTexture(Qualified(name, issued.qualifier), f, Default))
  }

  /**
   * `bind(VBO)`: nothing when that buffer is attached already, nothing but
   * a logged error when its element size differs from the texel size;
   * otherwise binds the texture on unit 0 and attaches the buffer.
   */
  function Attach(ctx: C.Context, t: BufferTexture, vbo: V.Vbo): (r: Step<(C.Context, BufferTexture)>)
    requires |ctx.samplerUnits| > 0
    ensures r.events == [] <==> t.boundVbo == vbo.id || TexelBytes(t.format) != vbo.elementByteSize
    ensures r.events == [] ==> r.state == (ctx, t)
    ensures r.events != [] ==>
      r.state.1 == t.(boundVbo := vbo.id) &&
      |r.state.0.samplerUnits| == |ctx.samplerUnits| &&
      r.state.0.samplerUnits[0] == C.SamplerUnitInfo(t.id, TextureTarget.TextureBuffer) &&
      r.events[|r.events| - 1] == TexBuffer(GlFormat(t.format), vbo.id.data)
    ensures !r.asserted
  {
    if t.boundVbo == vbo.id then Step((ctx, t), [], false)
    else if TexelBytes(t.format) != vbo.elementByteSize then Step((ctx, t), [], false)
    else
      var b := C.BindTexture(ctx, t.id, TextureTarget.TextureBuffer, 0);
      Step((b.state, t.(boundVbo := vbo.id)), b.events + [TexBuffer(GlFormat(t.format), vbo.id.data)], false)
  }

  /** Attaching the same buffer twice issues the calls once. */
  lemma AttachIdempotent(ctx: C.Context, t: BufferTexture, vbo: V.Vbo)
    requires |ctx.samplerUnits| > 0
    ensures var r := Attach(ctx, t, vbo);
      |r.state.0.samplerUnits| > 0 && Attach(r.state.0, r.state.1, vbo) == Step(r.state, [], false)
  {
  }

  /** A buffer whose elements are not texels of the format is never attached. */
  lemma MismatchNeverAttaches(ctx: C.Context, t: BufferTexture, vbo: V.Vbo)
    requires |ctx.samplerUnits| > 0
    requires 4 * Channels(t.format) != vbo.elementByteSize
    ensures Attach(ctx, t, vbo).state.1.boundVbo == t.boundVbo
  {
  }
}

=== FILE: cache_writes.dfy ===
/**
 * The write a cached value performs: `info->data[index].*ptr = s`. An arena
 * element is a record whose fields are addressed by the member pointer
 * `ptr`; the stored type itself stays opaque.
 */
module CacheWrites {
  import opened RenderInfo

  /** A member pointer `Info::*ptr`, named by a number. */
  type Field = nat

  /** One arena element: its fields, by member pointer. */
  type Row<V> = map<Field, V>

  /** Which arena a value is attached to: the address held in `info`. */
  type ArenaRef = nat

  /** `row.*ptr = s`. */
  function SetField<V>(row: Row<V>, ptr: Field, s: V): (r: Row<V>)
    ensures ptr in r && r[ptr] == s
    ensures forall f :: f in row && f != ptr ==> f in r && r[f] == row[f]
    ensures r.Keys == row.Keys + {ptr}
  {
    row[ptr := s]
  }

  /** `info->data[index].*ptr = s` for an index inside the arena. */
  function WriteOne<V>(a: Arena<Row<V>>, index: int, ptr: Field, s: V): (r: Arena<Row<V>>)
    requires 0 <= index < Size(a)
    ensures Size(r) == Size(a)
    ensures r.data[index] == SetField(a.data[index], ptr, s)
    ensures forall i :: 0 <= i < Size(a) && i != index ==> r.data[i] == a.data[i]
  {
    Arena(a.data[index := SetField(a.data[index], ptr, s)])
  }

  /** Every index of `indices` lies inside the arena. */
  predicate AllInRange<V>(a: Arena<Row<V>>, indices: seq<int>) {
    forall k :: 0 <= k < |indices| ==> 0 <= indices[k] < Size(a)
  }

  /**
   * The range-for over `indices`, writing `s` into field `ptr` of each
   * addressed element. Repeated indices are written again with the same
   * value.
   */
  function WriteAll<V>(a: Arena<Row<V>>, indices: seq<int>, ptr: Field, s: V): (r: Arena<Row<V>>)
    requires AllInRange(a, indices)
    ensures Size(r) == Size(a)
    ensures forall i :: 0 <= i < Size(a) ==>
      r.data[i] == (if i in indices then SetField(a.data[i], ptr, s) else a.data[i])
    decreases |indices|
  {
    if indices == [] then a
    else
      var rest := WriteAll(WriteOne(a, indices[0], ptr, s), indices[1..], ptr, s);
      assert forall i :: i in indices <==> i == indices[0] || i in indices[1..];
      rest
  }

  /** The addressed field holds `s` at every index after the loop. */
  lemma {:induction false} WriteAllReaches<V>(a: Arena<Row<V>>, indices: seq<int>, ptr: Field, s: V)
    requires AllInRange(a, indices)
    ensures forall k :: 0 <= k < |indices| ==>
      ptr in WriteAll(a, indices, ptr, s).data[indices[k]] &&
      WriteAll(a, indices, ptr, s).data[indices[k]][ptr] == s
  {
    var r := WriteAll(a, indices, ptr, s);
    forall k | 0 <= k < |indices|
      ensures ptr in r.data[indices[k]] && r.data[indices[k]][ptr] == s
    {
      assert indices[k] in indices;
    }
  }
}

=== FILE: coherence.dfy ===
/**
 * The promise behind the context's cache: whatever it records as bound is
 * what the driver holds, so skipping a call is never observable. A cached
 * default handle promises nothing. The pixel-buffer targets are cached in
 * dedicated fields, so the per-target table must leave them alone.
 */
module Coherence {
  import opened Gl
  import opened Qualifier
  import opened Driver
  import opened Wrappers
  import RenderConfig
  import C = OpenglContext
  import V = Vbo

  /** Issuing `call` again would change nothing in the driver. */
  predicate Settled(g: GlState, call: Option<Event>) {
    call.Some? ==> Apply(g, call.value) == g
  }

  /** The driver call for axis `k` (in the order `setConfiguration` visits them) of `c`. */
  function AxisCall(c: RenderConfig.Configuration, k: nat): Option<Event>
    requires k < 7
  {
    match k
    case 0 => RenderConfig.BlendCall(c.blend)
    case 1 => RenderConfig.BlendFuncCall(c.blendFunc)
    case 2 => RenderConfig.BlendEquationCall(c.blendEquation)
    case 3 => RenderConfig.DepthTestCall(c.depthTest)
    case 4 => RenderConfig.DepthFuncCall(c.depthFunc)
    case 5 => RenderConfig.DepthMaskCall(c.depthMask)
    case _ => RenderConfig.SrgbCall(c.srgbMode)
  }

  /** The axis a configuration call belongs to; other calls have none. */
  function AxisOf(e: Event): Option<nat> {
    match e
    case Enable(CapBlend) => Some(0)
    case Disable(CapBlend) => Some(0)
    case BlendFunc(_, _) => Some(1)
    case BlendFuncSeparate(_, _, _, _) => Some(1)
    case BlendEquation(_) => Some(2)
    case Enable(CapDepthTest) => Some(3)
    case Disable(CapDepthTest) => Some(3)
    case DepthFunc(_) => Some(4)
    case DepthMask(_) => Some(5)
    case Enable(CapFramebufferSrgb) => Some(6)
    case Disable(CapFramebufferSrgb) => Some(6)
    case _ => None
  }

  /** Every configuration axis with a value is in effect in the driver. */
  predicate ConfigCoherent(c: RenderConfig.Configuration, g: GlState) {
    forall k :: 0 <= k < 7 ==> Settled(g, AxisCall(c, k))
  }

  /** The driver state with everything but the configuration axes zeroed. */
  function ConfigPart(g: GlState): GlState {
    g.(vertexArray := 0, program := 0, framebuffer := 0, buffers := map[], stores := map[], activeTexture := 0,
       textures := map[], viewport := ZeroViewport)
  }

  /** The per-target buffer table against the driver's buffer bindings. */
  predicate BuffersCoherent(cache: map<BufferTarget, Qualified>, held: map<BufferTarget, nat>) {
    && (PixelPackBuffer in cache ==> cache[PixelPackBuffer] == Default)
    && (PixelUnpackBuffer in cache ==> cache[PixelUnpackBuffer] == Default)
    && forall t :: t in cache && cache[t] != Default ==> t in held && held[t] == cache[t].data
  }

  /** Each sampler unit against the driver's per-unit texture bindings. */
  predicate UnitsCoherent(units: seq<C.SamplerUnitInfo>, held: map<(int, TextureTarget), nat>) {
    forall u :: 0 <= u < |units| && units[u].texture != Default ==>
      && units[u].target != Unbound
      && (if (u, units[u].target) in held then held[(u, units[u].target)] else 0) == units[u].texture.data
  }

  predicate Coherent(ctx: C.Context, g: GlState) {
    && (ctx.boundVao != Default ==> g.vertexArray == ctx.boundVao.data)
    && (ctx.usedProgram != Default ==> g.program == ctx.usedProgram.data)
    && (ctx.boundFramebuffer != Default ==> g.framebuffer == ctx.boundFramebuffer.data)
    && (ctx.boundPackPbo != Default ==> BufferAt(g, PixelPackBuffer) == ctx.boundPackPbo.data)
    && (ctx.boundUnpackPbo != Default ==> BufferAt(g, PixelUnpackBuffer) == ctx.boundUnpackPbo.data)
    && BuffersCoherent(ctx.boundBuffers, g.buffers)
    && g.activeTexture == ctx.activeUnit
    && UnitsCoherent(ctx.samplerUnits, g.textures)
    && (ctx.viewport != ZeroViewport ==> g.viewport == ctx.viewport)
    && ConfigCoherent(ctx.configuration, ConfigPart(g))
  }

  lemma ReplaySingle(g: GlState, e: Event)
    ensures Replay(g, [e]) == Apply(g, e)
  {
    assert [e][1..] == [];
  }

  /** A new context agrees with a driver whose active unit is the initial one. */
  lemma NewIsCoherent(maxUnits: nat, g: GlState)
    requires g.activeTexture == 0
    ensures Coherent(C.New(maxUnits), g)
  {
  }

  lemma {:induction false} BindVaoCoherent(ctx: C.Context, g: GlState, id: Qualified)
    requires Coherent(ctx, g)
    ensures Coherent(C.BindVao(ctx, id).state, Replay(g, C.BindVao(ctx, id).events))
  {
    if ctx.boundVao != id {
      ReplaySingle(g, BindVertexArray(id.data));
    }
  }

  lemma {:induction false} UseProgramCoherent(ctx: C.Context, g: GlState, id: Qualified)
    requires Coherent(ctx, g)
    ensures Coherent(C.UseProgram(ctx, id).state, Replay(g, C.UseProgram(ctx, id).events))
  {
    if ctx.usedProgram != id {
      ReplaySingle(g, Event.UseProgram(id.data));
    }
  }

  lemma {:induction false} BindFramebufferCoherent(ctx: C.Context, g: GlState, id: Qualified)
    requires Coherent(ctx, g)
    ensures Coherent(C.BindFramebuffer(ctx, id).state, Replay(g, C.BindFramebuffer(ctx, id).events))
  {
    if ctx.boundFramebuffer != id {
      ReplaySingle(g, Event.BindFramebuffer(FramebufferEnum, id.data));
    }
  }

  lemma {:induction false} BindPackCoherent(ctx: C.Context, g: GlState, id: Qualified)
    requires Coherent(ctx, g)
    ensures Coherent(C.BindPack(ctx, id).state, Replay(g, C.BindPack(ctx, id).events))
  {
    if ctx.boundPackPbo != id {
      ReplaySingle(g, Event.BindBuffer(PixelPackBuffer, id.data));
      ApplyBindBuffer(g, PixelPackBuffer, id.data);
    }
  }

  lemma {:induction false} BindUnpackCoherent(ctx: C.Context, g: GlState, id: Qualified)
    requires Coherent(ctx, g)
    ensures Coherent(C.BindUnpack(ctx, id).state, Replay(g, C.BindUnpack(ctx, id).events))
  {
    if ctx.boundUnpackPbo != id {
      ReplaySingle(g, Event.BindBuffer(PixelUnpackBuffer, id.data));
      ApplyBindBuffer(g, PixelUnpackBuffer, id.data);
    }
  }

  lemma {:induction false} UnbindPackCoherent(ctx: C.Context, g: GlState, truthy: Qualified -> bool)
    requires Coherent(ctx, g)
    ensures Coherent(C.UnbindPack(ctx, truthy).state, Replay(g, C.UnbindPack(ctx, truthy).events))
  {
    if truthy(ctx.boundPackPbo) {
      ReplaySingle(g, Event.BindBuffer(PixelPackBuffer, 0));
      ApplyBindBuffer(g, PixelPackBuffer, 0);
    }
  }

  lemma {:induction false} UnbindUnpackCoherent(ctx: C.Context, g: GlState, truthy: Qualified -> bool)
    requires Coherent(ctx, g)
    ensures Coherent(C.UnbindUnpack(ctx, truthy).state, Replay(g, C.UnbindUnpack(ctx, truthy).events))
  {
    if truthy(ctx.boundUnpackPbo) {
      ReplaySingle(g, Event.BindBuffer(PixelUnpackBuffer, 0));
      ApplyBindBuffer(g, PixelUnpackBuffer, 0);
    }
  }

  /** A buffer binding changes the driver's binding of that target and nothing else. */
  lemma ApplyBindBuffer(g: GlState, t: BufferTarget, n: nat)
    ensures Apply(g, Event.BindBuffer(t, n)) == g.(buffers := g.buffers[t := n])
    ensures ConfigPart(Apply(g, Event.BindBuffer(t, n))) == ConfigPart(g)
  {
  }

  /** The per-target table stays coherent for every target but the pixel buffers. */
  lemma {:induction false} BindBufferCoherent(ctx: C.Context, g: GlState, id: Qualified, t: BufferTarget)
    requires Coherent(ctx, g)
    requires t != PixelPackBuffer && t != PixelUnpackBuffer
    ensures Coherent(C.BindBuffer(ctx, id, t).state, Replay(g, C.BindBuffer(ctx, id, t).events))
  {
    if C.BoundBuffer(ctx, t) != id {
      ReplaySingle(g, Event.BindBuffer(t, id.data));
      ApplyBindBuffer(g, t, id.data);
    }
  }

  /**
   * `setData` keeps the context coherent with the driver, leaves the VBO's
   * buffer bound to the target, and gives that buffer a store of the
   * uploaded byte count.
   */
  lemma {:induction false} SetDataCoherent(ctx: C.Context, g: GlState, v: V.Vbo, elementSize: nat, count: nat, target: BufferTarget)
    requires Coherent(ctx, g)
    requires target != PixelPackBuffer && target != PixelUnpackBuffer
    requires elementSize < V.IntRange && count < V.IntRange && elementSize * count < V.IntRange
    ensures V.SetData(ctx, v, elementSize, count, target).Ok?
    ensures var s := V.SetData(ctx, v, elementSize, count, target).value.0;
      var g' := Replay(g, s.events);
      && Coherent(s.state, g')
      && (v.id != Default ==> BufferAt(g', target) == v.id.data)
      && (v.id.data != 0 ==> StoreOf(g', v.id.data) == elementSize * count)
  {
    var b := C.BindBuffer(ctx, v.id, target);
    var bytes := BufferData(target, count * elementSize);
    BindBufferCoherent(ctx, g, v.id, target);
    BindBufferHeld(ctx, g, v.id, target);
    var h := Replay(g, b.events);
    UploadKeepsBindings(b.state, h, target, count * elementSize);
    ReplayConcat(g, b.events, [bytes]);
    ReplaySingle(h, bytes);
  }

  /** After binding `id` to `t`, the driver holds it there unless it is the default. */
  lemma BindBufferHeld(ctx: C.Context, g: GlState, id: Qualified, t: BufferTarget)
    requires Coherent(ctx, g)
    ensures id != Default ==> BufferAt(Replay(g, C.BindBuffer(ctx, id, t).events), t) == id.data
  {
    if C.BoundBuffer(ctx, t) != id {
      ReplaySingle(g, Event.BindBuffer(t, id.data));
      ApplyBindBuffer(g, t, id.data);
    }
  }

  /** An upload changes no binding: the context stays coherent and the store of the bound buffer takes the size. */
  lemma UploadKeepsBindings(ctx: C.Context, g: GlState, t: BufferTarget, bytes: int)
    requires Coherent(ctx, g)
    ensures var g' := Apply(g, BufferData(t, bytes));
      && Coherent(ctx, g')
      && g'.buffers == g.buffers
      && (BufferAt(g, t) != 0 ==> StoreOf(g', BufferAt(g, t)) == bytes)
  {
    var g' := Apply(g, BufferData(t, bytes));
    assert g' == g.(stores := g'.stores);
    assert ConfigPart(g') == ConfigPart(g);
  }

  /**
   * Binding a pixel-pack buffer through the per-target table leaves the
   * dedicated pack field believing in a buffer the driver no longer holds.
   */
  lemma PackTableAlias(ctx: C.Context, g: GlState, pbo: Qualified, vbo: Qualified)
    requires Coherent(ctx, g)
    requires ctx.boundPackPbo == pbo && pbo != Default && vbo != Default && vbo.data != pbo.data
    ensures var s := C.BindBuffer(ctx, vbo, PixelPackBuffer);
      s.state.boundPackPbo == pbo && BufferAt(Replay(g, s.events), PixelPackBuffer) != pbo.data
  {
    if C.BoundBuffer(ctx, PixelPackBuffer) != vbo {
      ReplaySingle(g, Event.BindBuffer(PixelPackBuffer, vbo.data));
    }
  }

  lemma {:induction false} BindTextureUnitCoherent(ctx: C.Context, g: GlState, unit: int)
    requires Coherent(ctx, g)
    ensures Coherent(C.BindTextureUnit(ctx, unit).state, Replay(g, C.BindTextureUnit(ctx, unit).events))
  {
    if ctx.activeUnit != unit {
      ReplaySingle(g, ActiveTexture(unit));
    }
  }

  lemma {:induction false} SetViewportCoherent(ctx: C.Context, g: GlState, v: Viewport)
    requires Coherent(ctx, g)
    ensures Coherent(C.SetViewport(ctx, v).state, Replay(g, C.SetViewport(ctx, v).events))
  {
    if ctx.viewport != v {
      ReplaySingle(g, Event.SetViewport(v));
    }
  }

  lemma ReplayPair(g: GlState, a: Event, b: Event)
    ensures Replay(g, [a, b]) == Apply(Apply(g, a), b)
  {
    assert [a, b][1..] == [b];
    ReplaySingle(Apply(g, a), b);
  }

  lemma ReplayTriple(g: GlState, a: Event, b: Event, c: Event)
    ensures Replay(g, [a, b, c]) == Apply(Apply(Apply(g, a), b), c)
  {
    assert [a, b, c][1..] == [b, c];
    ReplayPair(Apply(g, a), b, c);
  }

  /** The driver after selecting `unit` and binding `n` to `(unit, t)`. */
  function SelectAndBind(g: GlState, unit: int, t: TextureTarget, n: nat): GlState {
    g.(activeTexture := unit, textures := g.textures[(unit, t) := n])
  }

  /** The calls of `BindTexture` when the unit held another, bound target. */
  lemma BindTextureRetargetReplay(ctx: C.Context, g: GlState, id: Qualified, target: TextureTarget, unit: int)
    requires g.activeTexture == ctx.activeUnit
    requires 0 <= unit < |ctx.samplerUnits| && target != Unbound
    requires ctx.samplerUnits[unit].target != Unbound && ctx.samplerUnits[unit].target != target
    ensures var s := C.BindTexture(ctx, id, target, unit);
      var cleared := SelectAndBind(g, unit, ctx.samplerUnits[unit].target, 0);
      Replay(g, s.events) == if id != Default then SelectAndBind(cleared, unit, target, id.data) else cleared
  {
    var previous := ctx.samplerUnits[unit].target;
    var s := C.BindTexture(ctx, id, target, unit);
    var unbind := Event.BindTexture(previous, 0);
    var bind := Event.BindTexture(target, id.data);
    if ctx.activeUnit != unit {
      if id != Default {
        assert s.events == [ActiveTexture(unit), unbind, bind];
        ReplayTriple(g, ActiveTexture(unit), unbind, bind);
        ApplyBindTexture(Apply(g, ActiveTexture(unit)), previous, 0);
        ApplyBindTexture(Apply(Apply(g, ActiveTexture(unit)), unbind), target, id.data);
      } else {
        assert s.events == [ActiveTexture(unit), unbind];
        ReplayPair(g, ActiveTexture(unit), unbind);
        ApplyBindTexture(Apply(g, ActiveTexture(unit)), previous, 0);
      }
    } else {
      if id != Default {
        assert s.events == [unbind, bind];
        ReplayPair(g, unbind, bind);
        ApplyBindTexture(g, previous, 0);
        ApplyBindTexture(Apply(g, unbind), target, id.data);
      } else {
        assert s.events == [unbind];
        ReplaySingle(g, unbind);
        ApplyBindTexture(g, previous, 0);
      }
    }
  }

  /** Binding a texture to a real target binds it on the active unit. */
  lemma ApplyBindTexture(g: GlState, t: TextureTarget, n: nat)
    requires t != Unbound
    ensures Apply(g, Event.BindTexture(t, n)) == SelectAndBind(g, g.activeTexture, t, n)
  {
  }

  /** The calls of `BindTexture` when the unit held no other bound target. */
  lemma BindTextureSameTargetReplay(ctx: C.Context, g: GlState, id: Qualified, target: TextureTarget, unit: int)
    requires g.activeTexture == ctx.activeUnit
    requires 0 <= unit < |ctx.samplerUnits| && target != Unbound
    requires ctx.samplerUnits[unit].target == Unbound || ctx.samplerUnits[unit].target == target
    ensures var s := C.BindTexture(ctx, id, target, unit);
      Replay(g, s.events) == if ctx.samplerUnits[unit].texture != id then SelectAndBind(g, unit, target, id.data) else g
  {
    var s := C.BindTexture(ctx, id, target, unit);
    var bind := Event.BindTexture(target, id.data);
    if ctx.samplerUnits[unit].texture != id {
      if ctx.activeUnit != unit {
        assert s.events == [ActiveTexture(unit), bind];
        ReplayPair(g, ActiveTexture(unit), bind);
      } else {
        assert s.events == [bind];
        ReplaySingle(g, bind);
      }
    }
  }

  /** Rebinding one unit keeps the others coherent and makes it coherent. */
  lemma UnitsUpdate(units: seq<C.SamplerUnitInfo>, held: map<(int, TextureTarget), nat>, held': map<(int, TextureTarget), nat>,
                    unit: int, id: Qualified, target: TextureTarget)
    requires UnitsCoherent(units, held)
    requires 0 <= unit < |units| && target != Unbound
    requires forall k: (int, TextureTarget) :: k.0 != unit ==> (k in held <==> k in held') && (k in held ==> held[k] == held'[k])
    requires id != Default ==> (if (unit, target) in held' then held'[(unit, target)] else 0) == id.data
    ensures UnitsCoherent(units[unit := C.SamplerUnitInfo(id, target)], held')
  {
    var units' := units[unit := C.SamplerUnitInfo(id, target)];
    forall u | 0 <= u < |units'| && units'[u].texture != Default
      ensures units'[u].target != Unbound
      ensures (if (u, units'[u].target) in held' then held'[(u, units'[u].target)] else 0) == units'[u].texture.data
    {
      if u != unit {
        assert units'[u] == units[u];
        assert (u, units[u].target).0 != unit;
      }
    }
  }

  /** Changing only the sampler units and the active unit, on both sides. */
  lemma UnitsOnlyChange(ctx: C.Context, g: GlState, ctx': C.Context, g': GlState)
    requires Coherent(ctx, g)
    requires ctx' == ctx.(samplerUnits := ctx'.samplerUnits, activeUnit := ctx'.activeUnit)
    requires g' == g.(activeTexture := g'.activeTexture, textures := g'.textures)
    requires g'.activeTexture == ctx'.activeUnit
    requires UnitsCoherent(ctx'.samplerUnits, g'.textures)
    ensures Coherent(ctx', g')
  {
    assert ConfigPart(g') == ConfigPart(g);
    assert BufferAt(g', PixelPackBuffer) == BufferAt(g, PixelPackBuffer);
    assert BufferAt(g', PixelUnpackBuffer) == BufferAt(g, PixelUnpackBuffer);
  }

  /** Binding `n` to `(unit, t)` leaves every other unit's bindings as they were. */
  lemma SelectAndBindFrame(g: GlState, unit: int, t: TextureTarget, n: nat)
    ensures var held' := SelectAndBind(g, unit, t, n).textures;
      forall k: (int, TextureTarget) :: k.0 != unit ==> (k in g.textures <==> k in held') && (k in g.textures ==> g.textures[k] == held'[k])
    ensures (unit, t) in SelectAndBind(g, unit, t, n).textures && SelectAndBind(g, unit, t, n).textures[(unit, t)] == n
  {
  }

  /** The driver-side effect of `BindTexture` when the unit held another, bound target: only the unit's textures and the active unit change. */
  lemma RetargetEffect(ctx: C.Context, g: GlState, id: Qualified, target: TextureTarget, unit: int)
    requires g.activeTexture == ctx.activeUnit && UnitsCoherent(ctx.samplerUnits, g.textures)
    requires 0 <= unit < |ctx.samplerUnits| && target != Unbound
    requires ctx.samplerUnits[unit].target != Unbound && ctx.samplerUnits[unit].target != target
    ensures var s := C.BindTexture(ctx, id, target, unit);
      var g1 := Replay(g, s.events);
      && g1 == g.(activeTexture := g1.activeTexture, textures := g1.textures)
      && g1.activeTexture == s.state.activeUnit
      && UnitsCoherent(s.state.samplerUnits, g1.textures)
  {
    BindTextureRetargetReplay(ctx, g, id, target, unit);
    var cleared := SelectAndBind(g, unit, ctx.samplerUnits[unit].target, 0);
    SelectAndBindFrame(g, unit, ctx.samplerUnits[unit].target, 0);
    if id != Default {
      SelectAndBindFrame(cleared, unit, target, id.data);
      UnitsUpdate(ctx.samplerUnits, g.textures, SelectAndBind(cleared, unit, target, id.data).textures, unit, id, target);
    } else {
      UnitsUpdate(ctx.samplerUnits, g.textures, cleared.textures, unit, id, target);
    }
  }

  /** The same when the unit held no other bound target. */
  lemma SameTargetEffect(ctx: C.Context, g: GlState, id: Qualified, target: TextureTarget, unit: int)
    requires g.activeTexture == ctx.activeUnit && UnitsCoherent(ctx.samplerUnits, g.textures)
    requires 0 <= unit < |ctx.samplerUnits| && target != Unbound
    requires ctx.samplerUnits[unit].target == Unbound || ctx.samplerUnits[unit].target == target
    ensures var s := C.BindTexture(ctx, id, target, unit);
      var g1 := Replay(g, s.events);
      && g1 == g.(activeTexture := g1.activeTexture, textures := g1.textures)
      && g1.activeTexture == s.state.activeUnit
      && UnitsCoherent(s.state.samplerUnits, g1.textures)
  {
    BindTextureSameTargetReplay(ctx, g, id, target, unit);
    if ctx.samplerUnits[unit].texture != id {
      SelectAndBindFrame(g, unit, target, id.data);
      UnitsUpdate(ctx.samplerUnits, g.textures, SelectAndBind(g, unit, target, id.data).textures, unit, id, target);
    } else {
      UnitsUpdate(ctx.samplerUnits, g.textures, g.textures, unit, id, target);
    }
  }

  /**
   * Binding a texture to a unit keeps the cache coherent. The unbound
   * target is excluded: `TextureTarget::get()` asserts on it.
   */
  lemma {:induction false} BindTextureCoherent(ctx: C.Context, g: GlState, id: Qualified, target: TextureTarget, unit: int)
    requires Coherent(ctx, g)
    requires 0 <= unit < |ctx.samplerUnits| && target != Unbound
    ensures var s := C.BindTexture(ctx, id, target, unit);
      Coherent(s.state, Replay(g, s.events))
  {
    var s := C.BindTexture(ctx, id, target, unit);
    if ctx.samplerUnits[unit].target != Unbound && ctx.samplerUnits[unit].target != target {
      RetargetEffect(ctx, g, id, target, unit);
    } else {
      SameTargetEffect(ctx, g, id, target, unit);
    }
    UnitsOnlyChange(ctx, g, s.state, Replay(g, s.events));
  }

  // ---------------------------------------------------------------- configuration

  lemma AxisCallBelongs(c: RenderConfig.Configuration, k: nat)
    requires k < 7 && AxisCall(c, k).Some?
    ensures AxisOf(AxisCall(c, k).value) == Some(k)
  {
  }

  /** A configuration call settles its own axis and leaves the others as they were. */
  lemma ApplyConfigCall(g: GlState, e: Event, other: Event)
    requires AxisOf(e).Some? && AxisOf(other).Some?
    ensures Settled(Apply(g, e), Some(e))
    ensures AxisOf(e) != AxisOf(other) && Settled(g, Some(other)) ==> Settled(Apply(g, e), Some(other))
  {
  }

  /**
   * One setter: axis `k` may change, the others keep their calls, and the
   * setter issues the new call exactly when the axis changed and has one.
   */
  lemma {:induction false} AxisSetterStep(c: RenderConfig.Configuration, c': RenderConfig.Configuration, g: GlState, k: nat, es: seq<Event>)
    requires k < 7
    requires forall j :: 0 <= j < 7 && j != k ==> AxisCall(c', j) == AxisCall(c, j)
    requires ConfigCoherent(c, g)
    requires es == [] ==> AxisCall(c', k) == AxisCall(c, k) || AxisCall(c', k).None?
    requires es != [] ==> AxisCall(c', k).Some? && es == [AxisCall(c', k).value]
    ensures ConfigCoherent(c', Replay(g, es))
  {
    if es != [] {
      var e := AxisCall(c', k).value;
      ReplaySingle(g, e);
      AxisCallBelongs(c', k);
      forall j | 0 <= j < 7
        ensures Settled(Apply(g, e), AxisCall(c', j))
      {
        if AxisCall(c', j).Some? {
          AxisCallBelongs(c', j);
          ApplyConfigCall(g, e, AxisCall(c', j).value);
        }
      }
    }
  }

  /** Configuration calls leave every binding of the driver alone. */
  lemma {:induction false} ReplayConfigCalls(g: GlState, es: seq<Event>)
    requires forall i :: 0 <= i < |es| ==> AxisOf(es[i]).Some?
    ensures ConfigPart(Replay(g, es)) == Replay(ConfigPart(g), es)
    ensures var r := Replay(g, es);
      r == g.(caps := r.caps, factors := r.factors, blendMode := r.blendMode, depthFunc := r.depthFunc, depthMask := r.depthMask)
    decreases |es|
  {
    if es != [] {
      ApplyConfigFrame(g, es[0]);
      ReplayConfigCalls(Apply(g, es[0]), es[1..]);
    }
  }

  /** One configuration call touches only the configuration part of the driver. */
  lemma ApplyConfigFrame(g: GlState, e: Event)
    requires AxisOf(e).Some?
    ensures ConfigPart(Apply(g, e)) == Apply(ConfigPart(g), e)
    ensures var r := Apply(g, e);
      r == g.(caps := r.caps, factors := r.factors, blendMode := r.blendMode, depthFunc := r.depthFunc, depthMask := r.depthMask)
  {
  }

  lemma PointSizeIsNoAxis(c: RenderConfig.Configuration, p: real, g: GlState)
    requires ConfigCoherent(c.(pointSize := p), g)
    ensures ConfigCoherent(c, g)
  {
    assert forall k :: 0 <= k < 7 ==> AxisCall(c.(pointSize := p), k) == AxisCall(c, k);
  }

  /** `AxisSetterStep` after a prefix of configuration calls already issued. */
  lemma {:induction false} AxisSetterAfter(c: RenderConfig.Configuration, c': RenderConfig.Configuration, g: GlState, k: nat,
                                           done: seq<Event>, es: seq<Event>)
    requires k < 7
    requires forall j :: 0 <= j < 7 && j != k ==> AxisCall(c', j) == AxisCall(c, j)
    requires ConfigCoherent(c, Replay(g, done))
    requires forall i :: 0 <= i < |done| ==> AxisOf(done[i]).Some?
    requires es == [] ==> AxisCall(c', k) == AxisCall(c, k) || AxisCall(c', k).None?
    requires es != [] ==> AxisCall(c', k).Some? && es == [AxisCall(c', k).value]
    ensures ConfigCoherent(c', Replay(g, done + es))
    ensures forall i :: 0 <= i < |done + es| ==> AxisOf((done + es)[i]).Some?
  {
    AxisSetterStep(c, c', Replay(g, done), k, es);
    ReplayConcat(g, done, es);
    if es != [] {
      AxisCallBelongs(c', k);
    }
    forall i | 0 <= i < |done + es|
      ensures AxisOf((done + es)[i]).Some?
    {
      if i < |done| { assert (done + es)[i] == done[i]; } else { assert (done + es)[i] == es[i - |done|]; }
    }
  }

  lemma SetBlendSettles(c: RenderConfig.Configuration, v: RenderConfig.Blend, g: GlState, done: seq<Event>)
    requires ConfigCoherent(c, Replay(g, done))
    requires forall i :: 0 <= i < |done| ==> AxisOf(done[i]).Some?
    ensures var s := RenderConfig.SetBlend(c, v);
      && ConfigCoherent(s.state, Replay(g, done + s.events))
      && (forall i :: 0 <= i < |done + s.events| ==> AxisOf((done + s.events)[i]).Some?)
  {
    var s := RenderConfig.SetBlend(c, v);
    AxisSetterAfter(c, s.state, g, 0, done, s.events);
  }

  lemma SetBlendFuncSettles(c: RenderConfig.Configuration, v: RenderConfig.BlendFunc, g: GlState, done: seq<Event>)
    requires ConfigCoherent(c, Replay(g, done))
    requires forall i :: 0 <= i < |done| ==> AxisOf(done[i]).Some?
    ensures var s := RenderConfig.SetBlendFunc(c, v);
      && ConfigCoherent(s.state, Replay(g, done + s.events))
      && (forall i :: 0 <= i < |done + s.events| ==> AxisOf((done + s.events)[i]).Some?)
  {
    var s := RenderConfig.SetBlendFunc(c, v);
    AxisSetterAfter(c, s.state, g, 1, done, s.events);
  }

  lemma SetBlendEquationSettles(c: RenderConfig.Configuration, v: RenderConfig.BlendEquation, g: GlState, done: seq<Event>)
    requires ConfigCoherent(c, Replay(g, done))
    requires forall i :: 0 <= i < |done| ==> AxisOf(done[i]).Some?
    ensures var s := RenderConfig.SetBlendEquation(c, v);
      && ConfigCoherent(s.state, Replay(g, done + s.events))
      && (forall i :: 0 <= i < |done + s.events| ==> AxisOf((done + s.events)[i]).Some?)
  {
    var s := RenderConfig.SetBlendEquation(c, v);
    AxisSetterAfter(c, s.state, g, 2, done, s.events);
  }

  lemma SetDepthTestSettles(c: RenderConfig.Configuration, v: RenderConfig.DepthTest, g: GlState, done: seq<Event>)
    requires ConfigCoherent(c, Replay(g, done))
    requires forall i :: 0 <= i < |done| ==> AxisOf(done[i]).Some?
    ensures var s := RenderConfig.SetDepthTest(c, v);
      && ConfigCoherent(s.state, Replay(g, done + s.events))
      && (forall i :: 0 <= i < |done + s.events| ==> AxisOf((done + s.events)[i]).Some?)
  {
    var s := RenderConfig.SetDepthTest(c, v);
    AxisSetterAfter(c, s.state, g, 3, done, s.events);
  }

  lemma SetDepthFuncSettles(c: RenderConfig.Configuration, v: RenderConfig.DepthFunc, g: GlState, done: seq<Event>)
    requires ConfigCoherent(c, Replay(g, done))
    requires forall i :: 0 <= i < |done| ==> AxisOf(done[i]).Some?
    ensures var s := RenderConfig.SetDepthFunc(c, v);
      && ConfigCoherent(s.state, Replay(g, done + s.events))
      && (forall i :: 0 <= i < |done + s.events| ==> AxisOf((done + s.events)[i]).Some?)
  {
    var s := RenderConfig.SetDepthFunc(c, v);
    AxisSetterAfter(c, s.state, g, 4, done, s.events);
  }

  lemma SetDepthMaskSettles(c: RenderConfig.Configuration, v: RenderConfig.DepthMask, g: GlState, done: seq<Event>)
    requires ConfigCoherent(c, Replay(g, done))
    requires forall i :: 0 <= i < |done| ==> AxisOf(done[i]).Some?
    ensures var s := RenderConfig.SetDepthMask(c, v);
      && ConfigCoherent(s.state, Replay(g, done + s.events))
      && (forall i :: 0 <= i < |done + s.events| ==> AxisOf((done + s.events)[i]).Some?)
  {
    var s := RenderConfig.SetDepthMask(c, v);
    AxisSetterAfter(c, s.state, g, 5, done, s.events);
  }

  lemma SetSrgbModeSettles(c: RenderConfig.Configuration, v: RenderConfig.SrgbMode, g: GlState, done: seq<Event>)
    requires ConfigCoherent(c, Replay(g, done))
    requires forall i :: 0 <= i < |done| ==> AxisOf(done[i]).Some?
    ensures var s := RenderConfig.SetSrgbMode(c, v);
      && ConfigCoherent(s.state, Replay(g, done + s.events))
      && (forall i :: 0 <= i < |done + s.events| ==> AxisOf((done + s.events)[i]).Some?)
  {
    var s := RenderConfig.SetSrgbMode(c, v);
    AxisSetterAfter(c, s.state, g, 6, done, s.events);
  }

  /** The blend setters, run first, settle their axes after the calls already issued. */
  lemma SettleBlendAxes(c0: RenderConfig.Configuration, c: RenderConfig.Configuration, g: GlState)
    requires ConfigCoherent(c0, g)
    ensures var s1 := RenderConfig.SetBlend(c0, c.blend);
      var s2 := RenderConfig.SetBlendFunc(s1.state, c.blendFunc);
      var s3 := RenderConfig.SetBlendEquation(s2.state, c.blendEquation);
      var d := s1.events + s2.events + s3.events;
      && ConfigCoherent(s3.state, Replay(g, d))
      && (forall i :: 0 <= i < |d| ==> AxisOf(d[i]).Some?)
  {
    var s1 := RenderConfig.SetBlend(c0, c.blend);
    var s2 := RenderConfig.SetBlendFunc(s1.state, c.blendFunc);
    var s3 := RenderConfig.SetBlendEquation(s2.state, c.blendEquation);
    assert Replay(g, []) == g;
    SetBlendSettles(c0, c.blend, g, []);
    assert [] + s1.events == s1.events;
    SetBlendFuncSettles(s1.state, c.blendFunc, g, s1.events);
    SetBlendEquationSettles(s2.state, c.blendEquation, g, s1.events + s2.events);
  }

  /** The depth and sRGB setters, run next, settle their axes after the calls already issued. */
  lemma SettleDepthAxes(c3: RenderConfig.Configuration, c: RenderConfig.Configuration, g: GlState, done: seq<Event>)
    requires ConfigCoherent(c3, Replay(g, done))
    requires forall i :: 0 <= i < |done| ==> AxisOf(done[i]).Some?
    ensures var s4 := RenderConfig.SetDepthTest(c3, c.depthTest);
      var s5 := RenderConfig.SetDepthFunc(s4.state, c.depthFunc);
      var s6 := RenderConfig.SetDepthMask(s5.state, c.depthMask);
      var s7 := RenderConfig.SetSrgbMode(s6.state, c.srgbMode);
      var d := done + s4.events + s5.events + s6.events + s7.events;
      && ConfigCoherent(s7.state, Replay(g, d))
      && (forall i :: 0 <= i < |d| ==> AxisOf(d[i]).Some?)
  {
    var s4 := RenderConfig.SetDepthTest(c3, c.depthTest);
    var s5 := RenderConfig.SetDepthFunc(s4.state, c.depthFunc);
    var s6 := RenderConfig.SetDepthMask(s5.state, c.depthMask);
    SetDepthTestSettles(c3, c.depthTest, g, done);
    SetDepthFuncSettles(s4.state, c.depthFunc, g, done + s4.events);
    SetDepthMaskSettles(s5.state, c.depthMask, g, done + s4.events + s5.events);
    SetSrgbModeSettles(s6.state, c.srgbMode, g, done + s4.events + s5.events + s6.events);
  }

  /** The seven setters, run in order, bring every axis with a value into effect. */
  lemma {:induction false} SetConfigurationSettles(c0: RenderConfig.Configuration, c: RenderConfig.Configuration, g: GlState)
    requires ConfigCoherent(c0, g)
    ensures var es := RenderConfig.SetAll(c0, c).events;
      && ConfigCoherent(c, Replay(g, es))
      && (forall i :: 0 <= i < |es| ==> AxisOf(es[i]).Some?)
  {
    var s1 := RenderConfig.SetBlend(c0, c.blend);
    var s2 := RenderConfig.SetBlendFunc(s1.state, c.blendFunc);
    var s3 := RenderConfig.SetBlendEquation(s2.state, c.blendEquation);
    var s4 := RenderConfig.SetDepthTest(s3.state, c.depthTest);
    var s5 := RenderConfig.SetDepthFunc(s4.state, c.depthFunc);
    var s6 := RenderConfig.SetDepthMask(s5.state, c.depthMask);
    var s7 := RenderConfig.SetSrgbMode(s6.state, c.srgbMode);
    var d := s1.events + s2.events + s3.events;
    SettleBlendAxes(c0, c, g);
    SettleDepthAxes(s3.state, c, g, d);
    var es := d + s4.events + s5.events + s6.events + s7.events;
    assert RenderConfig.SetAll(c0, c).events == es;
    assert s7.state == c.(pointSize := c0.pointSize);
    PointSizeIsNoAxis(c, c0.pointSize, Replay(g, es));
  }

  /** `setConfiguration` keeps the whole cache coherent. */
  lemma {:induction false} SetConfigurationCoherent(ctx: C.Context, g: GlState, c: RenderConfig.Configuration)
    requires Coherent(ctx, g)
    ensures var s := C.SetConfiguration(ctx, c);
      Coherent(s.state, Replay(g, s.events))
  {
    var s := C.SetConfiguration(ctx, c);
    SetConfigurationSettles(ctx.configuration, c, ConfigPart(g));
    ReplayConfigCalls(g, s.events);
  }
}

=== FILE: color.dfy ===
/**
 * `render::Color`: a colour packed into one 32-bit word with red in the low
 * byte, then green, blue and alpha; and `twocolor`, a cursor into a fixed
 * palette of 24 hues. The palette entries and the sRGB conversion are
 * floating-point work outside this model; only the indices are modelled.
 */
module Colors {

  type Word = bv32

  datatype Color = Color(c: Word)

  /** Byte `k` of a packed colour, as the shift-and-mask extractions read it. */
  function Byte(col: Color, k: nat): (r: Word)
    requires k < 4
    ensures r < 256
  {
    if k == 0 then col.c & 0xFF
    else if k == 1 then (col.c >> 8) & 0xFF
    else if k == 2 then (col.c >> 16) & 0xFF
    else col.c >> 24
  }

  /** The integer reads behind `redNormalized`, `greenNormalized`, `blueNormalized`: bytes 0, 1 and 2. */
  function Red(col: Color): (r: Word)
    ensures r < 256 && r == Byte(col, 0)
  {
    col.c & 0xFF
  }

  function Green(col: Color): (r: Word)
    ensures r < 256 && r == Byte(col, 1)
  {
    (col.c >> 8) & 0xFF
  }

  function Blue(col: Color): (r: Word)
    ensures r < 256 && r == Byte(col, 2)
  {
    (col.c >> 16) & 0xFF
  }

  /** `rgb(r, g, b)`: opaque colour; the arguments are full 32-bit words and may overlap. */
  function Rgb(r: Word, g: Word, b: Word): (res: Color)
    ensures Byte(res, 3) == 0xFF
  {
    Color(r | (g << 8) | (b << 16) | 0xFF000000)
  }

  /** `rgba(r, g, b, a)`. */
  function Rgba(r: Word, g: Word, b: Word, a: Word): (res: Color)
    ensures r < 256 && g < 256 && b < 256 ==> Byte(res, 0) == r && Byte(res, 1) == g && Byte(res, 2) == b
  {
    Color(r | (g << 8) | (b << 16) | (a << 24))
  }

  /** With byte-sized components, `rgb` places each in its own byte and the extractions recover them. */
  lemma RgbRoundTrip(r: Word, g: Word, b: Word)
    requires r < 256 && g < 256 && b < 256
    ensures Byte(Rgb(r, g, b), 0) == r && Byte(Rgb(r, g, b), 1) == g && Byte(Rgb(r, g, b), 2) == b
    ensures Red(Rgb(r, g, b)) == r && Green(Rgb(r, g, b)) == g && Blue(Rgb(r, g, b)) == b
  {
  }

  /** With byte-sized components, `rgba` places `a` in the top byte. */
  lemma RgbaRoundTrip(r: Word, g: Word, b: Word, a: Word)
    requires r < 256 && g < 256 && b < 256 && a < 256
    ensures Byte(Rgba(r, g, b, a), 3) == a
    ensures Red(Rgba(r, g, b, a)) == r && Green(Rgba(r, g, b, a)) == g && Blue(Rgba(r, g, b, a)) == b
  {
  }

  /** `rgb` is `rgba` with a fully opaque alpha. */
  lemma RgbIsOpaqueRgba(r: Word, g: Word, b: Word)
    ensures Rgb(r, g, b) == Rgba(r, g, b, 0xFF)
  {
  }

  /**
   * Integer `alpha(c, val)`: masks the alpha byte with `val`, so the colour
   * can only become more transparent. The argument is asserted to be a
   * byte; the model takes it as one.
   */
  function Alpha(col: Color, val: bv8): (r: Color)
    ensures r.c & 0x00FF_FFFF == col.c & 0x00FF_FFFF
    ensures Byte(r, 3) == Byte(col, 3) & (val as Word)
    ensures Byte(r, 3) <= Byte(col, 3)
  {
    Color(col.c & (0x00FF_FFFF | ((val as Word) << 24)))
  }

  /** Alpha 255 keeps the colour; alpha 0 makes it fully transparent. */
  lemma AlphaExtremes(col: Color)
    ensures Alpha(col, 255) == col
    ensures Byte(Alpha(col, 0), 3) == 0
  {
  }

  /** `==` and `!=` compare the packed word, which is the whole colour. */
  predicate Equal(a: Color, b: Color): (r: bool)
    ensures r <==> a == b
  {
    a.c == b.c
  }

  /** Packed-word equality is colour identity, and every byte must agree. */
  lemma EqualIffSameBytes(a: Color, b: Color)
    ensures Equal(a, b) <==> a == b
    ensures Equal(a, b) <==> forall k :: 0 <= k < 4 ==> Byte(a, k) == Byte(b, k)
  {
    if forall k :: 0 <= k < 4 ==> Byte(a, k) == Byte(b, k) {
      assert Byte(a, 0) == Byte(b, 0) && Byte(a, 1) == Byte(b, 1);
      assert Byte(a, 2) == Byte(b, 2) && Byte(a, 3) == Byte(b, 3);
    }
  }

  /** The palette size `twocolors.size()`. */
  const PaletteSize: nat := 24

  /** `size_t` is 64 bits wide. */
  const SizeRange: int := 0x1_0000_0000_0000_0000

  /** A `twocolor`: a `size_t` index into the palette. */
  datatype TwoColor = TwoColor(index: nat)

  predicate ValidIndex(t: TwoColor) { t.index < SizeRange }

  /** The cursors `red()`, `green()` and `blue()`: palette slots a third of the palette apart. */
  function TwoRed(): (r: TwoColor)
    ensures r.index < PaletteSize && Minus(r, PaletteSize / 3).index == 2 * PaletteSize / 3
  {
    TwoColor(0)
  }

  function TwoGreen(): (r: TwoColor)
    ensures r.index < PaletteSize && Minus(r, PaletteSize / 3).index == 0
  {
    TwoColor(8)
  }

  function TwoBlue(): (r: TwoColor)
    ensures r.index < PaletteSize && Minus(r, PaletteSize / 3).index == PaletteSize / 3
  {
    TwoColor(16)
  }

  /** Conversion of an `int` operand to `size_t`: reduction modulo 2^64. */
  function ToSize(i: int): (r: nat)
    ensures r < SizeRange
    ensures 0 <= i < SizeRange ==> r == i
  {
    i % SizeRange
  }

  /** `operator+(int)` as written: the sum is taken in `size_t`, then reduced mod 24. */
  function PlusAsWritten(t: TwoColor, i: int): (r: TwoColor)
    requires ValidIndex(t)
    ensures r.index < PaletteSize
  {
    TwoColor(((t.index + ToSize(i)) % SizeRange) % PaletteSize)
  }

  /** `operator-(int)` as written: the difference wraps in `size_t` before the reduction. */
  function MinusAsWritten(t: TwoColor, i: int): (r: TwoColor)
    requires ValidIndex(t)
    ensures r.index < PaletteSize
  {
    TwoColor(((t.index - ToSize(i)) % SizeRange) % PaletteSize)
  }

  /** Stepping around the palette as meant: the mathematical residue mod 24. */
  function Plus(t: TwoColor, i: int): (r: TwoColor)
    ensures r.index < PaletteSize
    ensures (r.index - (t.index + i)) % PaletteSize == 0
  {
    TwoColor((t.index + i) % PaletteSize)
  }

  function Minus(t: TwoColor, i: int): (r: TwoColor)
    ensures r.index < PaletteSize
    ensures (r.index - (t.index - i)) % PaletteSize == 0
  {
    TwoColor((t.index - i) % PaletteSize)
  }

  /** A third of the palette forward takes red to green, green to blue and blue back to red. */
  lemma PrimariesAThirdApart()
    ensures Plus(TwoRed(), PaletteSize / 3) == TwoGreen()
    ensures Plus(TwoGreen(), PaletteSize / 3) == TwoBlue()
    ensures Plus(TwoBlue(), PaletteSize / 3) == TwoRed()
    ensures TwoRed() != TwoGreen() && TwoGreen() != TwoBlue() && TwoBlue() != TwoRed()
  {
  }

  /** Stepping forward then back returns to the same palette slot. */
  lemma PlusMinusInverse(t: TwoColor, i: int)
    requires t.index < PaletteSize
    ensures Minus(Plus(t, i), i) == t
  {
  }

  /**
   * As long as nothing wraps (no negative step forward and no step back
   * past zero), the written operators agree with the intended ones.
   */
  lemma AsWrittenAgreesWithoutWrap(t: TwoColor, i: int)
    requires ValidIndex(t)
    requires 0 <= i && t.index + i < SizeRange
    ensures PlusAsWritten(t, i) == Plus(t, i)
    ensures i <= t.index ==> MinusAsWritten(t, i) == Minus(t, i)
  {
    assert ToSize(i) == i;
    assert (t.index + i) % SizeRange == t.index + i;
    if i <= t.index {
      assert (t.index - i) % SizeRange == t.index - i;
    }
  }

  /** One step back from red lands on slot 15 as written, where slot 23 is meant. */
  lemma MinusWrapsFromRed()
    ensures MinusAsWritten(TwoRed(), 1).index == 15
    ensures Minus(TwoRed(), 1).index == 23
  {
  }

  /** A negative step forward from red wraps the same way. */
  lemma PlusNegativeWrapsFromRed()
    ensures PlusAsWritten(TwoRed(), -1).index == 15
    ensures Plus(TwoRed(), -1).index == 23
  {
  }

  /** `operator Color()`: indexing `twocolors`, undefined past the palette. */
  function PaletteSlot(t: TwoColor): (r: nat)
    requires t.index < PaletteSize
    ensures r < PaletteSize
  {
    t.index
  }
}

=== FILE: convert.dfy ===
/**
 * `safety_cast` and `auto_safety`: integer conversions that abort instead
 * of changing the value. An integer type is its width and signedness.
 */
module Convert {
  import opened Wrappers

  datatype IntType = IntType(bits: nat, signed: bool)

  const Int32: IntType := IntType(32, true)
  const UInt32: IntType := IntType(32, false)
  const Int64: IntType := IntType(64, true)
  const UInt64: IntType := IntType(64, false)

  function Pow2(n: nat): (r: nat)
    ensures r >= 1
  {
    if n == 0 then 1 else 2 * Pow2(n - 1)
  }

  /** The number of values of a type. */
  function Span(t: IntType): (r: nat)
    ensures r >= 1
  {
    Pow2(t.bits)
  }

  function Min(t: IntType): int {
    if t.signed && t.bits > 0 then -(Pow2(t.bits - 1) as int) else 0
  }

  function Max(t: IntType): int {
    if t.signed && t.bits > 0 then Pow2(t.bits - 1) - 1 else Pow2(t.bits) - 1
  }

  /** `std::in_range<T>(x)`. */
  predicate InRange(t: IntType, x: int) {
    Min(t) <= x <= Max(t)
  }

  lemma {:induction false} Pow2Split(n: nat)
    requires n > 0
    ensures Pow2(n) == 2 * Pow2(n - 1)
  {
  }

  /** A type's range holds exactly `Span` values. */
  lemma RangeHasSpanValues(t: IntType)
    requires t.bits > 0
    ensures Max(t) - Min(t) + 1 == Span(t)
  {
    Pow2Split(t.bits);
  }

  /** Reducing `x` into the `m` values from `lo` on lands in them, congruent to `x`. */
  lemma Reduce(x: int, lo: int, m: int)
    requires m > 0
    ensures lo <= (x - lo) % m + lo < lo + m
    ensures ((x - lo) % m + lo - x) % m == 0
  {
    var a := x - lo;
    var q := a / m;
    assert a == m * q + a % m;
    assert (x - lo) % m + lo - x == -(m * q);
    MultipleMod(m, -q);
  }

  /** Euclidean division leaves no remainder on a multiple of the divisor. */
  lemma MultipleMod(m: int, q: int)
    requires m > 0
    ensures (m * q) % m == 0
  {
    var a := m * q;
    var d := a / m;
    var r := a % m;
    assert a == m * d + r && 0 <= r < m;
    var e := q - d;
    assert m * e == m * q - m * d;
    assert m * e == r;
    if e >= 1 {
      AtLeastOnce(m, e);
    } else if e <= -1 {
      AtLeastOnce(m, -e);
    }
  }

  /** A value already among the first `m` is its own remainder. */
  lemma SmallMod(a: int, m: int)
    requires 0 <= a < m
    ensures a % m == a
  {
    var d := a / m;
    var r := a % m;
    assert a == m * d + r && 0 <= r < m;
    if d >= 1 {
      AtLeastOnce(m, d);
    } else if d <= -1 {
      AtLeastOnce(m, -d);
    }
  }

  lemma AtLeastOnce(m: int, e: int)
    requires m > 0 && e >= 1
    ensures m * e >= m
  {
    assert m * e == m * (e - 1) + m;
    assert m * (e - 1) >= 0;
  }

  /**
   * `static_cast<T>(x)` for integers: reduction to the value of `T` that is
   * congruent to `x` modulo 2^bits (for signed targets, as C++20 defines it).
   */
  function StaticCast(t: IntType, x: int): (r: int)
    requires t.bits > 0
    ensures InRange(t, r)
    ensures (r - x) % Span(t) == 0
  {
    var m := Span(t);
    var lo := Min(t);
    RangeHasSpanValues(t);
    Reduce(x, lo, m);
    (x - lo) % m + lo
  }

  /** The cast is the only value of the type congruent to `x`. */
  lemma CastUnique(t: IntType, x: int, y: int)
    requires t.bits > 0 && InRange(t, y) && (y - x) % Span(t) == 0
    ensures StaticCast(t, x) == y
  {
    var m := Span(t);
    var r := StaticCast(t, x);
    RangeHasSpanValues(t);
    var a := r - x;
    var b := y - x;
    assert a == m * (a / m) + a % m;
    assert b == m * (b / m) + b % m;
    var k := a / m - b / m;
    assert m * k == m * (a / m) - m * (b / m);
    assert r - y == m * k;
    if k >= 1 {
      AtLeastOnce(m, k);
    } else if k <= -1 {
      AtLeastOnce(m, -k);
    }
  }

  lemma {:induction false} Pow2Add(a: nat, b: nat)
    ensures Pow2(a + b) == Pow2(a) * Pow2(b)
    decreases a
  {
    if a > 0 {
      Pow2Add(a - 1, b);
      assert Pow2(a + b) == 2 * Pow2(a - 1 + b);
    }
  }

  /** The ranges of the 32-bit types, written out. */
  lemma Bounds32()
    ensures Span(Int32) == 0x1_0000_0000 && Span(UInt32) == 0x1_0000_0000
    ensures Min(Int32) == -0x8000_0000 && Max(Int32) == 0x7FFF_FFFF
    ensures Min(UInt32) == 0 && Max(UInt32) == 0xFFFF_FFFF
  {
    assert Pow2(4) == 16;
    Pow2Add(4, 4);
    Pow2Add(8, 8);
    Pow2Add(16, 16);
    Pow2Split(32);
  }

  /** `static_cast<uint32_t>(x)`, with the 32-bit constants written out. */
  function ToUInt32(x: int): (r: int)
    ensures 0 <= r <= 0xFFFF_FFFF
    ensures 0 <= x <= 0xFFFF_FFFF ==> r == x
  {
    x % 0x1_0000_0000
  }

  /** `static_cast<int32_t>(x)`, with the 32-bit constants written out. */
  function ToInt32(x: int): (r: int)
    ensures -0x8000_0000 <= r <= 0x7FFF_FFFF
    ensures -0x8000_0000 <= x <= 0x7FFF_FFFF ==> r == x
  {
    (x + 0x8000_0000) % 0x1_0000_0000 - 0x8000_0000
  }

  /** `static_cast<int32_t>` changes a value by a multiple of 2^32. */
  lemma {:induction false} ToInt32Congruent(x: int)
    ensures (ToInt32(x) - x) % 0x1_0000_0000 == 0
  {
    Casts32(x);
    Bounds32();
  }

  /** `static_cast<int32_t>` does not see multiples of 2^32. */
  lemma {:induction false} ToInt32Periodic(x: int, k: int)
    ensures ToInt32(x + 0x1_0000_0000 * k) == ToInt32(x)
  {
    var m := 0x1_0000_0000;
    var y := x + m * k;
    ToInt32Congruent(x);
    var a := ToInt32(x) - x;
    var q := a / m;
    assert a == m * q + a % m;
    assert ToInt32(x) - y == m * (q - k);
    MultipleMod(m, q - k);
    Casts32(y);
    Bounds32();
    CastUnique(Int32, y, ToInt32(x));
  }

  /** The 32-bit casts are the general `static_cast` at those types. */
  lemma {:induction false} Casts32(x: int)
    ensures ToUInt32(x) == StaticCast(UInt32, x)
    ensures ToInt32(x) == StaticCast(Int32, x)
  {
    Bounds32();
    Reduce(x, 0, 0x1_0000_0000);
    CastUnique(UInt32, x, ToUInt32(x));
    Reduce(x, -0x8000_0000, 0x1_0000_0000);
    CastUnique(Int32, x, ToInt32(x));
  }

  /** `safety_cast<T>(x)`: the value itself when `T` holds it; an abort otherwise. */
  function SafetyCast(t: IntType, x: int): (r: Result<int>)
    ensures r.Err? <==> !InRange(t, x)
    ensures r.Ok? ==> r.value == x && InRange(t, r.value)
  {
    if !InRange(t, x) then Err(Aborted) else Ok(x)
  }

  /** The conversion operator of `auto_safety`: `safety_cast` to the target type. */
  function AutoSafety(t: IntType, x: int): (r: Result<int>)
    ensures r == SafetyCast(t, x)
    ensures r.Err? <==> !InRange(t, x)
    ensures r.Ok? ==> r.value == x
  {
    SafetyCast(t, x)
  }

  /** Where `safety_cast` lets a value through it agrees with the plain `static_cast`. */
  lemma SafetyCastAgreesWithStaticCast(t: IntType, x: int)
    requires t.bits > 0
    ensures SafetyCast(t, x).Ok? <==> StaticCast(t, x) == x
    ensures SafetyCast(t, x).Ok? ==> SafetyCast(t, x).value == StaticCast(t, x)
  {
    var m := Span(t);
    var lo := Min(t);
    RangeHasSpanValues(t);
    if InRange(t, x) {
      SmallMod(x - lo, m);
    }
  }

  /** A value that fits both types survives a cast there and back unchanged. */
  lemma RoundTrip(from: IntType, to: IntType, x: int)
    requires InRange(from, x) && InRange(to, x)
    ensures SafetyCast(to, x).Ok? && SafetyCast(from, SafetyCast(to, x).value) == Ok(x)
  {
  }

  /** Widening never aborts: every value of a narrower type of the same signedness fits. */
  lemma {:induction false} WideningNeverAborts(narrow: IntType, wide: IntType, x: int)
    requires narrow.signed == wide.signed && 0 < narrow.bits <= wide.bits
    requires InRange(narrow, x)
    ensures SafetyCast(wide, x) == Ok(x)
  {
    Pow2Monotone(narrow.bits - 1, wide.bits - 1);
    Pow2Monotone(narrow.bits, wide.bits);
  }

  lemma {:induction false} Pow2Monotone(a: nat, b: nat)
    requires a <= b
    ensures Pow2(a) <= Pow2(b)
    decreases b
  {
    if a < b {
      Pow2Monotone(a, b - 1);
    }
  }
}

=== FILE: data_type.dfy ===
/**
 * `render::DataType` and its `dataTypeByteSize` table: the vertex attribute
 * types a descriptor can hold, each made of 32-bit scalars (or, for
 * `coloru32`, four bytes packed into one 32-bit word).
 */
module DataTypes {

  /** The enumeration without its `MAX` sentinel, which has no table entry. */
  datatype DataType =
    | F32 | Vec2 | Vec3 | Vec4
    | I32 | IVec2 | IVec3 | IVec4
    | U32 | UVec2 | UVec3 | UVec4
    | Mat2 | Mat3 | Mat4
    | Mat2x3 | Mat3x2 | Mat2x4 | Mat4x2 | Mat3x4 | Mat4x3
    | Coloru32

  /** `dataTypeByteSize[t]`: four bytes per scalar of the type's shape. */
  function ByteSize(t: DataType): (r: nat)
    ensures r == 4 * Columns(t) * Rows(t)
    ensures 0 < r <= 64
  {
    match t
    case F32 => 4
    case Vec2 => 8
    case Vec3 => 12
    case Vec4 => 16
    case I32 => 4
    case IVec2 => 8
    case IVec3 => 12
    case IVec4 => 16
    case U32 => 4
    case UVec2 => 8
    case UVec3 => 12
    case UVec4 => 16
    case Mat2 => 16
    case Mat3 => 36
    case Mat4 => 64
    case Mat2x3 => 24
    case Mat3x2 => 24
    case Mat2x4 => 32
    case Mat4x2 => 32
    case Mat3x4 => 48
    case Mat4x3 => 48
    case Coloru32 => 4
  }

  /**
   * The shape of a type as GLSL names it: `matCxR` has C columns of R
   * rows; a vector is one column; `coloru32` is one 32-bit word.
   */
  function Columns(t: DataType): (r: nat)
    ensures 1 <= r <= 4
  {
    match t
    case Mat2 => 2
    case Mat3 => 3
    case Mat4 => 4
    case Mat2x3 => 2
    case Mat3x2 => 3
    case Mat2x4 => 2
    case Mat4x2 => 4
    case Mat3x4 => 3
    case Mat4x3 => 4
    case _ => 1
  }

  function Rows(t: DataType): (r: nat)
    ensures 1 <= r <= 4
  {
    match t
    case Vec2 | IVec2 | UVec2 => 2
    case Vec3 | IVec3 | UVec3 => 3
    case Vec4 | IVec4 | UVec4 => 4
    case Mat2 => 2
    case Mat3 => 3
    case Mat4 => 4
    case Mat2x3 => 3
    case Mat3x2 => 2
    case Mat2x4 => 4
    case Mat4x2 => 2
    case Mat3x4 => 4
    case Mat4x3 => 3
    case _ => 1
  }
}

=== FILE: driver.dfy ===
/**
 * A reference model of the driver-side state that the context cache mirrors.
 * It gives the events their meaning: `Replay` applies a trace to a driver
 * state. Calls whose target enum the driver does not accept for that command
 * (a buffer target given to `glBindFramebuffer`, the invalid texture target
 * -1) raise GL_INVALID_ENUM and change nothing.
 */
module Driver {
  import opened Gl

  datatype Factors = Factors(srcRgb: BlendFactor, dstRgb: BlendFactor, srcAlpha: BlendFactor, dstAlpha: BlendFactor)

  datatype GlState = GlState(
    caps: set<Capability>,
    factors: Factors,
    blendMode: GlBlendMode,
    depthFunc: GlCompare,
    depthMask: bool,
    vertexArray: nat,
    program: nat,
    framebuffer: nat,
    buffers: map<BufferTarget, nat>,
    stores: map<nat, int>,
    activeTexture: int,
    textures: map<(int, TextureTarget), nat>,
    viewport: Viewport
  )

  /** The buffer bound to `t` (0 when nothing was ever bound). */
  function BufferAt(g: GlState, t: BufferTarget): nat {
    if t in g.buffers then g.buffers[t] else 0
  }

  /** The byte size of the data store of buffer object `id` (0 before any upload). */
  function StoreOf(g: GlState, id: nat): int {
    if id in g.stores then g.stores[id] else 0
  }

  /** The texture bound to target `t` of texture unit `unit`. */
  function TextureAt(g: GlState, unit: int, t: TextureTarget): nat {
    if (unit, t) in g.textures then g.textures[(unit, t)] else 0
  }

  /** The effect of one driver call. */
  function Apply(g: GlState, e: Event): GlState {
    match e
    case Enable(c) => g.(caps := g.caps + {c})
    case Disable(c) => g.(caps := g.caps - {c})
    case BlendFunc(s, d) => g.(factors := Factors(s, d, s, d))
    case BlendFuncSeparate(a, b, c, d) => g.(factors := Factors(a, b, c, d))
    case BlendEquation(m) => g.(blendMode := m)
    case DepthFunc(f) => g.(depthFunc := f)
    case DepthMask(flag) => g.(depthMask := flag)
    case BindVertexArray(id) => g.(vertexArray := id)
    case BindBuffer(t, id) => g.(buffers := g.buffers[t := id])
    case BufferData(t, bytes) =>
      if BufferAt(g, t) == 0 then g else g.(stores := g.stores[BufferAt(g, t) := bytes])
    case BindFramebuffer(t, id) =>
      if t == FramebufferEnum then g.(framebuffer := id) else g
    case ActiveTexture(u) => g.(activeTexture := u)
    case UseProgram(id) => g.(program := id)
    case BindTexture(t, id) =>
      if t == Unbound then g else g.(textures := g.textures[(g.activeTexture, t) := id])
    case SetViewport(v) => g.(viewport := v)
    case _ => g
  }

  /** The effect of a trace of driver calls, applied left to right. */
  function Replay(g: GlState, es: seq<Event>): GlState
    decreases |es|
  {
    if es == [] then g else Replay(Apply(g, es[0]), es[1..])
  }

  /** Replaying a concatenation replays its halves one after the other. */
  lemma {:induction false} ReplayConcat(g: GlState, a: seq<Event>, b: seq<Event>)
    ensures Replay(g, a + b) == Replay(Replay(g, a), b)
    decreases |a|
  {
    if a == [] {
      assert a + b == b;
    } else {
      assert (a + b)[0] == a[0];
      assert (a + b)[1..] == a[1..] + b;
      ReplayConcat(Apply(g, a[0]), a[1..], b);
    }
  }

  /** Texture bindings are only touched by `glBindTexture` on the active unit. */
  lemma {:induction false} ReplayKeepsOtherTextures(g: GlState, es: seq<Event>, unit: int, t: TextureTarget)
    requires forall i :: 0 <= i < |es| ==> !es[i].BindTexture? || es[i].textureTarget != t
    ensures TextureAt(Replay(g, es), unit, t) == TextureAt(g, unit, t)
    decreases |es|
  {
    if es != [] {
      ApplyKeepsOtherTextures(g, es[0], unit, t);
      ReplayKeepsOtherTextures(Apply(g, es[0]), es[1..], unit, t);
    }
  }

  lemma ApplyKeepsOtherTextures(g: GlState, e: Event, unit: int, t: TextureTarget)
    requires !e.BindTexture? || e.textureTarget != t
    ensures TextureAt(Apply(g, e), unit, t) == TextureAt(g, unit, t)
  {
  }
}

=== FILE: framebuffer.dfy ===
/**
 * `OpenglFramebuffer`: the qualifier each framebuffer handle gets (fresh
 * from the context, or the fixed screen qualifier for the default
 * framebuffer) and the attach calls, which always bind the framebuffer
 * through the context first.
 */
module Framebuffer {
  import opened Gl
  import opened Qualifier
  import C = OpenglContext

  datatype Framebuffer = Framebuffer(id: Qualified)

  /** `OpenglFramebuffer(context)`: a fresh qualifier and the driver's new name. */
  function New(ctx: C.Context, name: nat): (r: (C.Context, Framebuffer))
    ensures r.1.id == Qualified(name, ctx.qualifierCounter)
    ensures r.0.qualifierCounter == ctx.qualifierCounter + 1
  {
    var issued := C.GetQualifier(ctx);
    (issued.state, Framebuffer(Qualified(name, issued.qualifier)))
  }

  /**
   * `OpenglFramebuffer(context, ID)`: name 0 is the default framebuffer and
   * takes the screen qualifier without touching the counter; any other
   * name takes a fresh qualifier.
   */
  function FromName(ctx: C.Context, name: nat): (r: (C.Context, Framebuffer))
    ensures name == 0 ==> r == (ctx, Framebuffer(Qualified(0, C.ScreenFramebufferQualifier)))
    ensures name != 0 ==> r == New(ctx, name)
  {
    if name == 0 then (ctx, Framebuffer(Qualified(0, C.ScreenFramebufferQualifier)))
    else
      var issued := C.GetQualifier(ctx);
      (issued.state, Framebuffer(Qualified(name, issued.qualifier)))
  }

  /** `screenTarget(context)`. */
  function ScreenTarget(ctx: C.Context): (r: (C.Context, Framebuffer))
    ensures r.0 == ctx && r.1.id.data == 0 && r.1.id.qualifier == -1
  {
    FromName(ctx, 0)
  }

  /** Any two screen targets are one handle, so binding the second after the first is skipped. */
  lemma ScreenTargetsShareHandle(ctx: C.Context, ctx': C.Context)
    ensures ScreenTarget(ctx).1 == ScreenTarget(ctx').1
    ensures var b := C.BindFramebuffer(ctx, ScreenTarget(ctx).1.id);
      C.BindFramebuffer(b.state, ScreenTarget(ctx').1.id).events == []
  {
  }

  /**
   * Framebuffers made one after the other from a context never share a
   * handle, and from a non-negative counter none is the screen's.
   */
  lemma FreshFramebuffersDistinct(ctx: C.Context, a: nat, b: nat)
    requires ctx.qualifierCounter >= 0
    ensures var first := FromName(ctx, a);
      var second := FromName(first.0, b);
      (a != 0 || b != 0 ==> first.1 != second.1) &&
      (a != 0 ==> first.1 != ScreenTarget(ctx).1)
  {
  }

  /** `bind()`. */
  function Bind(ctx: C.Context, fb: Framebuffer): (r: Step<C.Context>)
    ensures r.state.boundFramebuffer == fb.id && !r.asserted
    ensures r.events == [] <==> ctx.boundFramebuffer == fb.id
  {
    C.BindFramebuffer(ctx, fb.id)
  }

  /**
   * `attach(attachment, texture, mipmap)`: binds this framebuffer, then
   * attaches the texture to it.
   */
  function Attach(ctx: C.Context, fb: Framebuffer, attachment: Attachment, texture: Qualified, mipmap: int): (r: Step<C.Context>)
    ensures r.state.boundFramebuffer == fb.id && !r.asserted
    ensures |r.events| > 0 && r.events[|r.events| - 1] == FramebufferTexture(attachment, texture.data, mipmap)
    ensures r.events[..|r.events| - 1] ==
      (if ctx.boundFramebuffer == fb.id then [] else [Event.BindFramebuffer(FramebufferEnum, fb.id.data)])
  {
    var b := Bind(ctx, fb);
    var events := b.events + [FramebufferTexture(attachment, texture.data, mipmap)];
    assert events[..|events| - 1] == b.events;
    Step(b.state, events, false)
  }

  /** `attach(texture)`: mip level 0 of the texture as colour attachment 0. */
  function AttachColor0(ctx: C.Context, fb: Framebuffer, texture: Qualified): (r: Step<C.Context>)
    ensures r.state.boundFramebuffer == fb.id
    ensures |r.events| > 0 && r.events[|r.events| - 1] == FramebufferTexture(Color0, texture.data, 0)
  {
    Attach(ctx, fb, Color0, texture, 0)
  }

  /** `attach(attachment, arrayTexture, layer, mipmap)`: binds, then attaches one layer. */
  function AttachLayer(ctx: C.Context, fb: Framebuffer, attachment: Attachment, texture: Qualified, layer: int, mipmap: int): (r: Step<C.Context>)
    ensures r.state.boundFramebuffer == fb.id && !r.asserted
    ensures |r.events| > 0 && r.events[|r.events| - 1] == FramebufferTextureLayer(attachment, texture.data, mipmap, layer)
    ensures r.events[..|r.events| - 1] ==
      (if ctx.boundFramebuffer == fb.id then [] else [Event.BindFramebuffer(FramebufferEnum, fb.id.data)])
  {
    var b := Bind(ctx, fb);
    var events := b.events + [FramebufferTextureLayer(attachment, texture.data, mipmap, layer)];
    assert events[..|events| - 1] == b.events;
    Step(b.state, events, false)
  }

  /** Attaching twice to one framebuffer binds it at most once. */
  lemma AttachBindsOnce(ctx: C.Context, fb: Framebuffer, a1: Attachment, t1: Qualified, a2: Attachment, t2: Qualified)
    ensures var first := Attach(ctx, fb, a1, t1, 0);
      Attach(first.state, fb, a2, t2, 0).events == [FramebufferTexture(a2, t2.data, 0)]
  {
    var first := Attach(ctx, fb, a1, t1, 0);
    var second := Attach(first.state, fb, a2, t2, 0);
    assert second.events == second.events[..|second.events| - 1] + [second.events[|second.events| - 1]];
  }
}

=== FILE: gl.dfy ===
/**
 * The boundary to the graphics driver. Every `gl*` call of the wrapper is an
 * abstract event; GLenum values become the enumerations below. Operations of
 * the model are pure steps that return the new state together with the
 * events they issued, in order.
 */
module Gl {

  /** `BufferTarget::Type` without its `MAX` sentinel. */
  datatype BufferTarget =
    | ArrayBuffer | AtomicCounterBuffer | CopyReadBuffer | CopyWriteBuffer
    | DispatchIndirectBuffer | DrawIndirectBuffer | ElementArrayBuffer
    | PixelPackBuffer | PixelUnpackBuffer | QueryBuffer | ShaderStorageBuffer
    | TextureBuffer | TransformFeedbackBuffer | UniformBuffer

  /** `TextureTarget::Type` without `MAX`; `Unbound` maps to the invalid enum -1. */
  datatype TextureTarget =
    | Unbound | Texture1D | Texture2D | Texture3D | Texture1DArray
    | Texture2DArray | TextureRectangle | TextureCubeMap | TextureCubeMapArray
    | TextureBuffer | Texture2DMultisample | Texture2DMultisampleArray

  /** The enum passed as the target of `glBindFramebuffer`. */
  datatype FramebufferTarget = FramebufferEnum | BufferEnum(buffer: BufferTarget)

  /** Capabilities toggled by `glEnable`/`glDisable`. */
  datatype Capability = CapBlend | CapDepthTest | CapFramebufferSrgb

  datatype BlendFactor = Zero | One | SrcAlpha | OneMinusSrcAlpha | DstColor | OneMinusDstAlpha

  datatype GlBlendMode = ModeMax | ModeMin | ModeAdd | ModeReverseSubtract | ModeSubtract

  datatype GlCompare = CompareLess | CompareLequal | CompareAlways

  /** Filter constants for `GL_TEXTURE_MIN_FILTER`/`GL_TEXTURE_MAG_FILTER`. */
  datatype GlFilter =
    | FilterNearest | FilterLinear
    | NearestMipmapNearest | LinearMipmapNearest
    | NearestMipmapLinear | LinearMipmapLinear

  datatype GlWrap = WrapRepeat | WrapClampToBorder | WrapClampToEdge | WrapMirroredRepeat

  datatype TexParam = ParamWrapS | ParamWrapT | ParamMinFilter | ParamMagFilter | ParamBaseLevel | ParamMaxLevel

  datatype TexParamValue = WrapValue(wrap: GlWrap) | FilterValue(filter: GlFilter) | LevelValue(level: int)

  /** Internal formats named by texture uploads. */
  datatype GlInternalFormat =
    | R8 | R16F | R16 | RGB16 | RGBA8
    | R32F | RGBA32F | RGB32F | RGB32UI | RGB32I

  /** Client pixel layouts (`format` argument of uploads and reads). */
  datatype GlPixelFormat = PixelRed | PixelRgb | PixelRgba

  /** Client component types (`type` argument of uploads and reads). */
  datatype GlPixelType = TypeUnsignedByte | TypeHalfFloat | TypeUnsignedShort

  /** How a vertex attribute slot is fetched. */
  datatype AttribKind = FloatAttrib | IntAttrib | ShortAttrib | NormalizedUnsignedByteAttrib

  datatype Attachment =
    | Color0 | Color1 | Color2 | Color3 | Color4 | Color5 | Color6 | Color7 | Color8 | Color9
    | Depth | Stencil | DepthStencil

  /** `glm::ivec4` as passed to `glViewport`. */
  datatype Viewport = Viewport(x: int, y: int, width: int, height: int)

  const ZeroViewport: Viewport := Viewport(0, 0, 0, 0)

  datatype Event =
    | Enable(cap: Capability)
    | Disable(cap: Capability)
    | BlendFunc(src: BlendFactor, dst: BlendFactor)
    | BlendFuncSeparate(srcRgb: BlendFactor, dstRgb: BlendFactor, srcAlpha: BlendFactor, dstAlpha: BlendFactor)
    | BlendEquation(mode: GlBlendMode)
    | DepthFunc(func: GlCompare)
    | DepthMask(flag: bool)
    | BindVertexArray(vao: nat)
    | BindBuffer(bufferTarget: BufferTarget, buffer: nat)
    | BindFramebuffer(framebufferTarget: FramebufferTarget, framebuffer: nat)
    | ActiveTexture(unit: int)
    | UseProgram(program: nat)
    | BindTexture(textureTarget: TextureTarget, texture: nat)
    | SetViewport(viewport: Viewport)
    | VertexAttribPointer(index: int, kind: AttribKind, size: int, stride: int, offset: int)
    | VertexAttribDivisor(index: int, divisor: int)
    | EnableVertexAttribArray(index: int)
    | BufferData(dataTarget: BufferTarget, bytes: int)
    | TexImage2D(internalFormat: GlInternalFormat, width: int, height: int, withData: bool)
    | TexImage3D(level: int, internalFormat3D: GlInternalFormat, width: int, height: int, layers: int)
    | TexParameter(paramTarget: TextureTarget, param: TexParam, value: TexParamValue)
    | TexBuffer(bufferFormat: GlInternalFormat, bufferObject: nat)
    | DeleteTexture(deleted: nat)
    | DeleteBuffer(deletedBuffer: nat)
    | GetTexImage(readFormat: GlPixelFormat, readType: GlPixelType)
    | MapPackBuffer
    | UnmapPackBuffer
    | Uniform1i(location: nat, unitValue: int)
    | Uniform1iv(locationV: nat, countV: int, unitValues: seq<int>)
    | UniformUpload(uploadLocation: nat)
    | FramebufferTexture(attachment: Attachment, attached: nat, mipmap: int)
    | FramebufferTextureLayer(layerAttachment: Attachment, layered: nat, layerMipmap: int, layer: int)

  /**
   * The result of one operation: the new state, the driver calls issued in
   * order, and whether an assertion of the source failed on the way. Debug
   * builds abort at a failed assertion; release builds carry on, and
   * `state`/`events` describe that continuation.
   */
  datatype Step<S> = Step(state: S, events: seq<Event>, asserted: bool)
}

=== FILE: managed_texture.dfy ===
/**
 * `ManagedTexture`: a weak handle on a texture kept alive by a shared
 * `ManagedTextureStorage`. Next to the shared count, the storage keeps a
 * count of the handles that refer to it, so that the owner can tell when a
 * texture is no longer wanted.
 *
 * The shared objects are a pool indexed by `StorageId`; a storage is alive
 * (a `weak_ptr::lock` on it succeeds) while it has strong owners.
 */
module ManagedTexture {
  import opened Wrappers
  import T = Texture

  type StorageId = nat

  /** `ManagedTextureStorageInternal` together with the number of `shared_ptr`s owning it. */
  datatype Internal = Internal(texture: T.Texture2DObject, weakCount: int, owners: nat)

  type Pool = map<StorageId, Internal>

  /** A `ManagedTexture`: the storage its `weak_ptr` refers to, if any. */
  datatype Handle = Handle(data: Option<StorageId>)

  /** A `ManagedTextureStorage`: the storage its `shared_ptr` owns, if any. */
  datatype Storage = Storage(data: Option<StorageId>)

  const Empty: Handle := Handle(None)

  /** `data.lock()` succeeds. */
  predicate Lockable(pool: Pool, h: Handle) {
    h.data.Some? && h.data.value in pool && pool[h.data.value].owners > 0
  }

  /** `increment()` / `decrement()`: adjust the count of a live storage; nothing otherwise. */
  function Adjust(pool: Pool, h: Handle, delta: int): (r: Pool)
    ensures r.Keys == pool.Keys
    ensures forall id :: id in pool ==> r[id].texture == pool[id].texture && r[id].owners == pool[id].owners
    ensures forall id :: id in pool ==>
      r[id].weakCount == pool[id].weakCount + (if Lockable(pool, h) && h.data.value == id then delta else 0)
  {
    if Lockable(pool, h) then
      var id := h.data.value;
      pool[id := pool[id].(weakCount := pool[id].weakCount + delta)]
    else pool
  }

  /** `ManagedTexture(storage)`: refers to the storage's object and counts itself. */
  function FromStorage(pool: Pool, s: Storage): (r: (Pool, Handle))
    ensures r.1.data == s.data
    ensures r.0 == Adjust(pool, r.1, 1)
  {
    var h := Handle(s.data);
    (Adjust(pool, h, 1), h)
  }

  /** The copy constructor: a second handle on the same storage, counted. */
  function Copy(pool: Pool, other: Handle): (r: (Pool, Handle))
    ensures r.1 == other
    ensures r.0 == Adjust(pool, other, 1)
  {
    (Adjust(pool, other, 1), other)
  }

  /** The move constructor: takes over the reference and empties the source; no count changes. */
  function Move(other: Handle): (r: (Handle, Handle))
    ensures r.0 == other && r.1 == Empty
  {
    (other, Empty)
  }

  /** Copy-assignment: uncounts the old storage, then refers to and counts the other's. */
  function CopyAssign(pool: Pool, self: Handle, other: Handle): (r: (Pool, Handle))
    ensures r.1 == other
    ensures r.0 == Adjust(Adjust(pool, self, -1), other, 1)
  {
    (Adjust(Adjust(pool, self, -1), other, 1), other)
  }

  /** Move-assignment: uncounts the old storage and adopts the other's reference uncounted. */
  function MoveAssign(pool: Pool, self: Handle, other: Handle): (r: (Pool, Handle, Handle))
    ensures r.1 == other && r.2 == Empty
    ensures r.0 == Adjust(pool, self, -1)
  {
    (Adjust(pool, self, -1), other, Empty)
  }

  /** `reset()`: uncounts and forgets the storage. */
  function Reset(pool: Pool, self: Handle): (r: (Pool, Handle))
    ensures r.1 == Empty
    ensures r.0 == Adjust(pool, self, -1)
  {
    (Adjust(pool, self, -1), Empty)
  }

  /** The destructor: uncounts the storage. */
  function Destroy(pool: Pool, self: Handle): (r: Pool)
    ensures r == Adjust(pool, self, -1)
  {
    Adjust(pool, self, -1)
  }

  /** `get()`: the texture while its storage lives. */
  function Get(pool: Pool, h: Handle): (r: Option<T.Texture2DObject>)
    ensures r.Some? <==> Lockable(pool, h)
    ensures r.Some? ==> r.value == pool[h.data.value].texture
  {
    if Lockable(pool, h) then Some(pool[h.data.value].texture) else None
  }

  /** `unused()`: this is the only owner and no handle counts itself. */
  predicate Unused(pool: Pool, s: Storage) {
    s.data.Some? && s.data.value in pool && pool[s.data.value].owners == 1 && pool[s.data.value].weakCount == 0
  }

  // ---------------------------------------------------------------- the counting invariant

  /** How many of the handles refer to storage `id`. */
  function Refs(hs: seq<Handle>, id: StorageId): nat {
    multiset(hs)[Handle(Some(id))]
  }

  /** Every live storage counts exactly the handles that refer to it. */
  predicate Counted(pool: Pool, hs: seq<Handle>) {
    forall id :: id in pool && pool[id].owners > 0 ==> pool[id].weakCount == Refs(hs, id)
  }

  /** Counting one handle more (or less) in a pool that counts `hs` counts `hs` with it (or without it). */
  lemma AdjustCounts(pool: Pool, hs: seq<Handle>, hs': seq<Handle>, h: Handle, delta: int)
    requires Counted(pool, hs)
    requires forall id :: Refs(hs', id) == Refs(hs, id) + (if h == Handle(Some(id)) then delta else 0)
    ensures Counted(Adjust(pool, h, delta), hs')
  {
    var r := Adjust(pool, h, delta);
    forall id | id in r && r[id].owners > 0
      ensures r[id].weakCount == Refs(hs', id)
    {
      assert Refs(hs', id) == Refs(hs, id) + (if h == Handle(Some(id)) then delta else 0);
    }
  }

  /** A handle made from a storage joins the handles and is counted. */
  lemma FromStorageCounted(pool: Pool, hs: seq<Handle>, s: Storage)
    requires Counted(pool, hs)
    ensures var r := FromStorage(pool, s); Counted(r.0, hs + [r.1])
  {
    var h := Handle(s.data);
    assert multiset(hs + [h]) == multiset(hs) + multiset{h};
    AdjustCounts(pool, hs, hs + [h], h, 1);
  }

  /** A copy of handle `i` joins the handles and is counted. */
  lemma CopyCounted(pool: Pool, hs: seq<Handle>, i: nat)
    requires Counted(pool, hs) && i < |hs|
    ensures var r := Copy(pool, hs[i]); Counted(r.0, hs + [r.1])
  {
    assert multiset(hs + [hs[i]]) == multiset(hs) + multiset{hs[i]};
    AdjustCounts(pool, hs, hs + [hs[i]], hs[i], 1);
  }

  /** Moving handle `i` into a new handle leaves every count as it was. */
  lemma MoveCounted(pool: Pool, hs: seq<Handle>, i: nat)
    requires Counted(pool, hs) && i < |hs|
    ensures var r := Move(hs[i]); Counted(pool, hs[i := r.1] + [r.0])
  {
    var hs' := hs[i := Empty] + [hs[i]];
    assert multiset(hs') == multiset(hs[i := Empty]) + multiset{hs[i]};
    assert multiset(hs[i := Empty]) == multiset(hs) - multiset{hs[i]} + multiset{Empty};
    forall id ensures Refs(hs', id) == Refs(hs, id) {
    }
  }

  /** Copy-assigning handle `j` to handle `i` keeps the counts exact, also when `i == j`. */
  lemma CopyAssignCounted(pool: Pool, hs: seq<Handle>, i: nat, j: nat)
    requires Counted(pool, hs) && i < |hs| && j < |hs|
    ensures var r := CopyAssign(pool, hs[i], hs[j]); Counted(r.0, hs[i := r.1])
  {
    var mid := hs[..i] + hs[i + 1..];
    assert hs == hs[..i] + [hs[i]] + hs[i + 1..];
    assert hs[i := hs[j]] == hs[..i] + [hs[j]] + hs[i + 1..];
    assert multiset(hs) == multiset(mid) + multiset{hs[i]};
    assert multiset(hs[i := hs[j]]) == multiset(mid) + multiset{hs[j]};
    AdjustCounts(pool, hs, mid, hs[i], -1);
    AdjustCounts(Adjust(pool, hs[i], -1), mid, hs[i := hs[j]], hs[j], 1);
  }

  /** Move-assigning handle `j` to a different handle `i` keeps the counts exact. */
  lemma MoveAssignCounted(pool: Pool, hs: seq<Handle>, i: nat, j: nat)
    requires Counted(pool, hs) && i < |hs| && j < |hs| && i != j
    ensures var r := MoveAssign(pool, hs[i], hs[j]); Counted(r.0, hs[i := r.1][j := r.2])
  {
    var hs' := hs[i := hs[j]][j := Empty];
    assert multiset(hs[i := hs[j]]) == multiset(hs) - multiset{hs[i]} + multiset{hs[j]};
    assert multiset(hs') == multiset(hs[i := hs[j]]) - multiset{hs[j]} + multiset{Empty};
    AdjustCounts(pool, hs, hs', hs[i], -1);
  }

  /** `reset` on handle `i` keeps the counts exact. */
  lemma ResetCounted(pool: Pool, hs: seq<Handle>, i: nat)
    requires Counted(pool, hs) && i < |hs|
    ensures var r := Reset(pool, hs[i]); Counted(r.0, hs[i := r.1])
  {
    assert multiset(hs[i := Empty]) == multiset(hs) - multiset{hs[i]} + multiset{Empty};
    AdjustCounts(pool, hs, hs[i := Empty], hs[i], -1);
  }

  /** Destroying handle `i` removes it from the count. */
  lemma DestroyCounted(pool: Pool, hs: seq<Handle>, i: nat)
    requires Counted(pool, hs) && i < |hs|
    ensures Counted(Destroy(pool, hs[i]), hs[..i] + hs[i + 1..])
  {
    var rest := hs[..i] + hs[i + 1..];
    assert hs == hs[..i] + [hs[i]] + hs[i + 1..];
    assert multiset(hs) == multiset(rest) + multiset{hs[i]};
    AdjustCounts(pool, hs, rest, hs[i], -1);
  }

  /** While counts are exact, an unused storage has no handle left that could reach it. */
  lemma UnusedMeansUnreferenced(pool: Pool, hs: seq<Handle>, s: Storage)
    requires Counted(pool, hs) && Unused(pool, s)
    ensures forall i :: 0 <= i < |hs| ==> hs[i].data != s.data
  {
    forall i | 0 <= i < |hs|
      ensures hs[i].data != s.data
    {
      assert hs[i] in multiset(hs);
    }
  }

  /** Copy-assigning a handle to itself leaves the pool as it was. */
  lemma SelfCopyAssignNeutral(pool: Pool, h: Handle)
    ensures CopyAssign(pool, h, h) == (pool, h)
  {
    var r := CopyAssign(pool, h, h).0;
    assert r.Keys == pool.Keys;
    forall id | id in pool ensures r[id] == pool[id] {
    }
    assert r == pool;
  }
}

=== FILE: opengl_context.dfy ===
/**
 * `OpenglContext`: a cache of the driver's bindings that skips a driver call
 * whenever the requested object is already the cached one. Every operation
 * is a pure step returning the new context, the driver calls issued, and
 * whether a `tassert` failed on the way.
 */
module OpenglContext {
  import opened Gl
  import opened Qualifier
  import RenderConfig

  /** What the context believes is bound to one texture unit. */
  datatype SamplerUnitInfo = SamplerUnitInfo(texture: Qualified, target: TextureTarget)

  const EmptyUnit := SamplerUnitInfo(Default, Unbound)

  /** `BytesTransferredInfo`: per-frame counters. */
  datatype Tally = Tally(
    bufferDataCalls: int,
    buffers: int,
    setUniformCalls: int,
    uniforms: int,
    programSwitches: int,
    vaoSwitches: int,
    drawCalls: int
  )

  const ZeroTally := Tally(0, 0, 0, 0, 0, 0, 0)

  /**
   * The cached state. `boundBuffers` is total over the targets: a target
   * missing from the map holds the default handle.
   */
  datatype Context = Context(
    qualifierCounter: int,
    boundVao: Qualified,
    usedProgram: Qualified,
    boundFramebuffer: Qualified,
    boundPackPbo: Qualified,
    boundUnpackPbo: Qualified,
    boundBuffers: map<BufferTarget, Qualified>,
    samplerUnits: seq<SamplerUnitInfo>,
    activeUnit: int,
    viewport: Viewport,
    configuration: RenderConfig.Configuration,
    thisFrame: Tally,
    lastFrame: Tally
  )

  function BoundBuffer(ctx: Context, t: BufferTarget): Qualified {
    if t in ctx.boundBuffers then ctx.boundBuffers[t] else Default
  }

  /** A fresh context for a driver with `maxUnits` combined texture units. */
  function New(maxUnits: nat): (r: Context)
    ensures |r.samplerUnits| == maxUnits
    ensures forall u :: 0 <= u < maxUnits ==> r.samplerUnits[u] == EmptyUnit
    ensures forall t :: BoundBuffer(r, t) == Default
    ensures r.qualifierCounter == 0 && r.activeUnit == 0
    ensures r.configuration == RenderConfig.Empty
  {
    Context(0, Default, Default, Default, Default, Default, map[], seq(maxUnits, _ => EmptyUnit),
            0, ZeroViewport, RenderConfig.Empty, ZeroTally, ZeroTally)
  }

  // ---------------------------------------------------------------- configuration

  /** `setConfiguration`: only the configuration changes. */
  function SetConfiguration(ctx: Context, c: RenderConfig.Configuration): (r: Step<Context>)
    ensures r.state == ctx.(configuration := c)
    ensures ctx.configuration == c ==> r.events == [] && !r.asserted
  {
    var s := RenderConfig.SetAll(ctx.configuration, c);
    Step(ctx.(configuration := s.state), s.events, s.asserted)
  }

  // ---------------------------------------------------------------- bindings

  /** `bind(OpenglVAO&)`; a switch is tallied only when the driver is called. */
  function BindVao(ctx: Context, id: Qualified): (r: Step<Context>)
    ensures r.state.boundVao == id && !r.asserted
    ensures r.events == (if ctx.boundVao == id then [] else [BindVertexArray(id.data)])
    ensures r.state.thisFrame.vaoSwitches == ctx.thisFrame.vaoSwitches + |r.events|
    ensures r.state == ctx.(boundVao := id, thisFrame := r.state.thisFrame)
    ensures r.state.thisFrame == ctx.thisFrame.(vaoSwitches := r.state.thisFrame.vaoSwitches)
  {
    if ctx.boundVao != id then
      var t := ctx.thisFrame.(vaoSwitches := ctx.thisFrame.vaoSwitches + 1);
      Step(ctx.(boundVao := id, thisFrame := t), [BindVertexArray(id.data)], false)
    else Step(ctx, [], false)
  }

  function BindPack(ctx: Context, id: Qualified): (r: Step<Context>)
    ensures r.state == ctx.(boundPackPbo := id) && !r.asserted
    ensures r.events == (if ctx.boundPackPbo == id then [] else [Event.BindBuffer(PixelPackBuffer, id.data)])
  {
    if ctx.boundPackPbo != id then
      Step(ctx.(boundPackPbo := id), [Event.BindBuffer(PixelPackBuffer, id.data)], false)
    else Step(ctx, [], false)
  }

  function BindUnpack(ctx: Context, id: Qualified): (r: Step<Context>)
    ensures r.state == ctx.(boundUnpackPbo := id) && !r.asserted
    ensures r.events == (if ctx.boundUnpackPbo == id then [] else [Event.BindBuffer(PixelUnpackBuffer, id.data)])
  {
    if ctx.boundUnpackPbo != id then
      Step(ctx.(boundUnpackPbo := id), [Event.BindBuffer(PixelUnpackBuffer, id.data)], false)
    else Step(ctx, [], false)
  }

  /**
   * `unbindPack()`. The handle's conversion to `bool` is not part of this
   * model; `truthy` stands for it.
   */
  function UnbindPack(ctx: Context, truthy: Qualified -> bool): (r: Step<Context>)
    ensures !r.asserted
    ensures truthy(ctx.boundPackPbo) ==> r.state == ctx.(boundPackPbo := Default) && r.events == [Event.BindBuffer(PixelPackBuffer, 0)]
    ensures !truthy(ctx.boundPackPbo) ==> r.state == ctx && r.events == []
  {
    if truthy(ctx.boundPackPbo) then
      Step(ctx.(boundPackPbo := Default), [Event.BindBuffer(PixelPackBuffer, 0)], false)
    else Step(ctx, [], false)
  }

  function UnbindUnpack(ctx: Context, truthy: Qualified -> bool): (r: Step<Context>)
    ensures !r.asserted
    ensures truthy(ctx.boundUnpackPbo) ==> r.state == ctx.(boundUnpackPbo := Default) && r.events == [Event.BindBuffer(PixelUnpackBuffer, 0)]
    ensures !truthy(ctx.boundUnpackPbo) ==> r.state == ctx && r.events == []
  {
    if truthy(ctx.boundUnpackPbo) then
      Step(ctx.(boundUnpackPbo := Default), [Event.BindBuffer(PixelUnpackBuffer, 0)], false)
    else Step(ctx, [], false)
  }

  /** `bind(OpenglVBO&, BufferTarget)`. */
  function BindBuffer(ctx: Context, id: Qualified, t: BufferTarget): (r: Step<Context>)
    ensures BoundBuffer(r.state, t) == id && !r.asserted
    ensures forall o :: o != t ==> BoundBuffer(r.state, o) == BoundBuffer(ctx, o)
    ensures r.state == ctx.(boundBuffers := r.state.boundBuffers)
    ensures r.events == (if BoundBuffer(ctx, t) == id then [] else [Event.BindBuffer(t, id.data)])
  {
    if BoundBuffer(ctx, t) != id then
      Step(ctx.(boundBuffers := ctx.boundBuffers[t := id]), [Event.BindBuffer(t, id.data)], false)
    else Step(ctx, [], false)
  }

  /** `bindTextureUnit(unit)`: selects the active texture unit. */
  function BindTextureUnit(ctx: Context, unit: int): (r: Step<Context>)
    ensures r.state == ctx.(activeUnit := unit) && !r.asserted
    ensures r.events == (if ctx.activeUnit == unit then [] else [ActiveTexture(unit)])
  {
    if ctx.activeUnit != unit then Step(ctx.(activeUnit := unit), [ActiveTexture(unit)], false)
    else Step(ctx, [], false)
  }

  /** `use(Program&)`; a switch is tallied only when the driver is called. */
  function UseProgram(ctx: Context, id: Qualified): (r: Step<Context>)
    ensures r.state.usedProgram == id && !r.asserted
    ensures r.events == (if ctx.usedProgram == id then [] else [Event.UseProgram(id.data)])
    ensures r.state.thisFrame.programSwitches == ctx.thisFrame.programSwitches + |r.events|
    ensures r.state == ctx.(usedProgram := id, thisFrame := r.state.thisFrame)
    ensures r.state.thisFrame == ctx.thisFrame.(programSwitches := r.state.thisFrame.programSwitches)
  {
    if ctx.usedProgram != id then
      var t := ctx.thisFrame.(programSwitches := ctx.thisFrame.programSwitches + 1);
      Step(ctx.(usedProgram := id, thisFrame := t), [Event.UseProgram(id.data)], false)
    else Step(ctx, [], false)
  }

  /**
   * `bind(Qualified<GLuint>, TextureTarget, unit)`. A unit holding a
   * different target is first unbound from that target; the texture is
   * bound when it differs from the cached one. `TextureTarget::get()`
   * asserts on the unbound target.
   */
  function BindTexture(ctx: Context, id: Qualified, target: TextureTarget, unit: int): (r: Step<Context>)
    requires 0 <= unit < |ctx.samplerUnits|
    ensures r.state == ctx.(samplerUnits := ctx.samplerUnits[unit := SamplerUnitInfo(id, target)],
                            activeUnit := r.state.activeUnit)
    ensures r.state.activeUnit == (if r.events == [] then ctx.activeUnit else unit)
    ensures var info := ctx.samplerUnits[unit];
      r.events == [] <==> info.texture == id && (info.target == target || info.target == Unbound)
    ensures var info := ctx.samplerUnits[unit];
      r.asserted <==> target == Unbound && (if info.target != Unbound then id != Default else info.texture != id)
  {
    var info := ctx.samplerUnits[unit];
    var (c1, e1, tex) :=
      if info.target != Unbound && info.target != target then
        var s := BindTextureUnit(ctx, unit);
        (s.state, s.events + [Event.BindTexture(info.target, 0)], Default)
      else (ctx, [], info.texture);
    var (c2, e2) :=
      if tex != id then
        var s := BindTextureUnit(c1, unit);
        (s.state, s.events + [Event.BindTexture(target, id.data)])
      else (c1, []);
    Step(c2.(samplerUnits := ctx.samplerUnits[unit := SamplerUnitInfo(id, target)]),
         e1 + e2, tex != id && target == Unbound)
  }

  /** `bind(OpenglFramebuffer&)`. */
  function BindFramebuffer(ctx: Context, id: Qualified): (r: Step<Context>)
    ensures r.state == ctx.(boundFramebuffer := id) && !r.asserted
    ensures r.events == (if ctx.boundFramebuffer == id then [] else [Event.BindFramebuffer(FramebufferEnum, id.data)])
  {
    if ctx.boundFramebuffer != id then
      Step(ctx.(boundFramebuffer := id), [Event.BindFramebuffer(FramebufferEnum, id.data)], false)
    else Step(ctx, [], false)
  }

  function SetViewport(ctx: Context, v: Viewport): (r: Step<Context>)
    ensures r.state == ctx.(viewport := v) && !r.asserted
    ensures r.events == (if ctx.viewport == v then [] else [Event.SetViewport(v)])
  {
    if ctx.viewport != v then Step(ctx.(viewport := v), [Event.SetViewport(v)], false)
    else Step(ctx, [], false)
  }

  // ---------------------------------------------------------------- qualifiers and tallies

  datatype Issued = Issued(state: Context, qualifier: int)

  /** `getQualifier()`: post-increment of the counter. */
  function GetQualifier(ctx: Context): (r: Issued)
    ensures r.qualifier == ctx.qualifierCounter
    ensures r.state == ctx.(qualifierCounter := ctx.qualifierCounter + 1)
  {
    Issued(ctx.(qualifierCounter := ctx.qualifierCounter + 1), ctx.qualifierCounter)
  }

  /** The qualifier of the default framebuffer. */
  const ScreenFramebufferQualifier: int := -1

  /**
   * `n` calls of `GetQualifier` in a row: the qualifiers come out strictly
   * increasing, so no two objects made from one context share one, and from
   * a counter that starts at zero none equals the screen's.
   */
  function IssueMany(ctx: Context, n: nat): (r: (Context, seq<int>))
    ensures |r.1| == n
    ensures r.0 == ctx.(qualifierCounter := ctx.qualifierCounter + n)
    ensures forall i, j :: 0 <= i < j < n ==> r.1[i] < r.1[j]
    ensures forall i :: 0 <= i < n ==> ctx.qualifierCounter <= r.1[i] < r.0.qualifierCounter
    ensures ctx.qualifierCounter >= 0 ==> forall i :: 0 <= i < n ==> r.1[i] != ScreenFramebufferQualifier
    decreases n
  {
    if n == 0 then (ctx, [])
    else
      var first := GetQualifier(ctx);
      var rest := IssueMany(first.state, n - 1);
      (rest.0, [first.qualifier] + rest.1)
  }

  function TallyDrawCall(ctx: Context): (r: Context)
    ensures r.thisFrame.drawCalls == ctx.thisFrame.drawCalls + 1
    ensures r == ctx.(thisFrame := ctx.thisFrame.(drawCalls := r.thisFrame.drawCalls))
  {
    ctx.(thisFrame := ctx.thisFrame.(drawCalls := ctx.thisFrame.drawCalls + 1))
  }

  function TallyBytesTransferred(ctx: Context, bytes: int): (r: Context)
    ensures r.thisFrame.bufferDataCalls == ctx.thisFrame.bufferDataCalls + 1
    ensures r.thisFrame.buffers == ctx.thisFrame.buffers + bytes
    ensures r == ctx.(thisFrame := ctx.thisFrame.(bufferDataCalls := r.thisFrame.bufferDataCalls, buffers := r.thisFrame.buffers))
  {
    var t := ctx.thisFrame;
    ctx.(thisFrame := t.(bufferDataCalls := t.bufferDataCalls + 1, buffers := t.buffers + bytes))
  }

  function TallyUniformBytesTransferred(ctx: Context, bytes: int): (r: Context)
    ensures r.thisFrame.setUniformCalls == ctx.thisFrame.setUniformCalls + 1
    ensures r.thisFrame.uniforms == ctx.thisFrame.uniforms + bytes
    ensures r == ctx.(thisFrame := ctx.thisFrame.(setUniformCalls := r.thisFrame.setUniformCalls, uniforms := r.thisFrame.uniforms))
  {
    var t := ctx.thisFrame;
    ctx.(thisFrame := t.(setUniformCalls := t.setUniformCalls + 1, uniforms := t.uniforms + bytes))
  }

  /** `cycle()`: this frame's counters become last frame's, and restart at zero. */
  function Cycle(ctx: Context): (r: Context)
    ensures r.lastFrame == ctx.thisFrame && r.thisFrame == ZeroTally
    ensures r == ctx.(thisFrame := ZeroTally, lastFrame := ctx.thisFrame)
  {
    ctx.(lastFrame := ctx.thisFrame, thisFrame := ZeroTally)
  }

  // ---------------------------------------------------------------- reset

  /**
   * The sampler-unit loop of `reset()` from unit `k` on: a unit whose texture
   * name is not 0 is selected and its target unbound. `corrected` selects
   * the unit being visited; the code as written selects unit 0 every time,
   * because its `unit++` sits after the loop. Returns the active unit
   * afterwards, the calls, and whether `TextureTarget::get()` asserted.
   */
  function UnbindUnits(active: int, units: seq<SamplerUnitInfo>, k: nat, corrected: bool): (r: (int, seq<Event>, bool))
    requires k <= |units|
    ensures forall i :: 0 <= i < |r.1| ==> r.1[i].ActiveTexture? || (r.1[i].BindTexture? && r.1[i].texture == 0)
    ensures !corrected ==> forall i :: 0 <= i < |r.1| && r.1[i].ActiveTexture? ==> r.1[i].unit == 0
    ensures !corrected ==> r.0 == active || r.0 == 0
    ensures r.2 <==> exists j :: k <= j < |units| && units[j].texture.data != 0 && units[j].target == Unbound
    decreases |units| - k
  {
    if k == |units| then (active, [], false)
    else
      var unit := if corrected then k else 0;
      var info := units[k];
      var (a, es, bad) :=
        if info.texture.data != 0 then
          var sel := if active != unit then [ActiveTexture(unit)] else [];
          (unit, sel + [Event.BindTexture(info.target, 0)], info.target == Unbound)
        else (active, [], false);
      var rest := UnbindUnits(a, units, k + 1, corrected);
      (rest.0, es + rest.1, bad || rest.2)
  }

  /**
   * The call `reset()` uses to unbind a pixel buffer: the code as written
   * passes the buffer target to `glBindFramebuffer`.
   */
  function UnbindPixelBuffer(t: BufferTarget, corrected: bool): Event {
    if corrected then Event.BindBuffer(t, 0) else Event.BindFramebuffer(BufferEnum(t), 0)
  }

  /**
   * `reset()`: forgets every cached binding and the configuration, unbinds
   * the pixel buffers and the sampler units, and selects unit 0.
   */
  function ResetWith(ctx: Context, truthy: Qualified -> bool, corrected: bool): (r: Step<Context>)
    ensures r.state.usedProgram == Default && r.state.boundVao == Default && r.state.boundFramebuffer == Default
    ensures r.state.boundPackPbo == Default && r.state.boundUnpackPbo == Default
    ensures forall t :: BoundBuffer(r.state, t) == Default
    ensures r.state.configuration == RenderConfig.Empty
    ensures |r.state.samplerUnits| == |ctx.samplerUnits|
    ensures forall u :: 0 <= u < |r.state.samplerUnits| ==> r.state.samplerUnits[u] == EmptyUnit
    ensures r.state.activeUnit == 0 && r.state.viewport == ZeroViewport
    ensures r.state.qualifierCounter == ctx.qualifierCounter
    ensures r.state.thisFrame == ctx.thisFrame && r.state.lastFrame == ctx.lastFrame
    ensures |r.events| > 0 && r.events[|r.events| - 1] == ActiveTexture(0)
  {
    var pack := if truthy(ctx.boundPackPbo) then [UnbindPixelBuffer(PixelPackBuffer, corrected)] else [];
    var unpack := if truthy(ctx.boundUnpackPbo) then [UnbindPixelBuffer(PixelUnpackBuffer, corrected)] else [];
    var units := UnbindUnits(ctx.activeUnit, ctx.samplerUnits, 0, corrected);
    var cleared := ctx.(usedProgram := Default, boundVao := Default, boundPackPbo := Default,
                        boundUnpackPbo := Default, boundFramebuffer := Default, boundBuffers := map[],
                        configuration := RenderConfig.Empty,
                        samplerUnits := seq(|ctx.samplerUnits|, _ => EmptyUnit),
                        activeUnit := 0, viewport := ZeroViewport);
    Step(cleared, pack + unpack + units.1 + [ActiveTexture(0)], units.2)
  }

  /** `reset()` as written. */
  function ResetAsWritten(ctx: Context, truthy: Qualified -> bool): (r: Step<Context>)
    ensures r == ResetWith(ctx, truthy, false)
  {
    ResetWith(ctx, truthy, false)
  }

  /** `reset()` with the pixel buffers unbound by `glBindBuffer` and each unit selected in turn. */
  function Reset(ctx: Context, truthy: Qualified -> bool): (r: Step<Context>)
    ensures r == ResetWith(ctx, truthy, true)
  {
    ResetWith(ctx, truthy, true)
  }
}

=== FILE: pbo.dfy ===
/**
 * `OpenglPBO`: a pixel-pack buffer that reads a texture back from the
 * driver. `download` queues the read into the buffer and records its byte
 * size; `getDownload` maps the buffer and hands the caller a read-only
 * view, whose destructor unmaps it again.
 */
module Pbo {
  import opened Gl
  import opened Wrappers
  import opened Qualifier
  import C = OpenglContext
  import T = Texture

  datatype Pbo = Pbo(id: Qualified, bufferMapped: bool, downloadSize: Option<int>)

  /** `OpenglPBOMappedRead<T>`: the length of its span, in elements. */
  datatype MappedRead = MappedRead(length: int)

  /** `size_t` is 64 bits wide; `downloadSize / sizeof(T)` divides in it. */
  const SizeRange: int := 0x1_0000_0000_0000_0000

  /** The constructor: a fresh qualifier and the driver's buffer name. */
  function New(ctx: C.Context, name: nat): (r: (C.Context, Pbo))
    ensures r.1 == Pbo(Qualified(name, ctx.qualifierCounter), false, None)
    ensures r.0.qualifierCounter > ctx.qualifierCounter
  {
    var issued := C.GetQualifier(ctx);
    (issued.state, Pbo(Qualified(name, issued.qualifier), false, None))
  }

  /**
   * `bind()`. The context declares no `bind(OpenglPBO&)`; every use of the
   * buffer here is as `GL_PIXEL_PACK_BUFFER`, so it is the pack binding.
   */
  function Bind(ctx: C.Context, p: Pbo): (r: Step<C.Context>)
    ensures r.state.boundPackPbo == p.id && !r.asserted
    ensures r.events == [] <==> ctx.boundPackPbo == p.id
  {
    C.BindPack(ctx, p.id)
  }

  /**
   * `download(texture, level, pixelFormat)`: refused while mapped;
   * otherwise sizes the buffer for the texture read in `pixelFormat`,
   * records that size and queues the read of level 0. `sizes` selects the
   * byte-size table of `TextureFormat` (as written or corrected).
   */
  function Download(ctx: C.Context, p: Pbo, texture: T.Texture2DObject, pixelFormat: T.PixelFormat, sizes: bool): (r: Step<(C.Context, Pbo)>)
    requires |ctx.samplerUnits| > 0
    ensures p.bufferMapped ==> r == Step((ctx, p), [], true)
    ensures !p.bufferMapped ==>
      var bytes := T.ByteSize(texture.format.(pixelFormat := pixelFormat), sizes);
      !r.asserted && r.state.1 == p.(downloadSize := Some(bytes)) &&
      BufferData(PixelPackBuffer, bytes) in r.events &&
      r.events[|r.events| - 1] == GetTexImage(T.PixelDataFormat(pixelFormat), T.PixelDataType(pixelFormat)) &&
      r.state.0.boundPackPbo == p.id && |r.state.0.samplerUnits| == |ctx.samplerUnits| &&
      r.state.0.samplerUnits[0] == C.SamplerUnitInfo(texture.id, Texture2D)
  {
    if p.bufferMapped then Step((ctx, p), [], true)
    else
      var dummy := texture.format.(pixelFormat := pixelFormat);
      var bytes := T.ByteSize(dummy, sizes);
      var b := Bind(ctx, p);
      var tb := C.BindTexture(b.state, texture.id, Texture2D, 0);
      var events := b.events + [BufferData(PixelPackBuffer, bytes)] + tb.events +
        [GetTexImage(T.PixelDataFormat(pixelFormat), T.PixelDataType(pixelFormat))];
      assert events[|b.events|] == BufferData(PixelPackBuffer, bytes);
      Step((tb.state, p.(downloadSize := Some(bytes))), events, false)
  }

  /** `unmapDownload()`: unmaps the pack buffer and clears the flag. */
  function Unmap(ctx: C.Context, p: Pbo): (r: Step<(C.Context, Pbo)>)
    ensures r.state.1 == p.(bufferMapped := false) && !r.asserted
    ensures |r.events| > 0 && r.events[|r.events| - 1] == UnmapPackBuffer
    ensures r.state.0.boundPackPbo == p.id
  {
    var b := Bind(ctx, p);
    Step((b.state, p.(bufferMapped := false)), b.events + [UnmapPackBuffer], false)
  }

  datatype Fetched = Fetched(ctx: C.Context, pbo: Pbo, read: Option<MappedRead>)

  /**
   * `getDownload<T>()`: refused without a pending download or while
   * mapped; otherwise maps the buffer (`mapOk` says the driver returned a
   * mapping) and hands out a view of `downloadSize / elementSize` elements,
   * clearing the pending size.
   *
   * As written, nothing sets `bufferMapped`, and the view is returned by
   * constructing a temporary that is moved into the `optional`: the
   * moved-from temporary still points at the buffer, and its destructor
   * unmaps it before the caller sees the data. `corrected` marks the
   * buffer mapped and leaves the unmap to the caller's view.
   */
  function GetDownloadWith(ctx: C.Context, p: Pbo, mapOk: bool, elementSize: nat, corrected: bool): (r: Step<Fetched>)
    requires elementSize > 0
    ensures r.state.read.Some? <==> p.downloadSize.Some? && !p.bufferMapped && mapOk
    ensures r.asserted <==> r.state.read.None?
    ensures p.downloadSize.None? || p.bufferMapped ==> r == Step(Fetched(ctx, p, None), [], true)
    ensures r.state.read.None? ==> r.state.pbo == p
    ensures r.state.read.Some? ==>
      var d := p.downloadSize.value;
      r.state.pbo.downloadSize.None? &&
      (0 <= d < SizeRange ==> r.state.read.value.length == d / elementSize) &&
      MapPackBuffer in r.events &&
      (corrected ==> r.state.pbo.bufferMapped && r.events[|r.events| - 1] == MapPackBuffer) &&
      (!corrected ==> !r.state.pbo.bufferMapped && r.events[|r.events| - 1] == UnmapPackBuffer)
  {
    if p.downloadSize.None? || p.bufferMapped then Step(Fetched(ctx, p, None), [], true)
    else
      var b := Bind(ctx, p);
      var mapped := b.events + [MapPackBuffer];
      if !mapOk then Step(Fetched(b.state, p, None), mapped, true)
      else
        var read := MappedRead((p.downloadSize.value % SizeRange) / elementSize);
        var p' := p.(downloadSize := None);
        if corrected then
          Step(Fetched(b.state, p'.(bufferMapped := true), Some(read)), mapped, false)
        else
          var u := Unmap(b.state, p');
          assert MapPackBuffer == mapped[|b.events|];
          Step(Fetched(u.state.0, u.state.1, Some(read)), mapped + u.events, false)
  }

  function GetDownloadAsWritten(ctx: C.Context, p: Pbo, mapOk: bool, elementSize: nat): (r: Step<Fetched>)
    requires elementSize > 0
    ensures r == GetDownloadWith(ctx, p, mapOk, elementSize, false)
  {
    GetDownloadWith(ctx, p, mapOk, elementSize, false)
  }

  function GetDownload(ctx: C.Context, p: Pbo, mapOk: bool, elementSize: nat): (r: Step<Fetched>)
    requires elementSize > 0
    ensures r == GetDownloadWith(ctx, p, mapOk, elementSize, true)
  {
    GetDownloadWith(ctx, p, mapOk, elementSize, true)
  }

  /** The destructor of `OpenglPBOMappedRead`: unmaps the buffer. */
  function ReleaseRead(ctx: C.Context, p: Pbo): (r: Step<(C.Context, Pbo)>)
    ensures !r.state.1.bufferMapped && r.state.1.downloadSize == p.downloadSize
    ensures |r.events| > 0 && r.events[|r.events| - 1] == UnmapPackBuffer
  {
    Unmap(ctx, p)
  }

  /**
   * The destructor: aborts while mapped; otherwise deletes the buffer when
   * the handle is set (`truthy` stands for `Qualified`'s `operator bool`,
   * whose definition is not part of this model) and names a driver object.
   */
  function Destroy(p: Pbo, truthy: Qualified -> bool): (r: Result<seq<Event>>)
    ensures r.Err? <==> p.bufferMapped
    ensures r.Ok? ==> (r.value == [] <==> !(truthy(p.id) && p.id.data != 0))
    ensures r.Ok? && r.value != [] ==> r.value == [DeleteBuffer(p.id.data)]
  {
    if p.bufferMapped then Err(Aborted)
    else if truthy(p.id) && p.id.data != 0 then Ok([DeleteBuffer(p.id.data)])
    else Ok([])
  }

  /** No state `getDownload` reaches, as written, has the buffer marked mapped. */
  lemma MappedFlagNeverSet(ctx: C.Context, p: Pbo, mapOk: bool, elementSize: nat)
    requires elementSize > 0 && !p.bufferMapped
    ensures !GetDownloadAsWritten(ctx, p, mapOk, elementSize).state.pbo.bufferMapped
  {
  }

  /**
   * As written, a view handed out by `getDownload` no longer maps the
   * buffer, and a second `download` is accepted while the caller still
   * holds that view. Corrected, the buffer stays mapped, a `download` is
   * refused and the buffer cannot be destroyed until the view is released.
   */
  lemma ReadViewOutlivesMapping(ctx: C.Context, p: Pbo, texture: T.Texture2DObject, pf: T.PixelFormat, elementSize: nat)
    requires |ctx.samplerUnits| > 0 && elementSize > 0
    requires p.downloadSize.Some? && !p.bufferMapped
    ensures var w := GetDownloadAsWritten(ctx, p, true, elementSize).state;
      w.read.Some? && w.ctx.samplerUnits == ctx.samplerUnits &&
      !Download(w.ctx, w.pbo, texture, pf, true).asserted
    ensures var c := GetDownload(ctx, p, true, elementSize).state;
      c.read.Some? && c.ctx.samplerUnits == ctx.samplerUnits &&
      Download(c.ctx, c.pbo, texture, pf, true).asserted &&
      Destroy(c.pbo, _ => true).Err? &&
      Destroy(ReleaseRead(c.ctx, c.pbo).state.1, _ => true).Ok?
  {
  }

  /**
   * The download protocol: after `download`, one `getDownload` with a
   * mapping hands out a view of the recorded bytes and clears the pending
   * size, so a second `getDownload` is refused.
   */
  lemma DownloadThenGet(ctx: C.Context, p: Pbo, texture: T.Texture2DObject, pf: T.PixelFormat, elementSize: nat, corrected: bool)
    requires |ctx.samplerUnits| > 0 && elementSize > 0 && !p.bufferMapped
    requires texture.format.size.x >= 0 && texture.format.size.y >= 0
    requires T.ByteSize(texture.format.(pixelFormat := pf), corrected) < SizeRange
    ensures var d := Download(ctx, p, texture, pf, corrected).state;
      var bytes := T.ByteSize(texture.format.(pixelFormat := pf), corrected);
      var g := GetDownloadWith(d.0, d.1, true, elementSize, corrected);
      g.state.read == Some(MappedRead(bytes / elementSize)) &&
      GetDownloadWith(g.state.ctx, g.state.pbo, true, elementSize, corrected).asserted
  {
    var bytes := T.ByteSize(texture.format.(pixelFormat := pf), corrected);
    assert bytes % SizeRange == bytes;
  }
}

=== FILE: program_registry.dfy ===
/**
 * `ProgramRegistry`: the context's map from driver program names to the
 * `Program` objects that own them. A program is identified by its object
 * identity (`ProgramRef`), and name 0 means the program holds no driver
 * object and is never registered.
 */
module ProgramRegistry {
  import opened Wrappers

  /** The identity (address) of a `Program` object. */
  type ProgramRef = nat

  datatype Program = Program(ref: ProgramRef, name: nat)

  /**
   * A registry entry. Entries that `operator[]` creates on a lookup of an
   * absent key hold a null program, modelled as `None`.
   */
  datatype Description = Description(program: Option<ProgramRef>, autoReload: bool)

  const Blank: Description := Description(None, false)

  type Registry = map<nat, Description>

  datatype Updated = Updated(registry: Registry, asserted: bool)

  /** `programs[name]`: the stored entry, or a fresh blank one. */
  function Entry(reg: Registry, name: nat): (r: Description)
    ensures name !in reg ==> r == Blank
  {
    if name in reg then reg[name] else Blank
  }

  /** Every entry points at a program, so `lookup` never dereferences null. */
  predicate WellFormed(reg: Registry) {
    forall name :: name in reg ==> reg[name].program.Some?
  }

  /**
   * `registerProgram`: a nonzero name is asserted to be absent and then
   * points at the program; name 0 leaves the registry alone.
   */
  function Register(reg: Registry, p: Program): (r: Updated)
    ensures p.name == 0 ==> r == Updated(reg, false)
    ensures p.name != 0 ==> r.registry.Keys == reg.Keys + {p.name} && r.registry[p.name].program == Some(p.ref)
    ensures r.asserted <==> p.name != 0 && p.name in reg
    ensures forall n :: n in reg && n != p.name ==> n in r.registry && r.registry[n] == reg[n]
  {
    if p.name != 0 then
      Updated(reg[p.name := Entry(reg, p.name).(program := Some(p.ref))], p.name in reg)
    else Updated(reg, false)
  }

  /**
   * `unRegisterProgram`: a nonzero name is asserted to point at this very
   * program and is then erased; name 0 leaves the registry alone.
   */
  function Unregister(reg: Registry, p: Program): (r: Updated)
    ensures p.name == 0 ==> r == Updated(reg, false)
    ensures p.name != 0 ==> r.registry == reg - {p.name}
    ensures r.asserted <==> p.name != 0 && Entry(reg, p.name).program != Some(p.ref)
  {
    if p.name != 0 then Updated(reg - {p.name}, Entry(reg, p.name).program != Some(p.ref))
    else Updated(reg, false)
  }

  /**
   * `moveProgram(from, to)`: unregisters `from`; then, for a nonzero name of
   * `to`, asserts that name still points at `from` and re-points it at `to`.
   */
  function Move(reg: Registry, from: Program, to: Program): (r: Updated)
    ensures to.name == 0 ==> r == Unregister(reg, from)
    ensures to.name != 0 ==> to.name in r.registry && r.registry[to.name].program == Some(to.ref)
    ensures to.name != 0 ==> r.registry.Keys == reg.Keys - (if from.name != 0 then {from.name} else {}) + {to.name}
    ensures forall n :: n in reg && n != from.name && n != to.name ==> n in r.registry && r.registry[n] == reg[n]
    ensures to.name != 0 ==> (r.asserted <==>
      (from.name != 0 && Entry(reg, from.name).program != Some(from.ref)) ||
      (from.name != 0 && from.name == to.name) ||
      Entry(reg, to.name).program != Some(from.ref))
  {
    var u := Unregister(reg, from);
    if to.name != 0 then
      var e := Entry(u.registry, to.name);
      Updated(u.registry[to.name := e.(program := Some(to.ref))], u.asserted || e.program != Some(from.ref))
    else u
  }

  /** `lookup(name)`: the registered program, if any. */
  function Lookup(reg: Registry, name: nat): (r: Option<ProgramRef>)
    requires name in reg ==> reg[name].program.Some?
    ensures r.Some? <==> name in reg
    ensures r.Some? ==> r == reg[name].program
  {
    if name in reg then reg[name].program else None
  }

  /** Every operation keeps every entry pointing at a program. */
  lemma OperationsKeepWellFormed(reg: Registry, p: Program, q: Program)
    requires WellFormed(reg)
    ensures WellFormed(Register(reg, p).registry)
    ensures WellFormed(Unregister(reg, p).registry)
    ensures WellFormed(Move(reg, p, q).registry)
  {
  }

  /** A registered program is found under its name. */
  lemma RegisterThenLookup(reg: Registry, p: Program)
    requires WellFormed(reg)
    requires p.name != 0
    ensures WellFormed(Register(reg, p).registry)
    ensures Lookup(Register(reg, p).registry, p.name) == Some(p.ref)
  {
  }

  /** Unregistering undoes a registration that did not trip the assertion. */
  lemma UnregisterUndoesRegister(reg: Registry, p: Program)
    requires p.name !in reg
    ensures var r := Register(reg, p);
      !r.asserted && Unregister(r.registry, p) == Updated(reg, false)
  {
    if p.name != 0 {
      assert Register(reg, p).registry - {p.name} == reg;
    }
  }

  /**
   * The move of a program object: once `from` has handed its name to `to`
   * (and holds name 0), the entry that pointed at `from` points at `to`
   * and nothing else changes.
   */
  lemma MoveHandsOver(reg: Registry, from: Program, to: Program)
    requires WellFormed(reg)
    requires from.name == 0 && to.name != 0
    requires to.name in reg && reg[to.name].program == Some(from.ref)
    ensures var r := Move(reg, from, to);
      !r.asserted && r.registry.Keys == reg.Keys && WellFormed(r.registry) &&
      Lookup(r.registry, to.name) == Some(to.ref)
  {
  }
}

=== FILE: qualified_cache.dfy ===
/**
 * The qualifier revision of `CachedValue`, `CachedValues` and
 * `CachedValueInitializer`. Instead of a validity flag, a cached value
 * remembers the qualifier of the object it was attached for, and a `send`
 * reaches the arena only when the caller presents that same qualifier.
 */
module QualifiedCache {
  import opened Wrappers
  import opened RenderInfo
  import opened CacheWrites

  /** The qualifier of a never-attached value. */
  const Unattached: int := -1

  /** `CachedValue<ptr>`. */
  datatype Single<V> = Single(value: V, qualifier: int, info: Option<ArenaRef>, index: int, ptr: Field)

  /** A default-constructed instance: qualifier -1, null arena, index 0. */
  function NewSingle<V>(value: V, ptr: Field): (r: Single<V>)
    ensures r.qualifier == Unattached && r.info == None && r.index == 0 && r.value == value
  {
    Single(value, Unattached, None, 0, ptr)
  }

  /** The cached value is mirrored in its arena field, when its index is in range. */
  predicate SingleSynced<V(==)>(c: Single<V>, a: Arena<Row<V>>) {
    0 <= c.index < Size(a) ==> c.ptr in a.data[c.index] && a.data[c.index][c.ptr] == c.value
  }

  /**
   * `send(q, s)`: writes `s` iff `q` is the attached qualifier, `s` differs
   * from the cached value and the index is inside the arena; the range
   * check reads through `info`, which must then be non-null.
   */
  function Send<V(==)>(c: Single<V>, q: int, s: V, a: Arena<Row<V>>): (r: (Single<V>, Arena<Row<V>>))
    requires c.qualifier == q && c.value != s ==> c.info.Some?
    ensures r.0 == c.(value := s)
    ensures c.qualifier == q && c.value != s && 0 <= c.index < Size(a) ==>
      r.1 == WriteOne(a, c.index, c.ptr, s) && SingleSynced(r.0, r.1)
    ensures !(c.qualifier == q && c.value != s && 0 <= c.index < Size(a)) ==> r.1 == a
  {
    var write := c.qualifier == q && c.value != s && 0 <= c.index < Size(a);
    (c.(value := s), if write then WriteOne(a, c.index, c.ptr, s) else a)
  }

  /** `CachedValue::clear()` does nothing. */
  function ClearSingle<V>(c: Single<V>): (r: Single<V>)
    ensures r == c
  {
    c
  }

  /** `CachedValueInitializer::init(CachedValue&)`. */
  function InitSingle<V>(c: Single<V>, info: ArenaRef, qualifier: int, index: int): (r: Single<V>)
    ensures r == Single(c.value, qualifier, Some(info), index, c.ptr)
  {
    c.(info := Some(info), qualifier := qualifier, index := index)
  }

  /** A value attached for one object ignores sends on behalf of any other. */
  lemma StaleQualifierNeverWrites<V>(c: Single<V>, q: int, s: V, a: Arena<Row<V>>)
    requires q != c.qualifier
    ensures Send(c, q, s, a).1 == a
  {
  }

  /** A never-attached value ignores every send from a live object. */
  lemma UnattachedNeverWrites<V>(value: V, ptr: Field, q: int, s: V, a: Arena<Row<V>>)
    requires q >= 0
    ensures Send(NewSingle(value, ptr), q, s, a).1 == a
  {
  }

  /** Sends under the right qualifier keep the arena in step with the cached value. */
  lemma SendKeepsSynced<V>(c: Single<V>, s: V, a: Arena<Row<V>>)
    requires SingleSynced(c, a)
    requires c.info.Some?
    ensures SingleSynced(Send(c, c.qualifier, s, a).0, Send(c, c.qualifier, s, a).1)
  {
  }

  /** `CachedValues<ptr>`. */
  datatype Multi<V> = Multi(value: V, qualifier: int, info: Option<ArenaRef>, indices: seq<int>, ptr: Field)

  function NewMulti<V>(value: V, ptr: Field): (r: Multi<V>)
    ensures r.qualifier == Unattached && r.info == None && r.indices == [] && r.value == value
  {
    Multi(value, Unattached, None, [], ptr)
  }

  /** Every attached element mirrors the cached value. */
  predicate MultiSynced<V(==)>(c: Multi<V>, a: Arena<Row<V>>) {
    AllInRange(a, c.indices) &&
    forall k :: 0 <= k < |c.indices| ==>
      c.ptr in a.data[c.indices[k]] && a.data[c.indices[k]][c.ptr] == c.value
  }

  /**
   * `CachedValues::send(q, s)`: writes `s` to every attached element iff
   * the qualifier matches and the value differs. `isValid()` is constantly
   * true and nothing checks the indices, so they must be in range.
   */
  function SendMulti<V(==)>(c: Multi<V>, q: int, s: V, a: Arena<Row<V>>): (r: (Multi<V>, Arena<Row<V>>))
    requires c.qualifier == q && c.value != s && c.indices != [] ==> c.info.Some? && AllInRange(a, c.indices)
    ensures r.0 == c.(value := s)
    ensures c.qualifier == q && c.value != s ==>
      Size(r.1) == Size(a) &&
      forall i :: 0 <= i < Size(a) ==>
        r.1.data[i] == (if i in c.indices then SetField(a.data[i], c.ptr, s) else a.data[i])
    ensures !(c.qualifier == q && c.value != s) ==> r.1 == a
  {
    var a' := if c.qualifier == q && c.value != s then WriteAll(a, c.indices, c.ptr, s) else a;
    (c.(value := s), a')
  }

  /** `CachedValues::clear(v)`: detaches from the arena but keeps the qualifier. */
  function ClearMulti<V>(c: Multi<V>, v: V): (r: Multi<V>)
    ensures r.indices == [] && r.info == None && r.value == v
    ensures r.qualifier == c.qualifier && r.ptr == c.ptr
  {
    c.(indices := [], info := None, value := v)
  }

  /**
   * `CachedValueInitializer::init(CachedValues&)`: asserts that the value is
   * not moved to another arena, then takes the qualifier and one more index.
   */
  function InitMulti<V>(c: Multi<V>, info: ArenaRef, qualifier: int, index: int): (r: (Multi<V>, bool))
    ensures r.0 == Multi(c.value, qualifier, Some(info), c.indices + [index], c.ptr)
    ensures r.1 <==> c.info.Some? && c.info != Some(info)
  {
    var asserted := !(c.info == None || c.info == Some(info));
    (c.(info := Some(info), qualifier := qualifier, indices := c.indices + [index]), asserted)
  }

  /** Sends under the right qualifier keep every attached element in step. */
  lemma SendMultiKeepsSynced<V>(c: Multi<V>, s: V, a: Arena<Row<V>>)
    requires MultiSynced(c, a)
    requires c.info.Some?
    ensures MultiSynced(SendMulti(c, c.qualifier, s, a).0, SendMulti(c, c.qualifier, s, a).1)
  {
    if c.value != s {
      WriteAllReaches(a, c.indices, c.ptr, s);
    }
  }

  /**
   * After `clear(v)` the value keeps its old qualifier, so a later send on
   * behalf of that object still passes the qualifier test, but with no
   * indices left it writes nothing.
   */
  lemma ClearedMultiWritesNothing<V>(c: Multi<V>, v: V, s: V, a: Arena<Row<V>>)
    ensures var d := ClearMulti(c, v); SendMulti(d, c.qualifier, s, a).1 == a
  {
  }

  /**
   * Re-initialising a cleared value for the same arena raises no assertion
   * and attaches only the new index.
   */
  lemma ClearThenInit<V>(c: Multi<V>, v: V, info: ArenaRef, qualifier: int, index: int)
    ensures InitMulti(ClearMulti(c, v), info, qualifier, index) ==
      (Multi(v, qualifier, Some(info), [index], c.ptr), false)
  {
    assert [] + [index] == [index];
  }
}

=== FILE: qualifier.dfy ===
/**
 * `Qualified<GLuint>`: a raw driver object name paired with the generation
 * qualifier handed out by the context. It is the comparison key of every
 * cache in the model.
 */
module Qualifier {

  /** `data` is the raw GL name, `qualifier` the context-issued generation. */
  datatype Qualified = Qualified(data: nat, qualifier: int)

  /** A default-constructed handle: value-initialised data and qualifier 0. */
  const Default: Qualified := Qualified(0, 0)

  /** `operator==`: both the qualifier and the data must agree. */
  function Equal(a: Qualified, b: Qualified): (r: bool)
    ensures r <==> a == b
  {
    a.qualifier == b.qualifier && a.data == b.data
  }

  /** `clear()`: resets both fields. */
  function Clear(h: Qualified): (r: Qualified)
    ensures Equal(r, Default)
    ensures r.data == 0 && r.qualifier == 0
  {
    h.(data := 0, qualifier := 0)
  }

  /** A reused raw name under a new generation is a different handle. */
  lemma StaleNameIsUnequal(a: Qualified, b: Qualified)
    requires a.data == b.data && a.qualifier != b.qualifier
    ensures !Equal(a, b)
  {
  }

  /** `operator==` is an equivalence relation. */
  lemma EqualIsEquivalence(a: Qualified, b: Qualified, c: Qualified)
    ensures Equal(a, a)
    ensures Equal(a, b) <==> Equal(b, a)
    ensures Equal(a, b) && Equal(b, c) ==> Equal(a, c)
  {
  }
}

=== FILE: render_config.dfy ===
/**
 * The per-axis render configuration of `OpenglContext` and its setters.
 * Each setter compares the requested value against the cached one, stores
 * the request and issues the driver call for that axis only when they
 * differ. Requesting `Unset` or `Max` on a differing axis reaches the
 * `tassert(0)` branch of the switch: no call is issued.
 */
module RenderConfig {
  import opened Gl
  import opened Wrappers

  datatype Blend = Unset | Enabled | Disabled | Max
  datatype BlendFunc =
    | Unset
    | SrcAlphaOneMinusSrcAlpha
    | SrcOneOneMinusSrcAlpha
    | SeparateSrcAlphaOneMinusSrcAlphaOneMinusDstAlphaOne
    | OneZero
    | ZeroOne
    | OneOne
    | DstColorZero
    | Max
  datatype BlendEquation = Unset | FuncMax | FuncMin | FuncAdd | FuncReverseSubtract | FuncSubtract | Max
  datatype DepthTest = Unset | Enabled | Disabled | Max
  datatype DepthFunc = Unset | Less | Lequal | Always | Max
  datatype DepthMask = Unset | False | True | Max
  datatype SrgbMode = Unset | On | Off | Max

  /** `pointSize` is a float that is only ever copied; it is kept as a real. */
  datatype Configuration = Configuration(
    blend: Blend,
    blendFunc: BlendFunc,
    blendEquation: BlendEquation,
    depthTest: DepthTest,
    depthFunc: DepthFunc,
    pointSize: real,
    depthMask: DepthMask,
    srgbMode: SrgbMode
  )

  /** A value-initialised configuration: every axis `Unset`, point size 0. */
  const Empty: Configuration :=
    Configuration(Blend.Unset, BlendFunc.Unset, BlendEquation.Unset, DepthTest.Unset,
                  DepthFunc.Unset, 0.0, DepthMask.Unset, SrgbMode.Unset)

  /** `Configuration::getDefault()`. */
  const Default: Configuration :=
    Configuration(Blend.Enabled, BlendFunc.SrcAlphaOneMinusSrcAlpha, BlendEquation.FuncAdd,
                  DepthTest.Disabled, DepthFunc.Less, 1.0, DepthMask.True, SrgbMode.On)

  // The switch of each setter: the driver call for a value, none for Unset/Max.

  function BlendCall(b: Blend): Option<Event> {
    match b
    case Enabled => Some(Enable(CapBlend))
    case Disabled => Some(Disable(CapBlend))
    case _ => None
  }

  function BlendFuncCall(f: BlendFunc): Option<Event> {
    match f
    case SrcAlphaOneMinusSrcAlpha => Some(Event.BlendFunc(SrcAlpha, OneMinusSrcAlpha))
    case SrcOneOneMinusSrcAlpha => Some(Event.BlendFunc(One, OneMinusSrcAlpha))
    case SeparateSrcAlphaOneMinusSrcAlphaOneMinusDstAlphaOne =>
      Some(BlendFuncSeparate(SrcAlpha, OneMinusSrcAlpha, OneMinusDstAlpha, One))
    case OneZero => Some(Event.BlendFunc(One, Zero))
    case ZeroOne => Some(Event.BlendFunc(Zero, One))
    case OneOne => Some(Event.BlendFunc(One, One))
    case DstColorZero => Some(Event.BlendFunc(DstColor, Zero))
    case _ => None
  }

  function BlendEquationCall(e: BlendEquation): Option<Event> {
    match e
    case FuncMax => Some(Event.BlendEquation(ModeMax))
    case FuncMin => Some(Event.BlendEquation(ModeMin))
    case FuncAdd => Some(Event.BlendEquation(ModeAdd))
    case FuncReverseSubtract => Some(Event.BlendEquation(ModeReverseSubtract))
    case FuncSubtract => Some(Event.BlendEquation(ModeSubtract))
    case _ => None
  }

  function DepthTestCall(t: DepthTest): Option<Event> {
    match t
    case Enabled => Some(Enable(CapDepthTest))
    case Disabled => Some(Disable(CapDepthTest))
    case _ => None
  }

  function DepthFuncCall(f: DepthFunc): Option<Event> {
    match f
    case Less => Some(Event.DepthFunc(CompareLess))
    case Lequal => Some(Event.DepthFunc(CompareLequal))
    case Always => Some(Event.DepthFunc(CompareAlways))
    case _ => None
  }

  function DepthMaskCall(m: DepthMask): Option<Event> {
    match m
    case False => Some(Event.DepthMask(false))
    case True => Some(Event.DepthMask(true))
    case _ => None
  }

  function SrgbCall(m: SrgbMode): Option<Event> {
    match m
    case On => Some(Enable(CapFramebufferSrgb))
    case Off => Some(Disable(CapFramebufferSrgb))
    case _ => None
  }

  /**
   * The shared shape of every axis setter: nothing happens when the cached
   * value equals the request; otherwise the call for the request is issued,
   * or the assertion fails when the request has no call.
   */
  function AxisChange<A(==)>(cached: A, requested: A, call: A -> Option<Event>): (r: (seq<Event>, bool))
    ensures cached == requested ==> r == ([], false)
    ensures cached != requested && call(requested).Some? ==> r == ([call(requested).value], false)
    ensures cached != requested && call(requested).None? ==> r == ([], true)
    ensures |r.0| == 1 <==> cached != requested && call(requested).Some?
  {
    if cached == requested then ([], false)
    else match call(requested)
      case Some(e) => ([e], false)
      case None => ([], true)
  }

  function SetBlend(c: Configuration, b: Blend): (r: Step<Configuration>)
    ensures r.state == c.(blend := b)
    ensures r.events == (if c.blend != b && BlendCall(b).Some? then [BlendCall(b).value] else [])
    ensures r.asserted <==> c.blend != b && (b == Blend.Unset || b == Blend.Max)
  {
    var (es, a) := AxisChange(c.blend, b, BlendCall);
    Step(c.(blend := b), es, a)
  }

  function SetBlendFunc(c: Configuration, f: BlendFunc): (r: Step<Configuration>)
    ensures r.state == c.(blendFunc := f)
    ensures r.events == (if c.blendFunc != f && BlendFuncCall(f).Some? then [BlendFuncCall(f).value] else [])
    ensures r.asserted <==> c.blendFunc != f && (f == BlendFunc.Unset || f == BlendFunc.Max)
  {
    var (es, a) := AxisChange(c.blendFunc, f, BlendFuncCall);
    Step(c.(blendFunc := f), es, a)
  }

  function SetBlendEquation(c: Configuration, e: BlendEquation): (r: Step<Configuration>)
    ensures r.state == c.(blendEquation := e)
    ensures r.events == (if c.blendEquation != e && BlendEquationCall(e).Some? then [BlendEquationCall(e).value] else [])
    ensures r.asserted <==> c.blendEquation != e && (e == BlendEquation.Unset || e == BlendEquation.Max)
  {
    var (es, a) := AxisChange(c.blendEquation, e, BlendEquationCall);
    Step(c.(blendEquation := e), es, a)
  }

  function SetDepthTest(c: Configuration, t: DepthTest): (r: Step<Configuration>)
    ensures r.state == c.(depthTest := t)
    ensures r.events == (if c.depthTest != t && DepthTestCall(t).Some? then [DepthTestCall(t).value] else [])
    ensures r.asserted <==> c.depthTest != t && (t == DepthTest.Unset || t == DepthTest.Max)
  {
    var (es, a) := AxisChange(c.depthTest, t, DepthTestCall);
    Step(c.(depthTest := t), es, a)
  }

  function SetDepthFunc(c: Configuration, f: DepthFunc): (r: Step<Configuration>)
    ensures r.state == c.(depthFunc := f)
    ensures r.events == (if c.depthFunc != f && DepthFuncCall(f).Some? then [DepthFuncCall(f).value] else [])
    ensures r.asserted <==> c.depthFunc != f && (f == DepthFunc.Unset || f == DepthFunc.Max)
  {
    var (es, a) := AxisChange(c.depthFunc, f, DepthFuncCall);
    Step(c.(depthFunc := f), es, a)
  }

  function SetDepthMask(c: Configuration, m: DepthMask): (r: Step<Configuration>)
    ensures r.state == c.(depthMask := m)
    ensures r.events == (if c.depthMask != m && DepthMaskCall(m).Some? then [DepthMaskCall(m).value] else [])
    ensures r.asserted <==> c.depthMask != m && (m == DepthMask.Unset || m == DepthMask.Max)
  {
    var (es, a) := AxisChange(c.depthMask, m, DepthMaskCall);
    Step(c.(depthMask := m), es, a)
  }

  function SetSrgbMode(c: Configuration, m: SrgbMode): (r: Step<Configuration>)
    ensures r.state == c.(srgbMode := m)
    ensures r.events == (if c.srgbMode != m && SrgbCall(m).Some? then [SrgbCall(m).value] else [])
    ensures r.asserted <==> c.srgbMode != m && (m == SrgbMode.Unset || m == SrgbMode.Max)
  {
    var (es, a) := AxisChange(c.srgbMode, m, SrgbCall);
    Step(c.(srgbMode := m), es, a)
  }

  /**
   * `setConfiguration`: the seven setters in order, after which the whole
   * argument is stored (which also copies the point size).
   */
  function SetAll(c0: Configuration, c: Configuration): (r: Step<Configuration>)
    ensures r.state == c
    ensures r.events ==
      SetBlend(c0, c.blend).events + SetBlendFunc(c0, c.blendFunc).events
      + SetBlendEquation(c0, c.blendEquation).events + SetDepthTest(c0, c.depthTest).events
      + SetDepthFunc(c0, c.depthFunc).events + SetDepthMask(c0, c.depthMask).events
      + SetSrgbMode(c0, c.srgbMode).events
    ensures c0 == c ==> r.events == [] && !r.asserted
  {
    var s1 := SetBlend(c0, c.blend);
    var s2 := SetBlendFunc(s1.state, c.blendFunc);
    var s3 := SetBlendEquation(s2.state, c.blendEquation);
    var s4 := SetDepthTest(s3.state, c.depthTest);
    var s5 := SetDepthFunc(s4.state, c.depthFunc);
    var s6 := SetDepthMask(s5.state, c.depthMask);
    var s7 := SetSrgbMode(s6.state, c.srgbMode);
    Step(c, s1.events + s2.events + s3.events + s4.events + s5.events + s6.events + s7.events,
         s1.asserted || s2.asserted || s3.asserted || s4.asserted || s5.asserted || s6.asserted || s7.asserted)
  }
}

=== FILE: render_info.dfy ===
/**
 * `RenderInfoBase<T>`: the growable arena that cached values write into and
 * that renderers read back as spans. Both revisions of the header (the one
 * with `get`, `pop_back`, `size`, `empty` and the older one with `getSize`)
 * keep a single vector and give it the same meaning, so one model serves
 * both.
 */
module RenderInfo {

  datatype Arena<T> = Arena(data: seq<T>)

  /** `size()` / `getSize()`. */
  function Size<T>(a: Arena<T>): (r: nat)
    ensures r == 0 <==> a.data == []
  {
    |a.data|
  }

  /** `empty()`. */
  predicate Empty<T>(a: Arena<T>) {
    a.data == []
  }

  /** `get(i)`: indexing the vector, undefined outside it. */
  function Get<T>(a: Arena<T>, i: int): (r: T)
    requires 0 <= i < Size(a)
    ensures r == a.data[i] && r in a.data
  {
    a.data[i]
  }

  /**
   * `getSubSpan(begin, end)`. A negative `begin` becomes a huge unsigned
   * offset in `subspan`, which is undefined. Every other broken
   * assertion is reported in `r.1`; release builds then clamp both ends
   * to the size and take `max(0, end - begin)` elements.
   */
  function SubSpan<T>(a: Arena<T>, begin: int, end: int): (r: (seq<T>, bool))
    requires begin >= 0
    ensures r.1 <==> !(0 <= end && begin <= Size(a) && end <= Size(a) && begin <= end)
    ensures !r.1 ==> |r.0| == end - begin
    ensures !r.1 ==> forall i :: 0 <= i < |r.0| ==> r.0[i] == a.data[begin + i]
    ensures |r.0| <= Size(a)
    ensures forall x :: x in r.0 ==> x in a.data
  {
    var asserted := !(0 <= end && begin <= Size(a) && end <= Size(a) && begin <= end);
    var b := if Size(a) < begin then Size(a) else begin;
    var e := if Size(a) < end then Size(a) else end;
    var d := if e - b < 0 then 0 else e - b;
    (a.data[b..b + d], asserted)
  }

  /** `add(t)`: `push_back`. */
  function Add<T>(a: Arena<T>, t: T): (r: Arena<T>)
    ensures Size(r) == Size(a) + 1
    ensures r.data[Size(a)] == t
    ensures forall i :: 0 <= i < Size(a) ==> r.data[i] == a.data[i]
  {
    Arena(a.data + [t])
  }

  /** `pop_back()`: undefined on an empty vector. */
  function PopBack<T>(a: Arena<T>): (r: Arena<T>)
    requires !Empty(a)
    ensures Size(r) == Size(a) - 1
    ensures forall i :: 0 <= i < Size(r) ==> r.data[i] == a.data[i]
  {
    Arena(a.data[..|a.data| - 1])
  }

  /** `append(other)`: `other`'s elements after this arena's own. */
  function Append<T>(a: Arena<T>, other: Arena<T>): (r: Arena<T>)
    ensures Size(r) == Size(a) + Size(other)
    ensures forall i :: 0 <= i < Size(a) ==> r.data[i] == a.data[i]
    ensures forall i :: 0 <= i < Size(other) ==> r.data[Size(a) + i] == other.data[i]
  {
    Arena(a.data + other.data)
  }

  /** `clear()`. */
  function Clear<T>(a: Arena<T>): (r: Arena<T>)
    ensures Empty(r) && Size(r) == 0
  {
    Arena([])
  }

  /** `pop_back` undoes `add`. */
  lemma PopUndoesAdd<T>(a: Arena<T>, t: T)
    ensures PopBack(Add(a, t)) == a
  {
    assert (a.data + [t])[..|a.data|] == a.data;
  }

  /** The span of the whole arena is its contents, with no assertion. */
  lemma WholeSpan<T>(a: Arena<T>)
    ensures SubSpan(a, 0, Size(a)) == (a.data, false)
  {
    assert a.data[0..|a.data|] == a.data;
  }

  /**
   * After `append`, the two halves are recovered by spans over the old
   * size: the renderer's way of reading back what each batch added.
   */
  lemma AppendSplits<T>(a: Arena<T>, other: Arena<T>)
    ensures SubSpan(Append(a, other), 0, Size(a)) == (a.data, false)
    ensures SubSpan(Append(a, other), Size(a), Size(a) + Size(other)) == (other.data, false)
  {
    var d := a.data + other.data;
    assert d[0..|a.data|] == a.data;
    assert d[|a.data|..|a.data| + |other.data|] == other.data;
  }

  /** Spans over adjacent ranges concatenate to the span over their union. */
  lemma AdjacentSpans<T>(a: Arena<T>, b: int, m: int, e: int)
    requires 0 <= b <= m <= e <= Size(a)
    ensures SubSpan(a, b, m).0 + SubSpan(a, m, e).0 == SubSpan(a, b, e).0
  {
    assert a.data[b..m] + a.data[m..e] == a.data[b..e];
  }

  /** A span over a range past the end is clamped, never out of bounds. */
  lemma OverlongSpanIsClamped<T>(a: Arena<T>, b: int, e: int)
    requires 0 <= b <= Size(a) < e
    ensures SubSpan(a, b, e) == (a.data[b..], true)
  {
    assert a.data[b..b + (Size(a) - b)] == a.data[b..];
  }
}

=== FILE: reset_coherence.dfy ===
/**
 * What `reset()` leaves in the driver. The corrected reset unbinds the
 * texture of every occupied sampler unit and the pixel buffers; the reset as
 * written selects unit 0 for every unbind, so textures on the other units
 * stay bound, and it hands the pixel-buffer targets to `glBindFramebuffer`,
 * which rejects them, so the pixel buffers stay bound too.
 */
module ResetCoherence {
  import opened Gl
  import opened Qualifier
  import opened Driver
  import C = OpenglContext
  import opened Coherence

  /** The calls for one occupied unit: select `unit` if needed, then unbind `t` there. */
  lemma UnbindOne(g: GlState, active: int, unit: int, t: TextureTarget)
    requires g.activeTexture == active
    ensures var sel := if active != unit then [ActiveTexture(unit)] else [];
      Replay(g, sel + [Event.BindTexture(t, 0)])
        == g.(activeTexture := unit, textures := if t == Unbound then g.textures else g.textures[(unit, t) := 0])
  {
    if active != unit {
      assert [ActiveTexture(unit)] + [Event.BindTexture(t, 0)] == [ActiveTexture(unit), Event.BindTexture(t, 0)];
      ReplayPair(g, ActiveTexture(unit), Event.BindTexture(t, 0));
    } else {
      assert [] + [Event.BindTexture(t, 0)] == [Event.BindTexture(t, 0)];
      ReplaySingle(g, Event.BindTexture(t, 0));
    }
  }

  /** One occupied unit of the loop: its calls, then the rest of the loop from the unit it selected. */
  lemma OccupiedStep(active: int, units: seq<C.SamplerUnitInfo>, k: nat, corrected: bool, g: GlState)
    requires k < |units| && units[k].texture.data != 0 && g.activeTexture == active
    ensures var unit := if corrected then k else 0;
      var t := units[k].target;
      var g1 := g.(activeTexture := unit, textures := if t == Unbound then g.textures else g.textures[(unit, t) := 0]);
      var rest := C.UnbindUnits(unit, units, k + 1, corrected);
      var all := C.UnbindUnits(active, units, k, corrected);
      all.0 == rest.0 && Replay(g, all.1) == Replay(g1, rest.1)
  {
    var unit := if corrected then k else 0;
    var t := units[k].target;
    var sel := if active != unit then [ActiveTexture(unit)] else [];
    var es := sel + [Event.BindTexture(t, 0)];
    UnbindOne(g, active, unit, t);
    var rest := C.UnbindUnits(unit, units, k + 1, corrected);
    assert C.UnbindUnits(active, units, k, corrected).1 == es + rest.1;
    ReplayConcat(g, es, rest.1);
  }

  /** One empty unit of the loop: no calls. */
  lemma EmptyStep(active: int, units: seq<C.SamplerUnitInfo>, k: nat, corrected: bool)
    requires k < |units| && units[k].texture.data == 0
    ensures var rest := C.UnbindUnits(active, units, k + 1, corrected);
      var all := C.UnbindUnits(active, units, k, corrected);
      all.0 == rest.0 && all.1 == rest.1
  {
    var rest := C.UnbindUnits(active, units, k + 1, corrected);
    assert [] + rest.1 == rest.1;
  }

  /** The corrected unit loop touches only the units it visits. */
  lemma {:induction false} UnbindUnitsFrame(active: int, units: seq<C.SamplerUnitInfo>, k: nat, g: GlState)
    requires k <= |units| && g.activeTexture == active
    ensures var r := C.UnbindUnits(active, units, k, true);
      var g' := Replay(g, r.1);
      && g' == g.(activeTexture := r.0, textures := g'.textures)
      && (forall u, t :: (u < k || u >= |units|) ==> TextureAt(g', u, t) == TextureAt(g, u, t))
    decreases |units| - k
  {
    if k < |units| {
      var t := units[k].target;
      if units[k].texture.data != 0 {
        var g1 := g.(activeTexture := k, textures := if t == Unbound then g.textures else g.textures[(k, t) := 0]);
        var rest := C.UnbindUnits(k, units, k + 1, true);
        OccupiedStep(active, units, k, true, g);
        UnbindUnitsFrame(k, units, k + 1, g1);
        ComposeFrame(g, g1, Replay(g1, rest.1), rest.0, k, |units|);
      } else {
        EmptyStep(active, units, k, true);
        UnbindUnitsFrame(active, units, k + 1, g);
      }
    }
  }

  /** Unbinding on unit `k`, then touching only units from `k + 1` on, touches only units from `k` on. */
  lemma ComposeFrame(g: GlState, g1: GlState, g': GlState, a: int, k: int, n: int)
    requires k < n
    requires g1 == g.(activeTexture := g1.activeTexture, textures := g1.textures)
    requires forall u, t :: u != k ==> TextureAt(g1, u, t) == TextureAt(g, u, t)
    requires g' == g1.(activeTexture := a, textures := g'.textures)
    requires forall u, t :: (u < k + 1 || u >= n) ==> TextureAt(g', u, t) == TextureAt(g1, u, t)
    ensures g' == g.(activeTexture := a, textures := g'.textures)
    ensures forall u, t :: (u < k || u >= n) ==> TextureAt(g', u, t) == TextureAt(g, u, t)
  {
  }

  /** The corrected unit loop clears every occupied unit it visits. */
  lemma {:induction false} UnbindUnitsClears(active: int, units: seq<C.SamplerUnitInfo>, k: nat, g: GlState)
    requires k <= |units| && g.activeTexture == active
    ensures var r := C.UnbindUnits(active, units, k, true);
      forall u :: k <= u < |units| && units[u].texture.data != 0 && units[u].target != Unbound ==>
        TextureAt(Replay(g, r.1), u, units[u].target) == 0
    decreases |units| - k
  {
    if k < |units| {
      var t := units[k].target;
      if units[k].texture.data != 0 {
        var g1 := g.(activeTexture := k, textures := if t == Unbound then g.textures else g.textures[(k, t) := 0]);
        OccupiedStep(active, units, k, true, g);
        UnbindUnitsClears(k, units, k + 1, g1);
        UnbindUnitsFrame(k, units, k + 1, g1);
      } else {
        EmptyStep(active, units, k, true);
        UnbindUnitsClears(active, units, k + 1, g);
      }
    }
  }

  /** The loop as written only ever selects unit 0, so it touches no other unit. */
  lemma {:induction false} UnbindUnitsAsWrittenKeeps(active: int, units: seq<C.SamplerUnitInfo>, k: nat, g: GlState)
    requires k <= |units| && g.activeTexture == active
    ensures var r := C.UnbindUnits(active, units, k, false);
      var g' := Replay(g, r.1);
      && g' == g.(activeTexture := r.0, textures := g'.textures)
      && (forall u, t :: u != 0 ==> TextureAt(g', u, t) == TextureAt(g, u, t))
    decreases |units| - k
  {
    if k < |units| {
      var t := units[k].target;
      if units[k].texture.data != 0 {
        var g1 := g.(activeTexture := 0, textures := if t == Unbound then g.textures else g.textures[(0, t) := 0]);
        OccupiedStep(active, units, k, false, g);
        UnbindUnitsAsWrittenKeeps(0, units, k + 1, g1);
      } else {
        EmptyStep(active, units, k, false);
        UnbindUnitsAsWrittenKeeps(active, units, k + 1, g);
      }
    }
  }

  /** The pixel-buffer calls of a reset, as issued with `unbind` for each target. */
  lemma PixelBufferCalls(g: GlState, pack: seq<Event>, unpack: seq<Event>, corrected: bool)
    requires pack == [] || pack == [C.UnbindPixelBuffer(PixelPackBuffer, corrected)]
    requires unpack == [] || unpack == [C.UnbindPixelBuffer(PixelUnpackBuffer, corrected)]
    ensures var g' := Replay(g, pack + unpack);
      && g' == g.(buffers := g'.buffers)
      && (!corrected ==> g' == g)
      && (corrected && pack != [] ==> BufferAt(g', PixelPackBuffer) == 0)
      && (corrected && unpack != [] ==> BufferAt(g', PixelUnpackBuffer) == 0)
      && (pack == [] ==> BufferAt(g', PixelPackBuffer) == BufferAt(g, PixelPackBuffer))
      && (unpack == [] ==> BufferAt(g', PixelUnpackBuffer) == BufferAt(g, PixelUnpackBuffer))
  {
    ReplayConcat(g, pack, unpack);
    if pack != [] { ReplaySingle(g, pack[0]); }
    var g1 := Replay(g, pack);
    if unpack != [] { ReplaySingle(g1, unpack[0]); }
  }

  /**
   * The corrected reset leaves a coherent cache, every texture the cache
   * had bound is unbound in the driver, and so are the pixel buffers.
   */
  lemma {:induction false} ResetClearsDriver(ctx: C.Context, g: GlState, truthy: Qualified -> bool)
    requires Coherent(ctx, g)
    ensures var s := C.Reset(ctx, truthy);
      var g' := Replay(g, s.events);
      && Coherent(s.state, g')
      && (forall u :: 0 <= u < |ctx.samplerUnits| && ctx.samplerUnits[u].texture.data != 0 ==>
            TextureAt(g', u, ctx.samplerUnits[u].target) == 0)
      && (truthy(ctx.boundPackPbo) ==> BufferAt(g', PixelPackBuffer) == 0)
      && (truthy(ctx.boundUnpackPbo) ==> BufferAt(g', PixelUnpackBuffer) == 0)
  {
    var s := C.Reset(ctx, truthy);
    var pack := if truthy(ctx.boundPackPbo) then [C.UnbindPixelBuffer(PixelPackBuffer, true)] else [];
    var unpack := if truthy(ctx.boundUnpackPbo) then [C.UnbindPixelBuffer(PixelUnpackBuffer, true)] else [];
    var units := C.UnbindUnits(ctx.activeUnit, ctx.samplerUnits, 0, true);
    assert s.events == pack + unpack + units.1 + [ActiveTexture(0)];
    PixelBufferCalls(g, pack, unpack, true);
    var g1 := Replay(g, pack + unpack);
    UnbindUnitsFrame(ctx.activeUnit, ctx.samplerUnits, 0, g1);
    UnbindUnitsClears(ctx.activeUnit, ctx.samplerUnits, 0, g1);
    var g2 := Replay(g1, units.1);
    ReplayConcat(g, pack + unpack, units.1);
    ReplayConcat(g, pack + unpack + units.1, [ActiveTexture(0)]);
    ReplaySingle(g2, ActiveTexture(0));
    var g' := Replay(g, s.events);
    assert g' == g2.(activeTexture := 0);
    forall u | 0 <= u < |ctx.samplerUnits| && ctx.samplerUnits[u].texture.data != 0
      ensures TextureAt(g', u, ctx.samplerUnits[u].target) == 0
    {
      assert ctx.samplerUnits[u].texture != Default;
    }
  }

  /**
   * The reset as written: a texture bound on any unit but 0 is still bound
   * afterwards, and so is a pixel-pack buffer, although the cache now
   * believes nothing is bound.
   */
  lemma {:induction false} ResetAsWrittenLeavesBindings(ctx: C.Context, g: GlState, truthy: Qualified -> bool, u: int)
    requires Coherent(ctx, g)
    requires 0 < u < |ctx.samplerUnits| && ctx.samplerUnits[u].texture.data != 0
    ensures var s := C.ResetAsWritten(ctx, truthy);
      var g' := Replay(g, s.events);
      && s.state.samplerUnits[u] == C.EmptyUnit
      && TextureAt(g', u, ctx.samplerUnits[u].target) == ctx.samplerUnits[u].texture.data
      && (ctx.boundPackPbo != Default ==> BufferAt(g', PixelPackBuffer) == ctx.boundPackPbo.data)
      && (ctx.boundUnpackPbo != Default ==> BufferAt(g', PixelUnpackBuffer) == ctx.boundUnpackPbo.data)
  {
    var s := C.ResetAsWritten(ctx, truthy);
    var pack := if truthy(ctx.boundPackPbo) then [C.UnbindPixelBuffer(PixelPackBuffer, false)] else [];
    var unpack := if truthy(ctx.boundUnpackPbo) then [C.UnbindPixelBuffer(PixelUnpackBuffer, false)] else [];
    var units := C.UnbindUnits(ctx.activeUnit, ctx.samplerUnits, 0, false);
    assert s.events == pack + unpack + units.1 + [ActiveTexture(0)];
    PixelBufferCalls(g, pack, unpack, false);
    UnbindUnitsAsWrittenKeeps(ctx.activeUnit, ctx.samplerUnits, 0, g);
    var g2 := Replay(g, units.1);
    ReplayConcat(g, pack + unpack, units.1);
    ReplayConcat(g, pack + unpack + units.1, [ActiveTexture(0)]);
    ReplaySingle(g2, ActiveTexture(0));
    assert Replay(g, s.events) == g2.(activeTexture := 0);
    assert ctx.samplerUnits[u].texture != Default;
    assert TextureAt(g, u, ctx.samplerUnits[u].target) == ctx.samplerUnits[u].texture.data;
  }
}

=== FILE: shader_prefix.dfy ===
/**
 * `trimShaderPrefix` and `setShaderSource`: a shader is stored with a
 * version header for one of the two supported GLSL dialects; before upload,
 * the stored header is cut off and the header of the running context put in
 * front. The cut is four `std::string_view` searches. `find` answers `npos`
 * when nothing is found; `substr(npos)` throws `std::out_of_range`, while
 * `substr(npos + 1)` wraps to `substr(0)` and keeps the whole view.
 */
module ShaderPrefix {
  import opened Wrappers
  import Convert

  datatype ShaderVersion = Version330 | Version320Es

  const Prefix330: string := "#version 330\n"
  const EsVersionLine: string := "#version 320 es\n"
  const EsPrecision: string := "precision mediump float;"
  const Prefix320Es: string := EsVersionLine + EsPrecision + "\n"

  function ShaderPrefix(v: ShaderVersion): (r: string)
    ensures |r| > 0 && r[0] == '#' && r[|r| - 1] == '\n'
  {
    match v
    case Version330 => Prefix330
    case Version320Es => Prefix320Es
  }

  /** `s.find(c, from)`: the first position at or after `from` holding `c`. */
  function FindChar(s: string, c: char, from: nat): (r: Option<nat>)
    requires from <= |s|
    ensures r.Some? ==> from <= r.value < |s| && s[r.value] == c
    ensures r.Some? ==> forall j :: from <= j < r.value ==> s[j] != c
    ensures r.None? <==> forall j :: from <= j < |s| ==> s[j] != c
    decreases |s| - from
  {
    if from == |s| then None
    else if s[from] == c then Some(from)
    else FindChar(s, c, from + 1)
  }

  predicate OccursAt(s: string, p: string, i: nat) {
    i + |p| <= |s| && s[i..i + |p|] == p
  }

  /** `s.find(p, from)`: the first position at or after `from` where `p` starts. */
  function FindString(s: string, p: string, from: nat): (r: Option<nat>)
    requires from <= |s|
    ensures r.Some? ==> from <= r.value && OccursAt(s, p, r.value)
    ensures r.Some? ==> forall j :: from <= j < r.value ==> !OccursAt(s, p, j)
    ensures r.None? <==> forall j :: from <= j <= |s| ==> !OccursAt(s, p, j)
    decreases |s| - from
  {
    if OccursAt(s, p, from) then Some(from)
    else if from == |s| then None
    else FindString(s, p, from + 1)
  }

  /** `substr(i)`, which throws when `i` is past the end; `npos` is past every end. */
  function Substr(s: string, i: Option<nat>): (r: Result<string>)
    ensures i.Some? && i.value <= |s| <==> r.Ok?
    ensures r.Ok? ==> r.value == s[i.value..]
  {
    if i.Some? && i.value <= |s| then Ok(s[i.value..]) else Err(OutOfRange)
  }

  /** `substr(i + 1)`: `npos + 1` wraps to 0, so "not found" keeps the whole view. */
  function SubstrAfter(s: string, i: Option<nat>): (r: string)
    requires i.Some? ==> i.value < |s|
    ensures i.None? ==> r == s
    ensures i.Some? ==> r == s[i.value + 1..]
  {
    if i.Some? then s[i.value + 1..] else s
  }

  /** `b` ends with `a`. */
  predicate IsSuffix(a: string, b: string) {
    |a| <= |b| && a == b[|b| - |a|..]
  }

  /** Where the text after the line holding position `h` starts: past its newline, or at `h` on the last line. */
  function AfterLine(s: string, h: nat): (r: nat)
    requires h < |s|
    ensures h <= r <= |s|
  {
    match FindChar(s, '\n', h)
    case Some(n) => n + 1
    case None => h
  }

  /** Where the text after the statement starting at `p` starts: past its `;`, or at `p` when there is none. */
  function AfterStatement(s: string, p: nat): (r: nat)
    requires p <= |s|
    ensures p <= r <= |s|
  {
    match FindChar(s, ';', p)
    case Some(e) => e + 1
    case None => p
  }

  /**
   * `trimShaderPrefix`: from the first `#`, drop through the end of that
   * line, then from the first `precision` drop through the first `;`.
   * Measured in the original source, the result is the text after the `;`
   * ending the first `precision` that follows the line of the first `#`.
   * It throws exactly when the source has no `#`, or no `precision` after
   * that line.
   */
  function TrimShaderPrefix(source: string): (r: Result<string>)
    ensures var h := FindChar(source, '#', 0);
      r.Ok? <==> h.Some? && FindString(source, "precision", AfterLine(source, h.value)).Some?
    ensures r.Ok? ==>
      var p := FindString(source, "precision", AfterLine(source, FindChar(source, '#', 0).value)).value;
      r.value == source[AfterStatement(source, p)..] && IsSuffix(r.value, source)
  {
    TrimSucceeds(source);
    TrimLeaves(source);
    var h := FindChar(source, '#', 0);
    if h.Some? && FindString(source, "precision", AfterLine(source, h.value)).Some? then
      TailIsSuffix(source, AfterStatement(source, FindString(source, "precision", AfterLine(source, h.value)).value));
      TrimViews(source)
    else
      TrimViews(source)
  }

  /** The cuts as the code makes them, each on the view the previous one left. */
  function TrimViews(source: string): Result<string> {
    var hash := FindChar(source, '#', 0);
    if hash.None? then Err(OutOfRange)
    else
      var s1 := source[hash.value..];
      var s2 := SubstrAfter(s1, FindChar(s1, '\n', 0));
      var precision := FindString(s2, "precision", 0);
      if precision.None? then Err(OutOfRange)
      else
        var s3 := s2[precision.value..];
        Ok(SubstrAfter(s3, FindChar(s3, ';', 0)))
  }

  /** The cuts on views succeed exactly when the source has a `#` and a `precision` after that line. */
  lemma TrimSucceeds(source: string)
    ensures var h := FindChar(source, '#', 0);
      TrimViews(source).Ok? <==> h.Some? && FindString(source, "precision", AfterLine(source, h.value)).Some?
  {
    var hash := FindChar(source, '#', 0);
    if hash.Some? {
      var s1 := source[hash.value..];
      LineStage(source, hash.value, SubstrAfter(s1, FindChar(s1, '\n', 0)));
    }
  }

  /** What the cuts on views leave when they succeed, measured in the original source. */
  lemma TrimLeaves(source: string)
    ensures var h := FindChar(source, '#', 0);
      h.Some? && FindString(source, "precision", AfterLine(source, h.value)).Some? ==>
        var p := FindString(source, "precision", AfterLine(source, h.value)).value;
        TrimViews(source) == Ok(source[AfterStatement(source, p)..])
  {
    var hash := FindChar(source, '#', 0);
    if hash.Some? && FindString(source, "precision", AfterLine(source, hash.value)).Some? {
      var s1 := source[hash.value..];
      var s2 := SubstrAfter(s1, FindChar(s1, '\n', 0));
      var p := FindString(source, "precision", AfterLine(source, hash.value)).value;
      PrecisionView(source, hash.value, s2);
      var s3 := s2[FindString(s2, "precision", 0).value..];
      StatementCut(source, p, s3, SubstrAfter(s3, FindChar(s3, ';', 0)));
    }
  }

  /** The view from the `precision` the code finds is the source from the `precision` found after the `#` line. */
  lemma PrecisionView(source: string, h: nat, s2: string)
    requires h < |source| && FindString(source, "precision", AfterLine(source, h)).Some?
    requires s2 == SubstrAfter(source[h..], FindChar(source[h..], '\n', 0))
    ensures FindString(s2, "precision", 0).Some?
    ensures s2[FindString(s2, "precision", 0).value..] == source[FindString(source, "precision", AfterLine(source, h)).value..]
  {
    LineStage(source, h, s2);
    SliceOfSlice(source, AfterLine(source, h), FindString(s2, "precision", 0).value);
  }

  /** After the first line from `h`, the view is the source from `AfterLine`, and `precision` is found in both alike. */
  lemma LineStage(source: string, h: nat, s2: string)
    requires h < |source|
    requires s2 == SubstrAfter(source[h..], FindChar(source[h..], '\n', 0))
    ensures s2 == source[AfterLine(source, h)..]
    ensures FindString(s2, "precision", 0).Some? <==> FindString(source, "precision", AfterLine(source, h)).Some?
    ensures FindString(s2, "precision", 0).Some? ==>
      FindString(source, "precision", AfterLine(source, h)).value == AfterLine(source, h) + FindString(s2, "precision", 0).value
  {
    AfterLineTail(source, h);
    FindStringShift(source, "precision", AfterLine(source, h), 0);
  }

  /** Cutting the view from `p` through its first `;` leaves the source from `AfterStatement`. */
  lemma StatementCut(source: string, p: nat, s3: string, s4: string)
    requires p <= |source| && s3 == source[p..]
    requires s4 == SubstrAfter(s3, FindChar(s3, ';', 0))
    ensures s4 == source[AfterStatement(source, p)..] && IsSuffix(s4, source)
  {
    AfterStatementTail(source, p);
    TailIsSuffix(source, AfterStatement(source, p));
  }

  lemma SliceOfSlice(s: string, a: nat, b: nat)
    requires a + b <= |s|
    ensures s[a..][b..] == s[a + b..]
  {
  }

  /** Searching a tail of `s` finds what searching `s` from the tail's start finds, counted from there. */
  lemma {:induction false} FindCharShift(s: string, c: char, k: nat, from: nat)
    requires k + from <= |s|
    ensures FindChar(s[k..], c, from).Some? <==> FindChar(s, c, k + from).Some?
    ensures FindChar(s[k..], c, from).Some? ==> FindChar(s, c, k + from).value == k + FindChar(s[k..], c, from).value
    decreases |s| - k - from
  {
    if k + from < |s| && s[k + from] != c {
      assert s[k..][from] == s[k + from];
      FindCharShift(s, c, k, from + 1);
    }
  }

  lemma {:induction false} FindStringShift(s: string, p: string, k: nat, from: nat)
    requires k + from <= |s|
    ensures FindString(s[k..], p, from).Some? <==> FindString(s, p, k + from).Some?
    ensures FindString(s[k..], p, from).Some? ==> FindString(s, p, k + from).value == k + FindString(s[k..], p, from).value
    decreases |s| - k - from
  {
    var t := s[k..];
    if from + |p| <= |t| {
      assert t[from..from + |p|] == s[k + from..k + from + |p|];
    }
    assert OccursAt(t, p, from) <==> OccursAt(s, p, k + from);
    if !OccursAt(t, p, from) && k + from < |s| {
      FindStringShift(s, p, k, from + 1);
    }
  }

  lemma TailIsSuffix(s: string, x: nat)
    requires x <= |s|
    ensures IsSuffix(s[x..], s)
  {
  }

  /** Cutting the tail from `h` after its first line leaves the text from `AfterLine`. */
  lemma AfterLineTail(s: string, h: nat)
    requires h < |s|
    ensures SubstrAfter(s[h..], FindChar(s[h..], '\n', 0)) == s[AfterLine(s, h)..]
  {
    FindCharShift(s, '\n', h, 0);
  }

  /** Cutting the tail from `p` after its first `;` leaves the text from `AfterStatement`. */
  lemma AfterStatementTail(s: string, p: nat)
    requires p <= |s|
    ensures SubstrAfter(s[p..], FindChar(s[p..], ';', 0)) == s[AfterStatement(s, p)..]
  {
    FindCharShift(s, ';', p, 0);
  }

  /**
   * `setShaderSource`: the two pieces handed to `glShaderSource`, joined.
   * Each piece's length goes through `safety_cast<GLint>`, which aborts
   * when it does not fit; the header always fits.
   */
  function SetShaderSource(v: ShaderVersion, source: string): (r: Result<string>)
    ensures r.Ok? <==> TrimShaderPrefix(source).Ok? && |TrimShaderPrefix(source).value| <= 0x7FFF_FFFF
    ensures r.Ok? ==> r.value == ShaderPrefix(v) + TrimShaderPrefix(source).value
    ensures TrimShaderPrefix(source).Ok? && |TrimShaderPrefix(source).value| > 0x7FFF_FFFF ==> r == Err(Aborted)
  {
    match TrimShaderPrefix(source)
    case Err(f) => Err(f)
    case Ok(body) =>
      Convert.Bounds32();
      assert |ShaderPrefix(v)| <= 41;
      if Convert.SafetyCast(Convert.Int32, |ShaderPrefix(v)|).Err? then Err(Aborted)
      else if Convert.SafetyCast(Convert.Int32, |body|).Err? then Err(Aborted)
      else Ok(ShaderPrefix(v) + body)
  }

  /** Dropping a prefix by its length leaves the rest. */
  lemma DropPrefix(a: string, b: string)
    ensures (a + b)[|a|..] == b
  {
  }

  lemma EsHeaderLineEnd(rest: string)
    ensures FindChar(EsVersionLine + rest, '\n', 0) == Some(15)
  {
    var s := EsVersionLine + rest;
    assert forall j :: 0 <= j < 15 ==> s[j] != '\n';
    assert s[15] == '\n';
  }

  lemma EsPrecisionEnd(rest: string)
    ensures FindChar(EsPrecision + rest, ';', 0) == Some(23)
  {
    var s := EsPrecision + rest;
    assert forall j :: 0 <= j < 23 ==> s[j] != ';';
    assert s[23] == ';';
  }

  /**
   * The stages of `trimShaderPrefix` for a source that starts with `#`, whose
   * first line ends at `n`, which has `precision` right after that line and the
   * `;` ending it at `m` within the rest.
   */
  lemma TrimStages(source: string, n: nat, m: nat)
    requires |source| > 0 && source[0] == '#'
    requires FindChar(source, '\n', 0) == Some(n)
    requires OccursAt(source[n + 1..], "precision", 0)
    requires FindChar(source[n + 1..], ';', 0) == Some(m)
    ensures TrimShaderPrefix(source) == Ok(source[n + 1..][m + 1..])
  {
    assert FindChar(source, '#', 0) == Some(0);
    assert source[0..] == source;
    var s2 := source[n + 1..];
    assert SubstrAfter(source, FindChar(source, '\n', 0)) == s2;
    assert FindString(s2, "precision", 0) == Some(0);
    assert s2[0..] == s2;
    assert TrimViews(source) == Ok(SubstrAfter(s2, Some(m)));
  }

  /**
   * A source stored with the GLES header loses exactly that header up to its
   * final newline, so it can be re-headed for either dialect.
   */
  lemma TrimEsHeader(body: string)
    ensures TrimShaderPrefix(Prefix320Es + body) == Ok("\n" + body)
  {
    var tail := "\n" + body;
    var s2 := EsPrecision + tail;
    var s := EsVersionLine + s2;
    assert Prefix320Es + body == s;
    EsHeaderLineEnd(s2);
    DropPrefix(EsVersionLine, s2);
    assert s2[..9] == "precision";
    EsPrecisionEnd(tail);
    DropPrefix(EsPrecision, tail);
    TrimStages(s, 15, 23);
  }

  /**
   * The same source re-headed for the desktop dialect, unless the body
   * left after the cut is too long for a `GLint`.
   */
  lemma EsSourceOnDesktop(body: string)
    ensures |body| < 0x7FFF_FFFF ==> SetShaderSource(Version330, Prefix320Es + body) == Ok(Prefix330 + ("\n" + body))
    ensures |body| >= 0x7FFF_FFFF ==> SetShaderSource(Version330, Prefix320Es + body) == Err(Aborted)
  {
    TrimEsHeader(body);
  }

  lemma DesktopHeaderLineEnd(body: string)
    ensures FindChar(Prefix330 + body, '\n', 0) == Some(12)
  {
    var s := Prefix330 + body;
    assert forall j :: 0 <= j < 12 ==> s[j] != '\n';
    assert s[12] == '\n';
  }

  /** A source with only the desktop header and no `precision` anywhere is rejected. */
  lemma DesktopHeaderAloneThrows(body: string)
    requires forall j :: 0 <= j <= |body| ==> !OccursAt(body, "precision", j)
    ensures TrimShaderPrefix(Prefix330 + body).Err?
  {
    var s := Prefix330 + body;
    assert s[0] == '#';
    assert s[0..] == s;
    DesktopHeaderLineEnd(body);
    assert s[13..] == body;
  }
}

=== FILE: texture.dfy ===
/**
 * `TextureFormat`, `Opengl2DTexture` and `Opengl2DArrayTexture`: the table
 * lookups that turn a format into driver enums and byte counts, the guards
 * of `make`, the per-level allocation of array textures, the wrapping
 * de-duplication and move-assignment.
 */
module Texture {
  import opened Gl
  import opened Wrappers
  import opened Qualifier
  import C = OpenglContext
  import Convert

  /** `TextureFormat::PixelFormat` as the lookups enumerate it. */
  datatype PixelFormat = R | R16F | R16Unorm | RGB16 | RGBA

  datatype Filtering = Nearest | Linear

  datatype MipmapFiltering = MipNearest | MipLinear

  datatype Wrapping = Repeat | MirroredRepeat | ClampToEdge | ClampToBorder

  datatype Size = Size(x: int, y: int)

  datatype TextureFormat = TextureFormat(
    pixelFormat: PixelFormat,
    size: Size,
    layers: int,
    filtering: Filtering,
    mipmapLevels: int,
    mipmapFiltering: MipmapFiltering,
    wrappingX: Wrapping,
    wrappingY: Wrapping
  )

  /** `getInternalFormat()`. */
  function InternalFormat(p: PixelFormat): GlInternalFormat {
    match p
    case R => R8
    case R16F => GlInternalFormat.R16F
    case R16Unorm => R16
    case RGB16 => GlInternalFormat.RGB16
    case RGBA => RGBA8
  }

  /** `getPixelDataFormat()`. */
  function PixelDataFormat(p: PixelFormat): GlPixelFormat {
    match p
    case RGB16 => PixelRgb
    case RGBA => PixelRgba
    case _ => PixelRed
  }

  /** `getPixelDataType()`. */
  function PixelDataType(p: PixelFormat): GlPixelType {
    match p
    case R16F => TypeHalfFloat
    case R16Unorm | RGB16 => TypeUnsignedShort
    case _ => TypeUnsignedByte
  }

  /** Components per pixel of a client pixel layout. */
  function Components(f: GlPixelFormat): nat {
    match f
    case PixelRed => 1
    case PixelRgb => 3
    case PixelRgba => 4
  }

  /** Bytes per component of a client component type. */
  function ComponentBytes(t: GlPixelType): nat {
    match t
    case TypeUnsignedByte => 1
    case TypeHalfFloat => 2
    case TypeUnsignedShort => 2
  }

  /** The bytes per pixel that the upload's format and type describe. */
  function UploadPixelBytes(p: PixelFormat): nat {
    Components(PixelDataFormat(p)) * ComponentBytes(PixelDataType(p))
  }

  /**
   * The per-pixel factor of `getByteSize()`. As written, `R` counts 4 bytes
   * and `RGBA` 16; `corrected` uses what the upload actually carries.
   */
  function PixelBytes(p: PixelFormat, corrected: bool): (r: nat)
    ensures corrected ==> r == UploadPixelBytes(p)
  {
    match p
    case R => if corrected then 1 else 4
    case R16F => 2
    case R16Unorm => 2
    case RGB16 => 6
    case RGBA => if corrected then 4 else 16
  }

  /** `getByteSize()`: pixel count times bytes per pixel. */
  function ByteSize(f: TextureFormat, corrected: bool): (r: int)
    ensures f.size.x >= 0 && f.size.y >= 0 ==> r >= 0
    ensures corrected ==> r == f.size.x * f.size.y * UploadPixelBytes(f.pixelFormat)
  {
    f.size.x * f.size.y * PixelBytes(f.pixelFormat, corrected)
  }

  /** The written table agrees with the upload everywhere except `R` and `RGBA`. */
  lemma PixelBytesAsWritten(p: PixelFormat)
    ensures PixelBytes(p, false) == UploadPixelBytes(p) <==> p != R && p != RGBA
    ensures p == R ==> PixelBytes(p, false) == 4 * UploadPixelBytes(p)
    ensures p == RGBA ==> PixelBytes(p, false) == 4 * UploadPixelBytes(p)
  {
  }

  /** `getMagFilter()`. */
  function MagFilter(f: TextureFormat): GlFilter {
    match f.filtering
    case Linear => FilterLinear
    case Nearest => FilterNearest
  }

  /** `getMinFilter()`: with mipmaps, the filter within a level paired with the filter between levels. */
  function MinFilter(f: TextureFormat): (r: GlFilter)
    ensures f.mipmapLevels == 1 ==> r == MagFilter(f)
  {
    if f.mipmapLevels != 1 then
      match (f.mipmapFiltering, f.filtering)
      case (MipNearest, Linear) => LinearMipmapNearest
      case (MipNearest, Nearest) => NearestMipmapNearest
      case (MipLinear, Linear) => LinearMipmapLinear
      case (MipLinear, Nearest) => NearestMipmapLinear
    else MagFilter(f)
  }

  /** The filter a combined mode applies within one level. */
  function WithinLevel(g: GlFilter): GlFilter {
    match g
    case LinearMipmapNearest | LinearMipmapLinear => FilterLinear
    case NearestMipmapNearest | NearestMipmapLinear => FilterNearest
    case _ => g
  }

  /** The filter a combined mode applies between levels, if any. */
  function BetweenLevels(g: GlFilter): Option<MipmapFiltering> {
    match g
    case LinearMipmapNearest | NearestMipmapNearest => Some(MipNearest)
    case LinearMipmapLinear | NearestMipmapLinear => Some(MipLinear)
    case _ => None
  }

  /**
   * The min filter samples each level like the mag filter, and blends
   * between levels exactly when there is more than one level.
   */
  lemma MinFilterDecomposes(f: TextureFormat)
    ensures WithinLevel(MinFilter(f)) == MagFilter(f)
    ensures BetweenLevels(MinFilter(f)) == (if f.mipmapLevels != 1 then Some(f.mipmapFiltering) else None)
  {
  }

  /** `getWrapping(w)`. */
  function WrapEnum(w: Wrapping): GlWrap {
    match w
    case Repeat => WrapRepeat
    case ClampToBorder => WrapClampToBorder
    case ClampToEdge => WrapClampToEdge
    case MirroredRepeat => WrapMirroredRepeat
  }

  /** The four `glTexParameteri` calls that follow an allocation. */
  function ParamCalls(target: TextureTarget, f: TextureFormat): (r: seq<Event>)
    ensures |r| == 4
  {
    [TexParameter(target, ParamMagFilter, FilterValue(MagFilter(f))),
     TexParameter(target, ParamMinFilter, FilterValue(MinFilter(f))),
     TexParameter(target, ParamWrapS, WrapValue(WrapEnum(f.wrappingX))),
     TexParameter(target, ParamWrapT, WrapValue(WrapEnum(f.wrappingY)))]
  }

  /** `Opengl2DTexture`. */
  datatype Texture2DObject = Texture2DObject(id: Qualified, format: TextureFormat, flippedUV: bool)

  /** A created texture, or nothing when `make` refused. */
  datatype Made<T> = Made(ctx: C.Context, texture: Option<T>)

  /**
   * `Opengl2DTexture::make(ctx, format, data)`. `maxSize` is what the driver
   * reports for `GL_MAX_TEXTURE_SIZE`, `name` what `glGenTextures` hands
   * out and `data` the length of the optional pixel data. An oversized
   * format is refused before anything happens; non-empty data of the wrong
   * length is refused after the texture was created and bound, and the
   * discarded texture's destructor deletes the name again.
   */
  function MakeWith(ctx: C.Context, f: TextureFormat, data: Option<nat>, maxSize: int, name: nat, corrected: bool): (r: Step<Made<Texture2DObject>>)
    requires |ctx.samplerUnits| > 0
    ensures f.size.x > maxSize || f.size.y > maxSize ==> r == Step(Made(ctx, None), [], false)
    ensures r.state.texture.Some? <==>
      f.size.x <= maxSize && f.size.y <= maxSize && (data.None? || data.value == 0 || data.value == ByteSize(f, corrected))
    ensures r.state.texture.Some? ==>
      var t := r.state.texture.value;
      t.id == Qualified(name, ctx.qualifierCounter) && t.format == f && |r.events| >= 5 &&
      r.events[|r.events| - 5..] ==
        [TexImage2D(InternalFormat(f.pixelFormat), f.size.x, f.size.y, data.Some? && data.value != 0)] +
        ParamCalls(Texture2D, f)
    ensures r.state.texture.None? && f.size.x <= maxSize && f.size.y <= maxSize ==>
      |r.events| > 0 && r.events[|r.events| - 1] == DeleteTexture(name)
    ensures r.state.ctx.qualifierCounter == ctx.qualifierCounter + (if f.size.x > maxSize || f.size.y > maxSize then 0 else 1)
    ensures !r.asserted
  {
    if f.size.x > maxSize || f.size.y > maxSize then Step(Made(ctx, None), [], false)
    else
      var issued := C.GetQualifier(ctx);
      var id := Qualified(name, issued.qualifier);
      var b := C.BindTexture(issued.state, id, Texture2D, 0);
      var withData := data.Some? && data.value != 0;
      if withData && data.value != ByteSize(f, corrected) then
        Step(Made(b.state, None), b.events + [DeleteTexture(name)], false)
      else
        var upload := [TexImage2D(InternalFormat(f.pixelFormat), f.size.x, f.size.y, withData)] + ParamCalls(Texture2D, f);
        Step(Made(b.state, Some(Texture2DObject(id, f, false))), b.events + upload, false)
  }

  function MakeAsWritten(ctx: C.Context, f: TextureFormat, data: Option<nat>, maxSize: int, name: nat): (r: Step<Made<Texture2DObject>>)
    requires |ctx.samplerUnits| > 0
    ensures r == MakeWith(ctx, f, data, maxSize, name, false)
  {
    MakeWith(ctx, f, data, maxSize, name, false)
  }

  function Make(ctx: C.Context, f: TextureFormat, data: Option<nat>, maxSize: int, name: nat): (r: Step<Made<Texture2DObject>>)
    requires |ctx.samplerUnits| > 0
    ensures r == MakeWith(ctx, f, data, maxSize, name, true)
  {
    MakeWith(ctx, f, data, maxSize, name, true)
  }

  /**
   * As written, an 8-bit single-channel image whose data holds exactly the
   * one byte per pixel that its upload reads is refused; with the
   * corrected size it is created.
   */
  lemma SingleChannelUploadRefused(ctx: C.Context, f: TextureFormat, maxSize: int, name: nat)
    requires |ctx.samplerUnits| > 0
    requires f.pixelFormat == R && 0 < f.size.x <= maxSize && 0 < f.size.y <= maxSize
    ensures MakeAsWritten(ctx, f, Some(f.size.x * f.size.y), maxSize, name).state.texture.None?
    ensures Make(ctx, f, Some(f.size.x * f.size.y), maxSize, name).state.texture.Some?
  {
    assert f.size.x * f.size.y * 4 != f.size.x * f.size.y;
  }

  /**
   * `setWrapping(x, y)`: binds the texture and sets both wrap modes only
   * when either differs from the stored one.
   */
  function SetWrapping(ctx: C.Context, t: Texture2DObject, x: Wrapping, y: Wrapping): (r: Step<(C.Context, Texture2DObject)>)
    requires |ctx.samplerUnits| > 0
    ensures r.state.1 == t.(format := t.format.(wrappingX := x, wrappingY := y))
    ensures r.events == [] <==> t.format.wrappingX == x && t.format.wrappingY == y
    ensures r.events != [] ==> (|r.events| >= 2 && r.events[|r.events| - 2..] ==
      [TexParameter(Texture2D, ParamWrapS, WrapValue(WrapEnum(x))), TexParameter(Texture2D, ParamWrapT, WrapValue(WrapEnum(y)))])
    ensures t.format.wrappingX == x && t.format.wrappingY == y ==> r.state.0 == ctx
  {
    if t.format.wrappingX != x || t.format.wrappingY != y then
      var b := C.BindTexture(ctx, t.id, Texture2D, 0);
      var t' := t.(format := t.format.(wrappingX := x, wrappingY := y));
      Step((b.state, t'), b.events + [TexParameter(Texture2D, ParamWrapS, WrapValue(WrapEnum(x))),
                                      TexParameter(Texture2D, ParamWrapT, WrapValue(WrapEnum(y)))], false)
    else Step((ctx, t), [], false)
  }

  /** A second identical `setWrapping` issues nothing. */
  lemma SetWrappingIdempotent(ctx: C.Context, t: Texture2DObject, x: Wrapping, y: Wrapping)
    requires |ctx.samplerUnits| > 0
    ensures var r := SetWrapping(ctx, t, x, y);
      |r.state.0.samplerUnits| > 0 && SetWrapping(r.state.0, r.state.1, x, y) == Step(r.state, [], false)
  {
  }

  /**
   * Move-assignment: deletes this texture's name, takes the other's handle,
   * format and orientation, and clears the other's handle. The assertion
   * that both share one context is `sameContext`.
   */
  function MoveAssign(target: Texture2DObject, source: Texture2DObject, sameContext: bool): (r: Step<(Texture2DObject, Texture2DObject)>)
    ensures r.state.0 == source
    ensures r.state.1 == source.(id := Clear(source.id))
    ensures r.events == [DeleteTexture(target.id.data)]
    ensures r.asserted <==> !sameContext
  {
    Step((source, source.(id := Clear(source.id))), [DeleteTexture(target.id.data)], !sameContext)
  }

  /** After a move, only the destination names the texture. */
  lemma MoveLeavesOneOwner(target: Texture2DObject, source: Texture2DObject)
    requires source.id != Default
    ensures var r := MoveAssign(target, source, true);
      r.state.0.id == source.id && r.state.1.id == Default && r.state.0.id != r.state.1.id
  {
  }

  // ---------------------------------------------------------------- array textures

  /** `Opengl2DArrayTexture`. */
  datatype ArrayTexture = ArrayTexture(id: Qualified, size: Size, layers: int)

  /** `v >> i` on a 32-bit `int`: an arithmetic shift, undefined from 32 on. */
  function ShiftRight(v: int, i: nat): int
    requires i < 32
  {
    v / Convert.Pow2(i)
  }

  /** The calls that allocate and parametrise level `i`. */
  function LevelCalls(f: TextureFormat, i: nat): (r: seq<Event>)
    requires i < 32
    ensures |r| == 5
  {
    [TexImage3D(i, InternalFormat(f.pixelFormat), ShiftRight(f.size.x, i), ShiftRight(f.size.y, i), f.layers)] +
    ParamCalls(Texture2DArray, f)
  }

  /** The loop over the levels `i` up to `mipmapLevels`. */
  function LevelsFrom(f: TextureFormat, i: nat): (r: seq<Event>)
    requires f.mipmapLevels <= 32
    ensures |r| == (if i < f.mipmapLevels then 5 * (f.mipmapLevels - i) else 0)
    decreases f.mipmapLevels - i
  {
    if i >= f.mipmapLevels then [] else LevelCalls(f, i) + LevelsFrom(f, i + 1)
  }

  /** The allocation of level `j` opens its five-call block, at halved sizes. */
  lemma {:induction false} LevelAllocated(f: TextureFormat, i: nat, j: nat)
    requires f.mipmapLevels <= 32
    requires i <= j < f.mipmapLevels
    ensures 5 * (j - i) < |LevelsFrom(f, i)|
    ensures LevelsFrom(f, i)[5 * (j - i)] ==
      TexImage3D(j, InternalFormat(f.pixelFormat), ShiftRight(f.size.x, j), ShiftRight(f.size.y, j), f.layers)
    decreases j - i
  {
    if i < j {
      LevelAllocated(f, i + 1, j);
      var rest := LevelsFrom(f, i + 1);
      assert LevelsFrom(f, i) == LevelCalls(f, i) + rest;
      assert LevelsFrom(f, i)[5 * (j - i)] == rest[5 * (j - (i + 1))];
    }
  }

  /**
   * `Opengl2DArrayTexture::make(ctx, format)`: refuses oversized formats,
   * otherwise allocates every level at the halved size and clamps the
   * level range to the allocated levels. More than 32 levels would shift
   * a 32-bit size out entirely, which is undefined.
   */
  function MakeArray(ctx: C.Context, f: TextureFormat, maxSize: int, name: nat): (r: Step<Made<ArrayTexture>>)
    requires |ctx.samplerUnits| > 0
    requires f.mipmapLevels <= 32
    ensures r.state.texture.Some? <==> f.size.x <= maxSize && f.size.y <= maxSize
    ensures r.state.texture.Some? ==>
      var levels := if f.mipmapLevels > 0 then f.mipmapLevels else 0;
      r.state.texture.value == ArrayTexture(Qualified(name, ctx.qualifierCounter), f.size, f.layers) &&
      |r.events| >= 5 * levels + 2 &&
      r.events[|r.events| - 2..] ==
        [TexParameter(Texture2DArray, ParamBaseLevel, LevelValue(0)),
         TexParameter(Texture2DArray, ParamMaxLevel, LevelValue(f.mipmapLevels - 1))]
    ensures r.state.texture.None? ==> r == Step(Made(ctx, None), [], false)
    ensures !r.asserted
  {
    if f.size.x > maxSize || f.size.y > maxSize then Step(Made(ctx, None), [], false)
    else
      var issued := C.GetQualifier(ctx);
      var id := Qualified(name, issued.qualifier);
      var b := C.BindTexture(issued.state, id, Texture2DArray, 0);
      var tail := [TexParameter(Texture2DArray, ParamBaseLevel, LevelValue(0)),
                   TexParameter(Texture2DArray, ParamMaxLevel, LevelValue(f.mipmapLevels - 1))];
      Step(Made(b.state, Some(ArrayTexture(id, f.size, f.layers))), b.events + LevelsFrom(f, 0) + tail, false)
  }

  /**
   * Level `i` of a created array texture is allocated with both sizes
   * shifted right by `i`, in level order right before the two level-range
   * parameters.
   */
  lemma ArrayLevelSizes(ctx: C.Context, f: TextureFormat, maxSize: int, name: nat, i: nat)
    requires |ctx.samplerUnits| > 0
    requires f.mipmapLevels <= 32
    requires f.size.x <= maxSize && f.size.y <= maxSize
    requires i < f.mipmapLevels
    ensures var r := MakeArray(ctx, f, maxSize, name);
      var k := |r.events| - 2 - 5 * f.mipmapLevels + 5 * i;
      0 <= k < |r.events| &&
      r.events[k] == TexImage3D(i, InternalFormat(f.pixelFormat), ShiftRight(f.size.x, i), ShiftRight(f.size.y, i), f.layers)
  {
    var issued := C.GetQualifier(ctx);
    var b := C.BindTexture(issued.state, Qualified(name, issued.qualifier), Texture2DArray, 0);
    var levels := LevelsFrom(f, 0);
    LevelAllocated(f, 0, i);
    var r := MakeArray(ctx, f, maxSize, name);
    assert r.events == b.events + levels + r.events[|r.events| - 2..];
    assert r.events[|b.events| + 5 * i] == levels[5 * i];
  }
}

=== FILE: uniforms.dfy ===
/**
 * Shader uniforms: the scalar `Uniform<T>` that skips uploads of an
 * unchanged value, and the sampler uniforms that take texture units from
 * their program and bind textures on them through the context.
 */
module Uniforms {
  import opened Gl
  import opened Wrappers
  import opened Qualifier
  import C = OpenglContext

  /**
   * The part of a `Program` the uniforms touch: its handle, its sampler
   * counter and the names of the uniforms registered with it.
   */
  datatype ProgramObject = ProgramObject(id: Qualified, samplerCount: int, registered: seq<string>)

  /** The context and the program a uniform points at. */
  datatype Env = Env(ctx: C.Context, program: ProgramObject)

  /** `getNextSampler()`: the next unused unit of the program, post-increment. */
  function NextSampler(p: ProgramObject): (r: (ProgramObject, int))
    ensures r.1 == p.samplerCount && r.0 == p.(samplerCount := p.samplerCount + 1)
  {
    (p.(samplerCount := p.samplerCount + 1), p.samplerCount)
  }

  // ---------------------------------------------------------------- scalar uniforms

  /** What `current` holds: nothing yet, a scalar, or a vector from the array form of `set`. */
  datatype Held<T> = Scalar(value: T) | Vector(values: seq<T>)

  /** `Uniform<T>`; `attached` says `program` is not null. */
  datatype Uniform<T> = Uniform(current: Option<Held<T>>, attached: bool, location: nat)

  /**
   * Scalar `set(value)`: when the cached scalar equals the value nothing
   * happens; otherwise the value is cached, the program made current and
   * the value uploaded once. A cached vector trips the assertion and is
   * then overwritten. A detached uniform would dereference null.
   */
  function Set<T(==)>(ctx: C.Context, u: Uniform<T>, program: Qualified, v: T): (r: Step<(C.Context, Uniform<T>)>)
    requires u.attached
    ensures r.state.1 == u.(current := Some(Scalar(v)))
    ensures r.asserted <==> u.current.Some? && u.current.value.Vector?
    ensures u.current == Some(Scalar(v)) ==> r.events == [] && r.state.0 == ctx
    ensures u.current != Some(Scalar(v)) ==>
      r.state.0.usedProgram == program && |r.events| > 0 && r.events[|r.events| - 1] == UniformUpload(u.location) &&
      r.events[..|r.events| - 1] == (if ctx.usedProgram == program then [] else [Event.UseProgram(program.data)])
  {
    var asserted := u.current.Some? && !u.current.value.Scalar?;
    if u.current == Some(Scalar(v)) then Step((ctx, u), [], asserted)
    else
      var used := C.UseProgram(ctx, program);
      var events := used.events + [UniformUpload(u.location)];
      assert events[..|events| - 1] == used.events;
      Step((used.state, u.(current := Some(Scalar(v)))), events, asserted)
  }

  /** The first `set` always uploads. */
  lemma FirstSetUploads<T>(ctx: C.Context, u: Uniform<T>, program: Qualified, v: T)
    requires u.attached && u.current.None?
    ensures UniformUpload(u.location) in Set(ctx, u, program, v).events
  {
    var r := Set(ctx, u, program, v);
    assert r.events[|r.events| - 1] == UniformUpload(u.location);
  }

  /** Setting the same value again uploads nothing. */
  lemma SetTwiceUploadsOnce<T>(ctx: C.Context, u: Uniform<T>, program: Qualified, v: T)
    requires u.attached
    ensures var r := Set(ctx, u, program, v);
      r.state.1.attached && Set(r.state.0, r.state.1, program, v) == Step(r.state, [], false)
  {
  }

  // ---------------------------------------------------------------- sampler2D arrays

  /** `OpenglSampler2D`: `count` consecutive texture units bound to one array uniform. */
  datatype Sampler2D = Sampler2D(attached: bool, location: nat, units: seq<int>, name: string)

  /** `count` successive calls of `getNextSampler` from `start` on. */
  function Successive(start: int, count: int): (r: seq<int>)
    ensures |r| == (if count > 0 then count else 0)
    ensures forall i :: 0 <= i < |r| ==> r[i] == start + i
    decreases count
  {
    if count <= 0 then [] else [start] + Successive(start + 1, count - 1)
  }

  /**
   * The first-call half of `initialize`: registering the sampler and taking
   * `count` units from the program. A refresh changes neither.
   */
  function Register2D(p: ProgramObject, s: Sampler2D, name: string, count: int): (r: (ProgramObject, seq<int>, string))
    ensures s.attached ==> r == (p, s.units, s.name)
    ensures !s.attached ==>
      r.2 == name && |r.1| == |s.units| + (if count > 0 then count else 0) &&
      r.1[..|s.units|] == s.units &&
      (forall i :: |s.units| <= i < |r.1| ==> r.1[i] == p.samplerCount + i - |s.units|) &&
      r.0 == p.(samplerCount := p.samplerCount + |r.1| - |s.units|, registered := p.registered + [name])
  {
    if s.attached then (p, s.units, s.name)
    else
      var taken := Successive(p.samplerCount, count);
      AppendTaken(s.units, p.samplerCount, count);
      (p.(samplerCount := p.samplerCount + |taken|, registered := p.registered + [name]), s.units + taken, name)
  }

  /** The units `glUniform1iv` reads for an element count of `count`: the first `count`, or none. */
  function Read(units: seq<int>, count: int): (r: seq<int>)
    requires count <= |units|
    ensures |r| == (if count > 0 then count else 0)
    ensures forall i :: 0 <= i < |r| ==> r[i] == units[i]
  {
    if count >= 0 then units[..count] else []
  }

  /**
   * `OpenglSampler2D::initialize(name, count, program)`. The first call
   * registers the uniform and takes `count` units from the program (the
   * units must be empty then); a refresh keeps the units and asserts the
   * name is unchanged. Either way the unit count must equal `count`, all
   * the units are tallied as four bytes each, and the upload hands the
   * driver `count` as the element count, so it reads the first `count`
   * units (none for a negative count, which the driver rejects). A
   * refresh with fewer units than `count` would read past the vector.
   */
  function Initialize2D(env: Env, s: Sampler2D, name: string, count: int, location: nat): (r: Step<(Env, Sampler2D)>)
    requires s.attached ==> count <= |s.units|
    ensures var s' := r.state.1;
      s'.attached && s'.location == location &&
      (s.attached ==> s'.units == s.units && s'.name == s.name && r.state.0.program == env.program) &&
      (!s.attached ==> (s'.name == name && |s'.units| == |s.units| + (if count > 0 then count else 0) &&
        s'.units[..|s.units|] == s.units &&
        (forall i :: |s.units| <= i < |s'.units| ==> s'.units[i] == env.program.samplerCount + i - |s.units|) &&
        r.state.0.program.samplerCount == env.program.samplerCount + |s'.units| - |s.units| &&
        r.state.0.program.registered == env.program.registered + [name]))
    ensures r.asserted <==>
      (if s.attached then s.name != name else s.units != []) || |r.state.1.units| != count
    ensures r.state.0.ctx.thisFrame.uniforms == env.ctx.thisFrame.uniforms + 4 * |r.state.1.units|
    ensures r.state.0.ctx.usedProgram == env.program.id
    ensures count <= |r.state.1.units|
    ensures |r.events| > 0 && r.events[|r.events| - 1] == Uniform1iv(location, count, Read(r.state.1.units, count))
  {
    var used := C.UseProgram(env.ctx, env.program.id);
    var (p', units, name') := Register2D(env.program, s, name, count);
    var asserted := (if s.attached then s.name != name else s.units != []) || |units| != count;
    var ctx' := C.TallyUniformBytesTransferred(used.state, 4 * |units|);
    Step((Env(ctx', p'), Sampler2D(true, location, units, name')), used.events + [Uniform1iv(location, count, Read(units, count))], asserted)
  }

  /** The units already held, followed by `count` fresh ones from `start`. */
  lemma AppendTaken(held: seq<int>, start: int, count: int)
    ensures var u := held + Successive(start, count);
      u[..|held|] == held &&
      forall i :: |held| <= i < |u| ==> u[i] == start + i - |held|
  {
  }

  /**
   * A first initialisation with `count >= 0` meets its own count, trips
   * nothing, and uploads every unit it took.
   */
  lemma FreshInitializeHasCount(env: Env, s: Sampler2D, name: string, count: int, location: nat)
    requires !s.attached && s.units == [] && count >= 0
    ensures var r := Initialize2D(env, s, name, count, location);
      !r.asserted && |r.state.1.units| == count &&
      r.events[|r.events| - 1] == Uniform1iv(location, count, r.state.1.units)
  {
    var r := Initialize2D(env, s, name, count, location);
    assert r.state.1.units[..count] == r.state.1.units;
  }

  /** Two samplers initialised one after the other on one program get disjoint units. */
  lemma InitializedSamplersDisjoint(env: Env, a: Sampler2D, b: Sampler2D, na: string, nb: string, ca: int, cb: int, la: nat, lb: nat)
    requires !a.attached && a.units == [] && !b.attached && b.units == []
    ensures var ra := Initialize2D(env, a, na, ca, la);
      var rb := Initialize2D(ra.state.0, b, nb, cb, lb);
      forall i, j :: 0 <= i < |ra.state.1.units| && 0 <= j < |rb.state.1.units| ==>
        ra.state.1.units[i] < rb.state.1.units[j]
  {
  }

  /**
   * `set(texture, index)` and `set(ID, index)`: an index outside the units
   * trips the assertion and does nothing; otherwise the program is made
   * current and the texture bound on that unit as a 2D texture.
   */
  function Set2D(env: Env, s: Sampler2D, id: Qualified, index: int): (r: Step<C.Context>)
    requires 0 <= index < |s.units| ==> s.attached && 0 <= s.units[index] < |env.ctx.samplerUnits|
    ensures r.asserted <==> !(0 <= index < |s.units|)
    ensures r.asserted ==> r.state == env.ctx && r.events == []
    ensures !r.asserted ==>
      r.state.usedProgram == env.program.id && |r.state.samplerUnits| == |env.ctx.samplerUnits| &&
      r.state.samplerUnits[s.units[index]] == C.SamplerUnitInfo(id, Texture2D) &&
      forall u :: 0 <= u < |env.ctx.samplerUnits| && u != s.units[index] ==> r.state.samplerUnits[u] == env.ctx.samplerUnits[u]
  {
    if !(0 <= index < |s.units|) then Step(env.ctx, [], true)
    else
      var used := C.UseProgram(env.ctx, env.program.id);
      var b := C.BindTexture(used.state, id, Texture2D, s.units[index]);
      Step(b.state, used.events + b.events, false)
  }

  /** `set(texture)`: binds on the first unit; with no units this would read past the end. */
  function SetFirst2D(env: Env, s: Sampler2D, id: Qualified): (r: Step<C.Context>)
    requires s.attached && |s.units| > 0 && 0 <= s.units[0] < |env.ctx.samplerUnits|
    ensures !r.asserted && r.state.usedProgram == env.program.id
    ensures |r.state.samplerUnits| == |env.ctx.samplerUnits|
    ensures r.state.samplerUnits[s.units[0]] == C.SamplerUnitInfo(id, Texture2D)
  {
    Set2D(env, s, id, 0)
  }

  // ---------------------------------------------------------------- single-unit samplers

  /**
   * `OpenglSampler3D` and `OpenglSamplerBufferTexture`: one texture unit
   * bound to a `sampler2DArray` or `samplerBuffer` uniform.
   */
  datatype SingleSampler = SingleSampler(attached: bool, location: nat, unit: int, name: string)

  /**
   * The shared `initialize(name, program)`. With `everyCall` (as
   * `OpenglSampler3D` is written) a unit is taken on every call and a
   * second one on the first; without it (as `OpenglSamplerBufferTexture`
   * is written) one unit is taken on the first call only.
   */
  function InitializeSingle(env: Env, s: SingleSampler, name: string, location: nat, everyCall: bool): (r: Step<(Env, SingleSampler)>)
    ensures var s' := r.state.1;
      var c := env.program.samplerCount;
      s'.attached && s'.location == location &&
      (!s.attached ==> (s'.name == name && r.state.0.program.registered == env.program.registered + [name] &&
        s'.unit == (if everyCall then c + 1 else c) &&
        r.state.0.program.samplerCount == (if everyCall then c + 2 else c + 1))) &&
      (s.attached ==> (s'.name == s.name && r.state.0.program.registered == env.program.registered &&
        s'.unit == (if everyCall then c else s.unit) &&
        r.state.0.program.samplerCount == (if everyCall then c + 1 else c)))
    ensures r.asserted <==> s.attached && s.name != name
    ensures r.state.0.ctx.thisFrame.uniforms == env.ctx.thisFrame.uniforms + 4
    ensures r.state.0.ctx.usedProgram == env.program.id
    ensures |r.events| > 0 && r.events[|r.events| - 1] == Uniform1i(location, r.state.1.unit)
  {
    var (p, unit) := if everyCall then NextSampler(env.program) else (env.program, s.unit);
    var used := C.UseProgram(env.ctx, p.id);
    var (p', unit', name') :=
      if !s.attached then
        var (q, u) := NextSampler(p.(registered := p.registered + [name]));
        (q, u, name)
      else (p, unit, s.name);
    var ctx' := C.TallyUniformBytesTransferred(used.state, 4);
    Step((Env(ctx', p'), SingleSampler(true, location, unit', name')), used.events + [Uniform1i(location, unit')], s.attached && s.name != name)
  }

  /** `OpenglSampler3D::initialize` as written. */
  function InitializeSampler3DAsWritten(env: Env, s: SingleSampler, name: string, location: nat): (r: Step<(Env, SingleSampler)>)
    ensures r == InitializeSingle(env, s, name, location, true)
    ensures !s.attached ==>
      r.state.1.unit == env.program.samplerCount + 1 && r.state.0.program.samplerCount == env.program.samplerCount + 2 &&
      r.state.0.program.registered == env.program.registered + [name] && r.state.1.name == name
    ensures s.attached ==>
      r.state.1.unit == env.program.samplerCount && r.state.0.program.samplerCount == env.program.samplerCount + 1 &&
      r.state.0.program.registered == env.program.registered && r.state.1.name == s.name
    ensures r.state.1.attached && r.state.1.location == location
    ensures r.asserted <==> s.attached && s.name != name
    ensures |r.events| > 0 && r.events[|r.events| - 1] == Uniform1i(location, r.state.1.unit)
  {
    InitializeSingle(env, s, name, location, true)
  }

  /**
   * `OpenglSamplerBufferTexture::initialize`: the first call registers the
   * sampler and takes the program's next unit; a refresh keeps that unit.
   * `OpenglSampler3D::initialize`, corrected, is this same function.
   */
  function InitializeSamplerBuffer(env: Env, s: SingleSampler, name: string, location: nat): (r: Step<(Env, SingleSampler)>)
    ensures !s.attached ==>
      r.state.1.unit == env.program.samplerCount && r.state.0.program.samplerCount == env.program.samplerCount + 1 &&
      r.state.0.program.registered == env.program.registered + [name] && r.state.1.name == name
    ensures s.attached ==> r.state.1.unit == s.unit && r.state.0.program == env.program && r.state.1.name == s.name
    ensures r.state.1.attached && r.state.1.location == location
    ensures r.asserted <==> s.attached && s.name != name
    ensures |r.events| > 0 && r.events[|r.events| - 1] == Uniform1i(location, r.state.1.unit)
  {
    InitializeSingle(env, s, name, location, false)
  }

  /**
   * As written, the first initialisation of a 3D sampler takes two units
   * and keeps the second, so the program's first unit goes unused; a
   * refresh moves it to yet another unit. Taking one unit once, as the
   * buffer-texture sampler does, keeps the sampler on the first unit for
   * good.
   */
  lemma Sampler3DSkipsAUnit(env: Env, s: SingleSampler, name: string, location: nat)
    requires !s.attached
    ensures var r := InitializeSampler3DAsWritten(env, s, name, location);
      r.state.1.unit == env.program.samplerCount + 1 &&
      r.state.0.program.samplerCount == env.program.samplerCount + 2 &&
      InitializeSampler3DAsWritten(r.state.0, r.state.1, name, location).state.1.unit != r.state.1.unit
    ensures var r := InitializeSamplerBuffer(env, s, name, location);
      r.state.1.unit == env.program.samplerCount &&
      InitializeSamplerBuffer(r.state.0, r.state.1, name, location).state.1.unit == r.state.1.unit
  {
  }

  /**
   * `set(texture)` of a single-unit sampler: makes the program current and
   * binds the texture on the sampler's unit with the sampler's target.
   */
  function SetSingle(env: Env, s: SingleSampler, id: Qualified, target: TextureTarget): (r: Step<C.Context>)
    requires s.attached && 0 <= s.unit < |env.ctx.samplerUnits|
    ensures !r.asserted && r.state.usedProgram == env.program.id
    ensures |r.state.samplerUnits| == |env.ctx.samplerUnits|
    ensures r.state.samplerUnits[s.unit] == C.SamplerUnitInfo(id, target)
    ensures forall u :: 0 <= u < |env.ctx.samplerUnits| && u != s.unit ==> r.state.samplerUnits[u] == env.ctx.samplerUnits[u]
  {
    var used := C.UseProgram(env.ctx, env.program.id);
    var b := C.BindTexture(used.state, id, target, s.unit);
    Step(b.state, used.events + b.events, false)
  }
}

=== FILE: validity_cache.dfy ===
/**
 * The validity-pointer revision of `CachedValue`, `CachedValues` and
 * `CachedValueInitializer`. A cached value remembers the last value it was
 * given and forwards a change into its arena element only while the
 * renderer's validity flag it points at reads true. Before initialisation it
 * points at a shared flag that is always false.
 */
module ValidityCache {
  import opened Wrappers
  import opened RenderInfo
  import opened CacheWrites

  /** Where `valid` points: the shared false dummy, or a renderer's flag. */
  datatype ValidRef = Dummy | Flag(id: nat)

  /** The renderer-owned validity flags, by address. */
  type Flags = map<nat, bool>

  /** `*valid`; dereferencing a flag that no longer exists is undefined. */
  predicate Readable(v: ValidRef, flags: Flags) {
    v.Flag? ==> v.id in flags
  }

  function IsValid(v: ValidRef, flags: Flags): (r: bool)
    requires Readable(v, flags)
    ensures v == Dummy ==> !r
  {
    v.Flag? && flags[v.id]
  }

  /** `CachedValue<ptr>`: one element's field. */
  datatype Single<V> = Single(value: V, valid: ValidRef, info: Option<ArenaRef>, index: int, ptr: Field)

  /** A default-constructed instance: dummy flag, null arena, index 0. */
  function NewSingle<V(==)>(value: V, ptr: Field): (r: Single<V>)
    ensures r.valid == Dummy && r.info == None && r.value == value
  {
    Single(value, Dummy, None, 0, ptr)
  }

  /** The cached value is mirrored in its arena field whenever the flag reads true. */
  predicate SingleSynced<V(==)>(c: Single<V>, flags: Flags, a: Arena<Row<V>>) {
    Readable(c.valid, flags) &&
    (IsValid(c.valid, flags) ==>
      0 <= c.index < Size(a) && c.ptr in a.data[c.index] && a.data[c.index][c.ptr] == c.value)
  }

  /**
   * `send(s)`: writes `s` into the arena iff it differs from the cached
   * value and the flag reads true; the cached value becomes `s` either way.
   * A write through a null `info` or outside the vector is undefined.
   */
  function Send<V(==)>(c: Single<V>, s: V, flags: Flags, a: Arena<Row<V>>): (r: (Single<V>, Arena<Row<V>>))
    requires Readable(c.valid, flags)
    requires c.value != s && IsValid(c.valid, flags) ==> c.info.Some? && 0 <= c.index < Size(a)
    ensures r.0 == c.(value := s)
    ensures c.value != s && IsValid(c.valid, flags) ==>
      Size(r.1) == Size(a) && c.ptr in r.1.data[c.index] && r.1.data[c.index][c.ptr] == s &&
      (forall f :: f in a.data[c.index] && f != c.ptr ==> f in r.1.data[c.index] && r.1.data[c.index][f] == a.data[c.index][f]) &&
      (forall i :: 0 <= i < Size(a) && i != c.index ==> r.1.data[i] == a.data[i])
    ensures !(c.value != s && IsValid(c.valid, flags)) ==> r.1 == a
  {
    var a' := if c.value != s && IsValid(c.valid, flags) then WriteOne(a, c.index, c.ptr, s) else a;
    (c.(value := s), a')
  }

  /** `send()`: writes the current value iff the flag reads true, without comparing. */
  function SendCurrent<V(==)>(c: Single<V>, flags: Flags, a: Arena<Row<V>>): (r: Arena<Row<V>>)
    requires Readable(c.valid, flags)
    requires IsValid(c.valid, flags) ==> c.info.Some? && 0 <= c.index < Size(a)
    ensures IsValid(c.valid, flags) ==> SingleSynced(c, flags, r)
    ensures IsValid(c.valid, flags) ==>
      Size(r) == Size(a) && forall i :: 0 <= i < Size(a) && i != c.index ==> r.data[i] == a.data[i]
    ensures !IsValid(c.valid, flags) ==> r == a
  {
    if IsValid(c.valid, flags) then WriteOne(a, c.index, c.ptr, c.value) else a
  }

  /** `CachedValueInitializer::init(CachedValue&)`: overwrites the attachment unconditionally. */
  function InitSingle<V(==)>(c: Single<V>, info: ArenaRef, valid: nat, index: int): (r: Single<V>)
    ensures r.info == Some(info) && r.valid == Flag(valid) && r.index == index
    ensures r.value == c.value && r.ptr == c.ptr
  {
    c.(info := Some(info), valid := Flag(valid), index := index)
  }

  /** An instance that was never initialised never writes. */
  lemma UninitialisedNeverWrites<V>(value: V, ptr: Field, s: V, flags: Flags, a: Arena<Row<V>>)
    ensures Send(NewSingle(value, ptr), s, flags, a).1 == a
    ensures SendCurrent(NewSingle(value, ptr), flags, a) == a
  {
  }

  /** `send` keeps the arena field in step with the cached value. */
  lemma SendKeepsSynced<V>(c: Single<V>, s: V, flags: Flags, a: Arena<Row<V>>)
    requires SingleSynced(c, flags, a)
    requires c.info.Some?
    ensures SingleSynced(Send(c, s, flags, a).0, flags, Send(c, s, flags, a).1)
  {
  }

  /** Sending the same value twice writes only the first time. */
  lemma SendTwiceWritesOnce<V>(c: Single<V>, s: V, flags: Flags, a: Arena<Row<V>>)
    requires Readable(c.valid, flags)
    requires c.value != s && IsValid(c.valid, flags) ==> c.info.Some? && 0 <= c.index < Size(a)
    ensures var r := Send(c, s, flags, a); Send(r.0, s, flags, r.1) == r
  {
  }

  /** `CachedValues<ptr>`: the same field of several elements. */
  datatype Multi<V> = Multi(value: V, valid: ValidRef, info: Option<ArenaRef>, indices: seq<int>, ptr: Field)

  function NewMulti<V(==)>(value: V, ptr: Field): (r: Multi<V>)
    ensures r.valid == Dummy && r.info == None && r.indices == [] && r.value == value
  {
    Multi(value, Dummy, None, [], ptr)
  }

  /** Every attached element mirrors the cached value whenever the flag reads true. */
  predicate MultiSynced<V(==)>(c: Multi<V>, flags: Flags, a: Arena<Row<V>>) {
    Readable(c.valid, flags) &&
    (IsValid(c.valid, flags) ==>
      AllInRange(a, c.indices) &&
      forall k :: 0 <= k < |c.indices| ==>
        c.ptr in a.data[c.indices[k]] && a.data[c.indices[k]][c.ptr] == c.value)
  }

  /**
   * `CachedValues::send(s)`: writes `s` to every attached element iff it
   * differs from the cached value and the flag reads true.
   */
  function SendMulti<V(==)>(c: Multi<V>, s: V, flags: Flags, a: Arena<Row<V>>): (r: (Multi<V>, Arena<Row<V>>))
    requires Readable(c.valid, flags)
    requires c.value != s && IsValid(c.valid, flags) && c.indices != [] ==> c.info.Some? && AllInRange(a, c.indices)
    ensures r.0 == c.(value := s)
    ensures c.value != s && IsValid(c.valid, flags) ==>
      Size(r.1) == Size(a) &&
      forall i :: 0 <= i < Size(a) ==>
        r.1.data[i] == (if i in c.indices then SetField(a.data[i], c.ptr, s) else a.data[i])
    ensures !(c.value != s && IsValid(c.valid, flags)) ==> r.1 == a
  {
    var a' := if c.value != s && IsValid(c.valid, flags) then WriteAll(a, c.indices, c.ptr, s) else a;
    (c.(value := s), a')
  }

  /** `CachedValues::send()`: writes the current value to every attached element iff valid. */
  function SendMultiCurrent<V(==)>(c: Multi<V>, flags: Flags, a: Arena<Row<V>>): (r: Arena<Row<V>>)
    requires Readable(c.valid, flags)
    requires IsValid(c.valid, flags) && c.indices != [] ==> c.info.Some? && AllInRange(a, c.indices)
    ensures IsValid(c.valid, flags) ==> MultiSynced(c, flags, r)
    ensures !IsValid(c.valid, flags) ==> r == a
  {
    if IsValid(c.valid, flags) then
      var r := WriteAll(a, c.indices, c.ptr, c.value);
      WriteAllReaches(a, c.indices, c.ptr, c.value);
      r
    else a
  }

  /** `CachedValues::clear(v)`: detaches from everything and takes `v`. */
  function ClearMulti<V(==)>(c: Multi<V>, v: V): (r: Multi<V>)
    ensures r == NewMulti(v, c.ptr)
  {
    c.(indices := [], valid := Dummy, info := None, value := v)
  }

  /**
   * `CachedValueInitializer::init(CachedValues&)`: asserts that the value is
   * not moved to another arena or flag, then attaches one more index.
   */
  function InitMulti<V(==)>(c: Multi<V>, info: ArenaRef, valid: nat, index: int): (r: (Multi<V>, bool))
    ensures r.0.info == Some(info) && r.0.valid == Flag(valid)
    ensures r.0.indices == c.indices + [index]
    ensures r.0.value == c.value && r.0.ptr == c.ptr
    ensures r.1 <==> (c.info.Some? && c.info != Some(info)) || (c.valid.Flag? && c.valid != Flag(valid))
  {
    var asserted := !(c.info == None || c.info == Some(info)) || !(c.valid == Dummy || c.valid == Flag(valid));
    (c.(info := Some(info), valid := Flag(valid), indices := c.indices + [index]), asserted)
  }

  /** `send` keeps every attached element in step with the cached value. */
  lemma SendMultiKeepsSynced<V>(c: Multi<V>, s: V, flags: Flags, a: Arena<Row<V>>)
    requires MultiSynced(c, flags, a)
    requires c.info.Some?
    ensures MultiSynced(SendMulti(c, s, flags, a).0, flags, SendMulti(c, s, flags, a).1)
  {
    if c.value != s && IsValid(c.valid, flags) {
      WriteAllReaches(a, c.indices, c.ptr, s);
    }
  }

  /**
   * A fresh `CachedValues` attached by the initializer to an arena and a
   * true flag, then given a new value, is mirrored in that arena.
   */
  lemma InitThenSendSyncs<V>(v0: V, ptr: Field, info: ArenaRef, valid: nat, index: int, s: V, flags: Flags, a: Arena<Row<V>>)
    requires valid in flags && flags[valid]
    requires 0 <= index < Size(a)
    requires s != v0
    ensures var c := InitMulti(NewMulti(v0, ptr), info, valid, index);
      !c.1 && MultiSynced(SendMulti(c.0, s, flags, a).0, flags, SendMulti(c.0, s, flags, a).1)
  {
    var c := InitMulti(NewMulti(v0, ptr), info, valid, index).0;
    assert c.indices == [index];
    WriteAllReaches(a, c.indices, ptr, s);
  }
}

=== FILE: vao.dfy ===
/**
 * `OpenglVAO` and its `Descriptor`s: a descriptor lays vertex attributes out
 * one after another in a vertex record of `stride` bytes, and `finalize`
 * hands them to the driver as attribute slots numbered on from the VAO's
 * running `attributeCount`. A matrix takes one slot per column.
 */
module Vao {
  import opened Gl
  import opened Wrappers
  import opened Qualifier
  import opened DataTypes
  import C = OpenglContext
  import V = Vbo
  import Convert

  datatype VertexAttribute = VertexAttribute(dataType: DataType, offset: int, divisor: int)

  datatype Descriptor = Descriptor(attributes: seq<VertexAttribute>, stride: int, divisor: int)

  datatype Vao = Vao(id: Qualified, descriptors: map<string, Descriptor>, attributeCount: int)

  /**
   * `newDescriptor(name, divisor)`: asserts the name is new. `emplace` does
   * not replace an existing entry, so a repeated name keeps (and hands back)
   * the old descriptor.
   */
  function NewDescriptor(vao: Vao, name: string, divisor: int): (r: (Vao, bool))
    ensures r.1 <==> name in vao.descriptors
    ensures name in r.0.descriptors
    ensures name !in vao.descriptors ==>
      r.0.descriptors[name] == Descriptor([], 0, divisor) &&
      r.0 == vao.(descriptors := r.0.descriptors) &&
      forall n :: n in vao.descriptors ==> n in r.0.descriptors && r.0.descriptors[n] == vao.descriptors[n]
    ensures name in vao.descriptors ==> r.0 == vao
  {
    if name in vao.descriptors then (vao, true)
    else (vao.(descriptors := vao.descriptors[name := Descriptor([], 0, divisor)]), false)
  }

  /** `this->divisor` as `add` compares and divides it: converted to `GLuint`. */
  function UnsignedDivisor(d: Descriptor): (r: int)
    ensures 0 <= r <= 0xFFFF_FFFF
    ensures 0 <= d.divisor <= 0xFFFF_FFFF ==> r == d.divisor
    ensures -0x1_0000_0000 <= d.divisor < 0 ==> r == d.divisor + 0x1_0000_0000
  {
    Convert.ToUInt32(d.divisor)
  }

  /**
   * The stride multiplier of `add`: an attribute that advances every
   * `divisor_` instances, in a descriptor that advances every `divisor`,
   * needs `divisor / divisor_` copies per record. `divisor_` is a `GLuint`,
   * so the descriptor's `int` divisor is compared and divided as a `GLuint`
   * too. Dividing by a zero `divisor_` is undefined.
   */
  function StrideMultiplier(d: Descriptor, divisorOpt: Option<nat>): (r: int)
    requires divisorOpt.Some? ==> divisorOpt.value <= 0xFFFF_FFFF
    requires divisorOpt.Some? && UnsignedDivisor(d) > divisorOpt.value ==> divisorOpt.value > 0
    ensures 1 <= r <= 0xFFFF_FFFF
    ensures divisorOpt.None? || UnsignedDivisor(d) <= divisorOpt.value ==> r == 1
    ensures divisorOpt.Some? && UnsignedDivisor(d) > divisorOpt.value ==>
      r * divisorOpt.value <= UnsignedDivisor(d) < (r + 1) * divisorOpt.value
  {
    var u := UnsignedDivisor(d);
    if divisorOpt.Some? && u > divisorOpt.value then
      Quotient(u, divisorOpt.value);
      u / divisorOpt.value
    else 1
  }

  /** The integer quotient of `u` by a smaller positive `v` lies between 1 and `u`. */
  lemma Quotient(u: int, v: int)
    requires 0 < v < u
    ensures 1 <= u / v <= u
    ensures (u / v) * v <= u < (u / v + 1) * v
  {
    var q := u / v;
    assert u == q * v + u % v && 0 <= u % v < v;
    Convert.AtLeastOnce(q, v);
    assert q * v >= q;
  }

  /**
   * The divisor the new attribute records: `value_or` yields a `GLuint`,
   * which is stored into the attribute's `int`.
   */
  function AttributeDivisor(d: Descriptor, divisorOpt: Option<nat>): (r: int)
    requires divisorOpt.Some? ==> divisorOpt.value <= 0xFFFF_FFFF
    ensures -0x8000_0000 <= r <= 0x7FFF_FFFF
    ensures divisorOpt.Some? && divisorOpt.value <= 0x7FFF_FFFF ==> r == divisorOpt.value
    ensures divisorOpt.Some? && divisorOpt.value > 0x7FFF_FFFF ==> r == divisorOpt.value - 0x1_0000_0000
    ensures divisorOpt.None? && -0x8000_0000 <= d.divisor <= 0x7FFF_FFFF ==> r == d.divisor
  {
    var u := if divisorOpt.Some? then divisorOpt.value else UnsignedDivisor(d);
    Convert.ToInt32(u)
  }

  /** What `add` reserves for the attribute before the `GLsizei` conversion: its size times the multiplier. */
  function Growth(d: Descriptor, t: DataType, divisorOpt: Option<nat>): (r: int)
    requires divisorOpt.Some? ==> divisorOpt.value <= 0xFFFF_FFFF
    requires divisorOpt.Some? && UnsignedDivisor(d) > divisorOpt.value ==> divisorOpt.value > 0
    ensures r >= ByteSize(t)
    ensures divisorOpt.None? ==> r == ByteSize(t)
  {
    var m := StrideMultiplier(d, divisorOpt);
    Convert.AtLeastOnce(ByteSize(t), m);
    ByteSize(t) * m
  }

  /**
   * `Descriptor::add(dataType, divisor_)`. The stride grows by the type's
   * size times the multiplier, converted to `GLsizei`.
   */
  function Add(d: Descriptor, t: DataType, divisorOpt: Option<nat>): (r: Descriptor)
    requires divisorOpt.Some? ==> divisorOpt.value <= 0xFFFF_FFFF
    requires divisorOpt.Some? && UnsignedDivisor(d) > divisorOpt.value ==> divisorOpt.value > 0
    ensures |r.attributes| == |d.attributes| + 1
    ensures r.attributes[..|d.attributes|] == d.attributes
    ensures r.attributes[|d.attributes|] == VertexAttribute(t, d.stride, AttributeDivisor(d, divisorOpt))
    ensures -0x8000_0000 <= r.stride - d.stride <= 0x7FFF_FFFF
    ensures Growth(d, t, divisorOpt) <= 0x7FFF_FFFF ==> r.stride == d.stride + Growth(d, t, divisorOpt)
    ensures divisorOpt.None? ==> r.stride == d.stride + ByteSize(t)
    ensures r.divisor == d.divisor
  {
    var a := VertexAttribute(t, d.stride, AttributeDivisor(d, divisorOpt));
    var growth := Growth(d, t, divisorOpt);
    d.(attributes := d.attributes + [a], stride := d.stride + Convert.ToInt32(growth))
  }

  /** The stride grows by `Growth` reduced modulo 2^32, which is what `static_cast<GLsizei>` does. */
  lemma AddStrideWraps(d: Descriptor, t: DataType, divisorOpt: Option<nat>)
    requires divisorOpt.Some? ==> divisorOpt.value <= 0xFFFF_FFFF
    requires divisorOpt.Some? && UnsignedDivisor(d) > divisorOpt.value ==> divisorOpt.value > 0
    ensures (Add(d, t, divisorOpt).stride - d.stride - Growth(d, t, divisorOpt)) % 0x1_0000_0000 == 0
  {
    var g := Growth(d, t, divisorOpt);
    Convert.ToInt32Congruent(g);
    assert Add(d, t, divisorOpt).stride - d.stride == Convert.ToInt32(g);
  }

  /**
   * `newDescriptor(name, -1)` followed by `add(t, 1)`: `add` compares and
   * divides the divisor as the `GLuint` 4294967295, and that many copies
   * of the type wrap the stride's growth, once converted to `GLsizei`,
   * round to minus the type's size. The new attribute then overruns the
   * vertex record.
   */
  lemma NegativeDivisorShrinksStride(d: Descriptor, t: DataType)
    requires d.divisor == -1
    ensures StrideMultiplier(d, Some(1)) == 0xFFFF_FFFF
    ensures Add(d, t, Some(1)).stride == d.stride - ByteSize(t)
    ensures !LaidOut(Add(d, t, Some(1)))
  {
    var b: int := ByteSize(t);
    var g := Growth(d, t, Some(1));
    assert UnsignedDivisor(d) == 0xFFFF_FFFF;
    assert g == b * 0xFFFF_FFFF;
    assert g == -b + 0x1_0000_0000 * b;
    Convert.ToInt32Periodic(-b, b);
    var r := Add(d, t, Some(1));
    var n := |d.attributes|;
    assert r.attributes[n].offset + ByteSize(r.attributes[n].dataType) > ReservedEnd(r, n);
  }

  /** Where the bytes reserved for attribute `i` end: the next offset, or the stride. */
  function ReservedEnd(d: Descriptor, i: nat): int
    requires i < |d.attributes|
  {
    if i + 1 < |d.attributes| then d.attributes[i + 1].offset else d.stride
  }

  /** No attribute overlaps the next one or runs past the vertex record. */
  predicate LaidOut(d: Descriptor) {
    d.stride >= 0 &&
    forall i :: 0 <= i < |d.attributes| ==>
      0 <= d.attributes[i].offset &&
      d.attributes[i].offset + ByteSize(d.attributes[i].dataType) <= ReservedEnd(d, i)
  }

  /** A fresh descriptor is laid out. */
  lemma FreshIsLaidOut(divisor: int)
    ensures LaidOut(Descriptor([], 0, divisor))
  {
  }

  /**
   * `add` keeps every attribute inside its own bytes, as long as the
   * stride's growth fits a `GLsizei` (see `NegativeDivisorShrinksStride`
   * for one that does not).
   */
  lemma {:induction false} AddKeepsLaidOut(d: Descriptor, t: DataType, divisorOpt: Option<nat>)
    requires LaidOut(d)
    requires divisorOpt.Some? ==> divisorOpt.value <= 0xFFFF_FFFF
    requires divisorOpt.Some? && UnsignedDivisor(d) > divisorOpt.value ==> divisorOpt.value > 0
    requires Growth(d, t, divisorOpt) <= 0x7FFF_FFFF
    ensures LaidOut(Add(d, t, divisorOpt))
  {
    var r := Add(d, t, divisorOpt);
    var n := |d.attributes|;
    assert r.stride == d.stride + Growth(d, t, divisorOpt) >= d.stride + ByteSize(t);
    assert r.attributes[n].offset == d.stride && r.attributes[n].dataType == t;
    forall i | 0 <= i < |r.attributes|
      ensures 0 <= r.attributes[i].offset
      ensures r.attributes[i].offset + ByteSize(r.attributes[i].dataType) <= ReservedEnd(r, i)
    {
      if i < n {
        assert r.attributes[i] == d.attributes[i];
        if i + 1 < n {
          assert r.attributes[i + 1] == d.attributes[i + 1];
          assert ReservedEnd(r, i) == ReservedEnd(d, i);
        } else {
          assert ReservedEnd(r, i) == r.attributes[n].offset == d.stride;
        }
      }
    }
  }

  // ---------------------------------------------------------------- finalize

  /** The types `finalize` knows how to describe; the others reach `assert(0)`. */
  predicate Supported(t: DataType) {
    match t
    case U32 | UVec2 | UVec3 | UVec4 => false
    case Mat2x3 | Mat3x2 | Mat2x4 | Mat4x2 | Mat3x4 | Mat4x3 => false
    case _ => true
  }

  /** The attribute slots a type takes: one per column, none when unsupported. */
  function Slots(t: DataType): (r: nat)
    ensures Supported(t) ==> r == Columns(t)
    ensures !Supported(t) ==> r == 0
  {
    match t
    case Mat2 => 2
    case Mat3 => 3
    case Mat4 => 4
    case U32 | UVec2 | UVec3 | UVec4 => 0
    case Mat2x3 | Mat3x2 | Mat2x4 | Mat4x2 | Mat3x4 | Mat4x3 => 0
    case _ => 1
  }

  /** How a slot is fetched: floats, integers, or normalised unsigned bytes for `coloru32`. */
  function Kind(t: DataType): AttribKind {
    match t
    case I32 | IVec2 | IVec3 | IVec4 => IntAttrib
    case Coloru32 => NormalizedUnsignedByteAttrib
    case _ => FloatAttrib
  }

  /** The component count of one slot: a column's rows, or four bytes of a packed colour. */
  function SlotComponents(t: DataType): (r: int)
    ensures 1 <= r <= 4
  {
    if t == Coloru32 then 4 else Rows(t)
  }

  /**
   * The byte offset of column `k` within the attribute. As written, the
   * third column of a `mat3` is placed 9 floats in; `corrected` places
   * every column right after the previous one.
   */
  function ColumnOffset(t: DataType, k: nat, corrected: bool): (r: int)
    ensures r >= 0
  {
    if !corrected && t == Mat3 && k == 2 then 9 * 4
    else k * 4 * Rows(t)
  }

  /** The three calls that describe one slot. */
  function SlotEvents(index: int, t: DataType, stride: int, offset: int, divisor: int): (r: seq<Event>)
    ensures |r| == 3
  {
    [VertexAttribPointer(index, Kind(t), SlotComponents(t), stride, offset),
     VertexAttribDivisor(index, divisor),
     EnableVertexAttribArray(index)]
  }

  /** The slot an attribute-setup call is about. */
  predicate ForSlot(e: Event, lo: int, hi: int) {
    match e
    case VertexAttribPointer(i, _, _, _, _) => lo <= i < hi
    case VertexAttribDivisor(i, _) => lo <= i < hi
    case EnableVertexAttribArray(i) => lo <= i < hi
    case _ => false
  }

  /** The bytes one slot reads: its components, one byte each for a packed colour, four otherwise. */
  function SlotBytes(t: DataType): (r: int)
    ensures r >= 1
  {
    (if t == Coloru32 then 1 else 4) * SlotComponents(t)
  }

  /** The three calls of the `c`-th slot in a run of slot descriptions. */
  function Group(r: seq<Event>, c: nat): (g: seq<Event>)
    requires 3 * c + 3 <= |r|
    ensures |g| == 3
  {
    r[3 * c .. 3 * c + 3]
  }

  lemma GroupAfter(here: seq<Event>, rest: seq<Event>, c: nat)
    requires |here| == 3 && 3 * c + 3 <= |rest|
    ensures Group(here + rest, c + 1) == Group(rest, c)
  {
  }

  lemma GroupsAfter(here: seq<Event>, rest: seq<Event>)
    requires |here| == 3
    ensures Group(here + rest, 0) == here
    ensures forall c :: 1 <= c && 3 * c + 3 <= |here + rest| ==> Group(here + rest, c) == Group(rest, c - 1)
  {
    forall c | 1 <= c && 3 * c + 3 <= |here + rest|
      ensures Group(here + rest, c) == Group(rest, c - 1)
    {
      GroupAfter(here, rest, c - 1);
    }
  }

  lemma GroupFirst(here: seq<Event>, rest: seq<Event>)
    requires |here| == 3
    ensures Group(here + rest, 0) == here
  {
  }

  /**
   * Columns `k..` of one attribute, numbered from `index`: the calls of
   * column `k + c` describe slot `index + c`, reading `SlotComponents`
   * components of the attribute's kind at the column's offset.
   */
  function ColumnEvents(index: int, a: VertexAttribute, stride: int, k: nat, corrected: bool): (r: seq<Event>)
    requires k <= Slots(a.dataType)
    ensures |r| == 3 * (Slots(a.dataType) - k)
    ensures forall c :: 0 <= c < Slots(a.dataType) - k ==>
      Group(r, c) == SlotEvents(index + c, a.dataType, stride, a.offset + ColumnOffset(a.dataType, k + c, corrected), a.divisor)
    decreases Slots(a.dataType) - k
  {
    if k == Slots(a.dataType) then []
    else
      var here := SlotEvents(index, a.dataType, stride, a.offset + ColumnOffset(a.dataType, k, corrected), a.divisor);
      var rest := ColumnEvents(index + 1, a, stride, k + 1, corrected);
      ColumnGroupsCons(here, rest, index, a, stride, k, corrected);
      here + rest
  }

  /** The column calls of `k` followed by those of `k + 1..` are the calls of `k..`. */
  lemma ColumnGroupsCons(here: seq<Event>, rest: seq<Event>, index: int, a: VertexAttribute, stride: int, k: nat, corrected: bool)
    requires k < Slots(a.dataType)
    requires here == SlotEvents(index, a.dataType, stride, a.offset + ColumnOffset(a.dataType, k, corrected), a.divisor)
    requires |rest| == 3 * (Slots(a.dataType) - k - 1)
    requires forall c :: 0 <= c < Slots(a.dataType) - k - 1 ==>
      Group(rest, c) == SlotEvents(index + 1 + c, a.dataType, stride, a.offset + ColumnOffset(a.dataType, k + 1 + c, corrected), a.divisor)
    ensures forall c :: 0 <= c < Slots(a.dataType) - k ==>
      Group(here + rest, c) == SlotEvents(index + c, a.dataType, stride, a.offset + ColumnOffset(a.dataType, k + c, corrected), a.divisor)
  {
    GroupsAfter(here, rest);
    forall c | 1 <= c < Slots(a.dataType) - k
      ensures Group(here + rest, c) == SlotEvents(index + c, a.dataType, stride, a.offset + ColumnOffset(a.dataType, k + c, corrected), a.divisor)
    {
      assert Group(here + rest, c) == Group(rest, c - 1);
      assert index + 1 + (c - 1) == index + c && k + 1 + (c - 1) == k + c;
    }
  }

  /** The calls of slot `lo` followed by calls about later slots are all about slots in range. */
  lemma ForSlotCons(here: seq<Event>, rest: seq<Event>, lo: int, hi: int)
    requires lo < hi && |here| == 3
    requires here[0].VertexAttribPointer? && here[0].index == lo
    requires here[1].VertexAttribDivisor? && here[1].index == lo
    requires here[2].EnableVertexAttribArray? && here[2].index == lo
    requires forall j :: 0 <= j < |rest| ==> ForSlot(rest[j], lo + 1, hi)
    ensures forall j :: 0 <= j < |here + rest| ==> ForSlot((here + rest)[j], lo, hi)
  {
    forall j | 0 <= j < |here + rest|
      ensures ForSlot((here + rest)[j], lo, hi)
    {
      if j >= 3 {
        assert (here + rest)[j] == rest[j - 3];
      }
    }
  }

  /** Every call of columns `k..` is about one of their slots. */
  lemma {:induction false} ColumnEventsInRange(index: int, a: VertexAttribute, stride: int, k: nat, corrected: bool, hi: int)
    requires k <= Slots(a.dataType) && hi == index + Slots(a.dataType) - k
    ensures forall j :: 0 <= j < |ColumnEvents(index, a, stride, k, corrected)| ==>
      ForSlot(ColumnEvents(index, a, stride, k, corrected)[j], index, hi)
    decreases Slots(a.dataType) - k
  {
    if k < Slots(a.dataType) {
      ColumnEventsInRange(index + 1, a, stride, k + 1, corrected, hi);
      var here := SlotEvents(index, a.dataType, stride, a.offset + ColumnOffset(a.dataType, k, corrected), a.divisor);
      var rest := ColumnEvents(index + 1, a, stride, k + 1, corrected);
      assert ColumnEvents(index, a, stride, k, corrected) == here + rest;
      ForSlotCons(here, rest, index, hi);
    }
  }

  /** Calls about slots `lo..mid` followed by calls about slots `mid..hi` are about slots `lo..hi`. */
  lemma ForSlotJoin(first: seq<Event>, second: seq<Event>, lo: int, mid: int, hi: int)
    requires lo <= mid <= hi
    requires forall j :: 0 <= j < |first| ==> ForSlot(first[j], lo, mid)
    requires forall j :: 0 <= j < |second| ==> ForSlot(second[j], mid, hi)
    ensures forall j :: 0 <= j < |first + second| ==> ForSlot((first + second)[j], lo, hi)
  {
    forall j | 0 <= j < |first + second|
      ensures ForSlot((first + second)[j], lo, hi)
    {
      if j < |first| {
        assert ForSlot(first[j], lo, mid);
      } else {
        assert ForSlot(second[j - |first|], mid, hi);
      }
    }
  }

  /** The total slot count of a list of attributes. */
  function TotalSlots(attrs: seq<VertexAttribute>): nat {
    if attrs == [] then 0 else Slots(attrs[0].dataType) + TotalSlots(attrs[1..])
  }

  /** The slots of the attributes before `i` and of `i` itself fit in the total. */
  lemma {:induction false} PrefixSlotsBound(attrs: seq<VertexAttribute>, i: nat)
    requires i < |attrs|
    ensures TotalSlots(attrs[..i]) + Slots(attrs[i].dataType) <= TotalSlots(attrs)
    decreases i
  {
    if i > 0 {
      PrefixSlotsBound(attrs[1..], i - 1);
      assert attrs[..i][1..] == attrs[1..][..i - 1];
    }
  }

  /**
   * In `r`, attribute `i` has the calls of its columns, numbered on from
   * `index` after the slots of the attributes before it.
   */
  predicate PlacedAt(r: seq<Event>, index: int, stride: int, attrs: seq<VertexAttribute>, corrected: bool, i: nat)
    requires i < |attrs|
  {
    var at := TotalSlots(attrs[..i]);
    3 * (at + Slots(attrs[i].dataType)) <= |r| &&
    r[3 * at .. 3 * (at + Slots(attrs[i].dataType))] == ColumnEvents(index + at, attrs[i], stride, 0, corrected)
  }

  /** `r` holds exactly the calls of every attribute, each in its place. */
  predicate Placed(r: seq<Event>, index: int, stride: int, attrs: seq<VertexAttribute>, corrected: bool) {
    |r| == 3 * TotalSlots(attrs) &&
    forall i :: 0 <= i < |attrs| ==> PlacedAt(r, index, stride, attrs, corrected, i)
  }

  /** The first attribute's calls come first. */
  lemma PlacedFirst(here: seq<Event>, rest: seq<Event>, index: int, stride: int, attrs: seq<VertexAttribute>, corrected: bool)
    requires |attrs| > 0
    requires here == ColumnEvents(index, attrs[0], stride, 0, corrected)
    ensures PlacedAt(here + rest, index, stride, attrs, corrected, 0)
  {
    assert attrs[..0] == [];
    assert (here + rest)[..|here|] == here;
  }

  /** The calls of attribute `i` of the others, shifted past the first attribute's calls. */
  lemma PlacedLater(here: seq<Event>, rest: seq<Event>, index: int, stride: int, attrs: seq<VertexAttribute>, corrected: bool, i: nat)
    requires 0 < i < |attrs| && |here| == 3 * Slots(attrs[0].dataType)
    requires PlacedAt(rest, index + Slots(attrs[0].dataType), stride, attrs[1..], corrected, i - 1)
    ensures PlacedAt(here + rest, index, stride, attrs, corrected, i)
  {
    assert attrs[..i][1..] == attrs[1..][..i - 1];
    assert attrs[i] == attrs[1..][i - 1];
    var n := Slots(attrs[0].dataType);
    var at' := TotalSlots(attrs[1..][..i - 1]);
    assert TotalSlots(attrs[..i]) == n + at';
    var m := Slots(attrs[i].dataType);
    assert (here + rest)[3 * (n + at') .. 3 * (n + at' + m)] == rest[3 * at' .. 3 * (at' + m)];
  }

  /** The first attribute's columns followed by the placement of the others place them all. */
  lemma PlacedCons(here: seq<Event>, rest: seq<Event>, index: int, stride: int, attrs: seq<VertexAttribute>, corrected: bool)
    requires |attrs| > 0
    requires here == ColumnEvents(index, attrs[0], stride, 0, corrected)
    requires Placed(rest, index + Slots(attrs[0].dataType), stride, attrs[1..], corrected)
    ensures Placed(here + rest, index, stride, attrs, corrected)
  {
    forall i | 0 <= i < |attrs|
      ensures PlacedAt(here + rest, index, stride, attrs, corrected, i)
    {
      if i == 0 {
        PlacedFirst(here, rest, index, stride, attrs, corrected);
      } else {
        assert PlacedAt(rest, index + Slots(attrs[0].dataType), stride, attrs[1..], corrected, i - 1);
        PlacedLater(here, rest, index, stride, attrs, corrected, i);
      }
    }
  }

  /**
   * The loop of `finalize`: every attribute takes its slots in order from
   * `index`, attribute `i` right after the slots of the ones before it; an
   * unsupported type takes none and fails the assertion.
   */
  function AttributeSlots(index: int, stride: int, attrs: seq<VertexAttribute>, corrected: bool): (r: (int, seq<Event>, bool))
    ensures r.0 == index + TotalSlots(attrs)
    ensures Placed(r.1, index, stride, attrs, corrected)
    ensures forall j :: 0 <= j < |r.1| ==> ForSlot(r.1[j], index, r.0)
    ensures r.2 <==> exists i :: 0 <= i < |attrs| && !Supported(attrs[i].dataType)
    decreases |attrs|
  {
    if attrs == [] then (index, [], false)
    else
      var a := attrs[0];
      var here := ColumnEvents(index, a, stride, 0, corrected);
      var rest := AttributeSlots(index + Slots(a.dataType), stride, attrs[1..], corrected);
      assert forall i :: 1 <= i < |attrs| ==> attrs[i] == attrs[1..][i - 1];
      ColumnEventsInRange(index, a, stride, 0, corrected, index + Slots(a.dataType));
      ForSlotJoin(here, rest.1, index, index + Slots(a.dataType), rest.0);
      PlacedCons(here, rest.1, index, stride, attrs, corrected);
      (rest.0, here + rest.1, !Supported(a.dataType) || rest.2)
  }

  /** The binds, then the slot calls: each part is where `finalize` puts it. */
  lemma AfterBinds(binds: seq<Event>, slots: seq<Event>, lo: int, hi: int)
    requires forall j :: 0 <= j < |slots| ==> ForSlot(slots[j], lo, hi)
    ensures (binds + slots)[..|binds|] == binds && (binds + slots)[|binds|..] == slots
    ensures forall j :: |binds| <= j < |binds + slots| ==> ForSlot((binds + slots)[j], lo, hi)
  {
    forall j | |binds| <= j < |binds + slots|
      ensures ForSlot((binds + slots)[j], lo, hi)
    {
      assert (binds + slots)[j] == slots[j - |binds|];
    }
  }

  /**
   * `Descriptor::finalize(VBO)`: binds the VAO and the buffer through the
   * context, then describes every attribute in slots numbered on from
   * `attributeCount`.
   */
  function FinalizeWith(ctx: C.Context, vao: Vao, d: Descriptor, vbo: V.Vbo, corrected: bool): (r: Step<(C.Context, Vao)>)
    ensures r.state.1 == vao.(attributeCount := vao.attributeCount + TotalSlots(d.attributes))
    ensures r.state.0.boundVao == vao.id && C.BoundBuffer(r.state.0, ArrayBuffer) == vbo.id
    ensures r.asserted <==> exists i :: 0 <= i < |d.attributes| && !Supported(d.attributes[i].dataType)
    ensures
      var binds := C.BindVao(ctx, vao.id).events + C.BindBuffer(C.BindVao(ctx, vao.id).state, vbo.id, ArrayBuffer).events;
      |r.events| == |binds| + 3 * TotalSlots(d.attributes) &&
      r.events[..|binds|] == binds &&
      (forall j :: |binds| <= j < |r.events| ==> ForSlot(r.events[j], vao.attributeCount, r.state.1.attributeCount)) &&
      Placed(r.events[|binds|..], vao.attributeCount, d.stride, d.attributes, corrected)
  {
    var b1 := C.BindVao(ctx, vao.id);
    var b2 := C.BindBuffer(b1.state, vbo.id, ArrayBuffer);
    var slots := AttributeSlots(vao.attributeCount, d.stride, d.attributes, corrected);
    var binds := b1.events + b2.events;
    var events := binds + slots.1;
    AfterBinds(binds, slots.1, vao.attributeCount, slots.0);
    Step((b2.state, vao.(attributeCount := slots.0)), events, slots.2)
  }

  function FinalizeAsWritten(ctx: C.Context, vao: Vao, d: Descriptor, vbo: V.Vbo): (r: Step<(C.Context, Vao)>)
    ensures r == FinalizeWith(ctx, vao, d, vbo, false)
  {
    FinalizeWith(ctx, vao, d, vbo, false)
  }

  function Finalize(ctx: C.Context, vao: Vao, d: Descriptor, vbo: V.Vbo): (r: Step<(C.Context, Vao)>)
    ensures r == FinalizeWith(ctx, vao, d, vbo, true)
  {
    FinalizeWith(ctx, vao, d, vbo, true)
  }

  /** Descriptors finalized one after another get disjoint, consecutive slot ranges. */
  lemma SuccessiveFinalizesShareNoSlot(ctx: C.Context, vao: Vao, d1: Descriptor, d2: Descriptor, vbo: V.Vbo)
    ensures
      var f1 := Finalize(ctx, vao, d1, vbo);
      var f2 := Finalize(f1.state.0, f1.state.1, d2, vbo);
      f2.state.1.attributeCount == vao.attributeCount + TotalSlots(d1.attributes) + TotalSlots(d2.attributes) &&
      f1.state.1.attributeCount == f2.state.1.attributeCount - TotalSlots(d2.attributes)
  {
  }

  /**
   * As written, the third column of a `mat3` starts 36 bytes in and so
   * reads 12 bytes past the 36-byte matrix, into whatever follows it.
   */
  lemma Mat3ThirdColumnOverruns()
    ensures ColumnOffset(Mat3, 2, false) + 4 * Rows(Mat3) > ByteSize(Mat3)
    ensures ColumnOffset(Mat3, 1, false) + 4 * Rows(Mat3) < ColumnOffset(Mat3, 2, false)
  {
  }

  /**
   * With the correction, the columns of every supported type tile its
   * bytes exactly: each starts where the previous one ends and the last
   * ends at the type's size.
   */
  lemma ColumnsTileTheAttribute(t: DataType, k: nat)
    requires Supported(t) && k < Slots(t)
    ensures ColumnOffset(t, k, true) + SlotBytes(t) <= ByteSize(t)
    ensures k + 1 < Slots(t) ==> ColumnOffset(t, k + 1, true) == ColumnOffset(t, k, true) + SlotBytes(t)
    ensures k + 1 == Slots(t) ==> ColumnOffset(t, k, true) + SlotBytes(t) == ByteSize(t)
  {
  }

  /** A column's bytes stay inside the attribute exactly where the written offsets agree with the corrected ones. */
  lemma ColumnInside(t: DataType, k: nat, corrected: bool)
    requires k < Slots(t)
    ensures ColumnOffset(t, k, corrected) + SlotBytes(t) <= ByteSize(t) <==> corrected || !(t == Mat3 && k == 2)
  {
    ColumnsTileTheAttribute(t, k);
    CorrectionOnlyMovesMat3(t, k);
  }

  /** The pointer call of column `k` among the calls of an attribute's columns. */
  lemma ColumnPointer(index: int, a: VertexAttribute, stride: int, k: nat, corrected: bool)
    requires k < Slots(a.dataType)
    ensures var r := ColumnEvents(index, a, stride, 0, corrected);
      3 * k < |r| &&
      r[3 * k] == VertexAttribPointer(index + k, Kind(a.dataType), SlotComponents(a.dataType), stride, a.offset + ColumnOffset(a.dataType, k, corrected))
  {
    var r := ColumnEvents(index, a, stride, 0, corrected);
    assert Group(r, k)[0] == r[3 * k];
    assert Group(r, k) == SlotEvents(index + k, a.dataType, stride, a.offset + ColumnOffset(a.dataType, 0 + k, corrected), a.divisor);
  }

  /**
   * The pointer call `finalize` issues for column `k` of attribute `i`, in
   * the slot after those of the attributes before it. Corrected, the bytes
   * it reads lie inside the attribute, and inside the bytes a laid-out
   * descriptor reserves for it; as written, exactly the third column of a
   * `mat3` reads past the attribute.
   */
  lemma FinalizedPointer(ctx: C.Context, vao: Vao, d: Descriptor, vbo: V.Vbo, corrected: bool, i: nat, k: nat)
    requires i < |d.attributes| && k < Slots(d.attributes[i].dataType)
    ensures
      var a := d.attributes[i];
      var t := a.dataType;
      var f := FinalizeWith(ctx, vao, d, vbo, corrected);
      var binds := C.BindVao(ctx, vao.id).events + C.BindBuffer(C.BindVao(ctx, vao.id).state, vbo.id, ArrayBuffer).events;
      var slot := TotalSlots(d.attributes[..i]) + k;
      var off := a.offset + ColumnOffset(t, k, corrected);
      |binds| + 3 * slot < |f.events| &&
      f.events[|binds| + 3 * slot] == VertexAttribPointer(vao.attributeCount + slot, Kind(t), SlotComponents(t), d.stride, off) &&
      (off + SlotBytes(t) <= a.offset + ByteSize(t) <==> corrected || !(t == Mat3 && k == 2)) &&
      (corrected && LaidOut(d) ==> a.offset <= off && off + SlotBytes(t) <= ReservedEnd(d, i))
  {
    FinalizedPointerCall(ctx, vao, d, vbo, corrected, i, k);
    ColumnInside(d.attributes[i].dataType, k, corrected);
    if corrected && LaidOut(d) {
      LaidOutColumn(d, i, k);
    }
  }

  /** Where `finalize` issues the pointer call of column `k` of attribute `i`. */
  lemma FinalizedPointerCall(ctx: C.Context, vao: Vao, d: Descriptor, vbo: V.Vbo, corrected: bool, i: nat, k: nat)
    requires i < |d.attributes| && k < Slots(d.attributes[i].dataType)
    ensures
      var a := d.attributes[i];
      var f := FinalizeWith(ctx, vao, d, vbo, corrected);
      var binds := C.BindVao(ctx, vao.id).events + C.BindBuffer(C.BindVao(ctx, vao.id).state, vbo.id, ArrayBuffer).events;
      var slot := TotalSlots(d.attributes[..i]) + k;
      |binds| + 3 * slot < |f.events| &&
      f.events[|binds| + 3 * slot] ==
        VertexAttribPointer(vao.attributeCount + slot, Kind(a.dataType), SlotComponents(a.dataType), d.stride, a.offset + ColumnOffset(a.dataType, k, corrected))
  {
    var f := FinalizeWith(ctx, vao, d, vbo, corrected);
    var binds := C.BindVao(ctx, vao.id).events + C.BindBuffer(C.BindVao(ctx, vao.id).state, vbo.id, ArrayBuffer).events;
    var tail := f.events[|binds|..];
    var slot := TotalSlots(d.attributes[..i]) + k;
    PlacedGivesAt(tail, vao.attributeCount, d.stride, d.attributes, corrected, i);
    PlacedPointer(tail, vao.attributeCount, d.stride, d.attributes, corrected, i, k);
    assert f.events[|binds| + 3 * slot] == tail[3 * slot];
  }

  lemma PlacedGivesAt(r: seq<Event>, index: int, stride: int, attrs: seq<VertexAttribute>, corrected: bool, i: nat)
    requires Placed(r, index, stride, attrs, corrected) && i < |attrs|
    ensures PlacedAt(r, index, stride, attrs, corrected, i)
  {
  }

  /** In a placement, the pointer call of column `k` of attribute `i`. */
  lemma PlacedPointer(r: seq<Event>, index: int, stride: int, attrs: seq<VertexAttribute>, corrected: bool, i: nat, k: nat)
    requires i < |attrs| && k < Slots(attrs[i].dataType)
    requires PlacedAt(r, index, stride, attrs, corrected, i)
    ensures var a := attrs[i];
      var slot := TotalSlots(attrs[..i]) + k;
      3 * slot < |r| &&
      r[3 * slot] == VertexAttribPointer(index + slot, Kind(a.dataType), SlotComponents(a.dataType), stride, a.offset + ColumnOffset(a.dataType, k, corrected))
  {
    var a := attrs[i];
    var at := TotalSlots(attrs[..i]);
    var cols := ColumnEvents(index + at, a, stride, 0, corrected);
    assert r[3 * at .. 3 * (at + Slots(a.dataType))] == cols;
    ColumnPointer(index + at, a, stride, k, corrected);
    assert cols[3 * k] == r[3 * at + 3 * k];
  }

  /** In a laid-out descriptor, a corrected column reads only bytes reserved for its attribute. */
  lemma LaidOutColumn(d: Descriptor, i: nat, k: nat)
    requires LaidOut(d) && i < |d.attributes| && k < Slots(d.attributes[i].dataType)
    ensures var a := d.attributes[i];
      var off := a.offset + ColumnOffset(a.dataType, k, true);
      a.offset <= off && off + SlotBytes(a.dataType) <= ReservedEnd(d, i)
  {
    ColumnInside(d.attributes[i].dataType, k, true);
  }

  /**
   * The call that describes the third column of a `mat3` attribute points
   * 36 bytes in as written, and 24 bytes in once corrected.
   */
  lemma Mat3ThirdColumnCall(index: int, a: VertexAttribute, stride: int)
    requires a.dataType == Mat3
    ensures ColumnEvents(index, a, stride, 0, false)[6] == VertexAttribPointer(index + 2, FloatAttrib, 3, stride, a.offset + 36)
    ensures ColumnEvents(index, a, stride, 0, true)[6] == VertexAttribPointer(index + 2, FloatAttrib, 3, stride, a.offset + 24)
  {
    var e2f := ColumnEvents(index + 2, a, stride, 2, false);
    var e2t := ColumnEvents(index + 2, a, stride, 2, true);
    assert ColumnEvents(index + 3, a, stride, 3, false) == [];
    assert ColumnEvents(index + 3, a, stride, 3, true) == [];
    assert e2f[0] == VertexAttribPointer(index + 2, FloatAttrib, 3, stride, a.offset + 36);
    assert e2t[0] == VertexAttribPointer(index + 2, FloatAttrib, 3, stride, a.offset + 24);
    assert ColumnEvents(index + 1, a, stride, 1, false) == SlotEvents(index + 1, Mat3, stride, a.offset + 12, a.divisor) + e2f;
    assert ColumnEvents(index + 1, a, stride, 1, true) == SlotEvents(index + 1, Mat3, stride, a.offset + 12, a.divisor) + e2t;
  }

  /** The correction changes nothing but the third column of a `mat3`. */
  lemma CorrectionOnlyMovesMat3(t: DataType, k: nat)
    ensures ColumnOffset(t, k, false) != ColumnOffset(t, k, true) <==> t == Mat3 && k == 2
  {
  }

  // ---------------------------------------------------------------- quad

  /** Six `vec2` corners of two triangles. */
  const QuadVertexCount: nat := 6

  /** Uploading the corners to a buffer that is already bound issues only the upload. */
  lemma QuadUploadOnBoundBuffer(ctx: C.Context, vbo: V.Vbo)
    requires C.BoundBuffer(ctx, ArrayBuffer) == vbo.id
    ensures V.SetData(ctx, vbo, 8, QuadVertexCount, ArrayBuffer) ==
      Ok((Step(ctx, [BufferData(ArrayBuffer, 48)], false), vbo.(elementByteSize := 8, elementCount := QuadVertexCount)))
  {
    assert C.BindBuffer(ctx, vbo.id, ArrayBuffer) == Step(ctx, [], false);
    var v' := vbo.(elementByteSize := 8, elementCount := QuadVertexCount);
    assert V.ByteSize(v') == 48;
    assert [] + [BufferData(ArrayBuffer, 48)] == [BufferData(ArrayBuffer, 48)];
  }

  /** The quad's one `vec2` attribute fills its fresh descriptor's first 8 bytes. */
  lemma QuadAttribute()
    ensures Add(Descriptor([], 0, 0), Vec2, None) == Descriptor([VertexAttribute(Vec2, 0, 0)], 8, 0)
  {
    var r := Add(Descriptor([], 0, 0), Vec2, None);
    assert r.attributes == [r.attributes[0]];
  }

  /** Finalizing the quad's descriptor takes one slot and asserts nothing. */
  lemma QuadFinalizes(ctx: C.Context, vao: Vao, vbo: V.Vbo)
    ensures
      var f := Finalize(ctx, vao, Descriptor([VertexAttribute(Vec2, 0, 0)], 8, 0), vbo);
      !f.asserted && f.state.1.attributeCount == vao.attributeCount + 1
  {
    var d := Descriptor([VertexAttribute(Vec2, 0, 0)], 8, 0);
    assert TotalSlots(d.attributes) == 1;
    assert Supported(d.attributes[0].dataType);
  }

  /**
   * `addQuadDescriptor(name, VBO)`: a descriptor with one `vec2` attribute,
   * finalized, and the six corners uploaded to the buffer. The upload's own
   * bind of the array buffer is absorbed by the context, since `finalize`
   * has just bound the same buffer there.
   */
  function AddQuadDescriptor(ctx: C.Context, vao: Vao, name: string, vbo: V.Vbo): (r: Step<(C.Context, Vao, V.Vbo)>)
    ensures name in r.state.1.descriptors && r.state.1.id == vao.id
    ensures name !in vao.descriptors ==>
      r.state.1.descriptors[name] == Descriptor([VertexAttribute(Vec2, 0, 0)], 8, 0) && !r.asserted &&
      r.state.1.attributeCount == vao.attributeCount + 1
    ensures r.state.2 == vbo.(elementByteSize := 8, elementCount := QuadVertexCount) && V.ByteSize(r.state.2) == 48
    ensures
      var f := Finalize(ctx, r.state.1.(attributeCount := vao.attributeCount), r.state.1.descriptors[name], vbo);
      r.events == f.events + [BufferData(ArrayBuffer, 48)] && r.state.0 == f.state.0
  {
    var n := NewDescriptor(vao, name, 0);
    var d := Add(n.0.descriptors[name], Vec2, None);
    var vao1 := n.0.(descriptors := n.0.descriptors[name := d]);
    var f := Finalize(ctx, vao1, d, vbo);
    assert name !in vao.descriptors ==>
      d == Descriptor([VertexAttribute(Vec2, 0, 0)], 8, 0) && !f.asserted &&
      f.state.1.attributeCount == vao.attributeCount + 1 by {
      if name !in vao.descriptors {
        assert n.0.descriptors[name] == Descriptor([], 0, 0);
        QuadAttribute();
        QuadFinalizes(ctx, vao1, vbo);
      }
    }
    QuadUploadOnBoundBuffer(f.state.0, vbo);
    var upload := V.SetData(f.state.0, vbo, 8, QuadVertexCount, ArrayBuffer).value;
    Step((upload.0.state, f.state.1, upload.1), f.events + upload.0.events, n.1 || f.asserted)
  }

  lemma PrefixOfAppend<T>(a: seq<T>, b: seq<T>, n: nat)
    requires n <= |a|
    ensures (a + b)[..n] == a[..n]
  {
  }

  /** The quad takes one slot, described by exactly three calls after the binds. */
  lemma QuadTakesOneSlot(ctx: C.Context, vao: Vao, name: string, vbo: V.Vbo)
    requires name !in vao.descriptors
    ensures
      var binds := C.BindVao(ctx, vao.id).events + C.BindBuffer(C.BindVao(ctx, vao.id).state, vbo.id, ArrayBuffer).events;
      var r := AddQuadDescriptor(ctx, vao, name, vbo);
      |r.events| == |binds| + 4 && r.events[..|binds|] == binds
  {
    var r := AddQuadDescriptor(ctx, vao, name, vbo);
    var d := r.state.1.descriptors[name];
    var vao1 := r.state.1.(attributeCount := vao.attributeCount);
    assert d == Descriptor([VertexAttribute(Vec2, 0, 0)], 8, 0);
    assert TotalSlots(d.attributes) == 1;
    var f := Finalize(ctx, vao1, d, vbo);
    var binds := C.BindVao(ctx, vao.id).events + C.BindBuffer(C.BindVao(ctx, vao.id).state, vbo.id, ArrayBuffer).events;
    assert |f.events| == |binds| + 3 && f.events[..|binds|] == binds;
    assert r.events == f.events + [BufferData(ArrayBuffer, 48)];
    PrefixOfAppend(f.events, [BufferData(ArrayBuffer, 48)], |binds|);
  }
}

=== FILE: vbo.dfy ===
/**
 * The part of `OpenglVBO` that vertex descriptors and buffer textures rely
 * on: its handle, the element size and count recorded by `set`, and the
 * upload `set` issues through the context's binding cache.
 */
module Vbo {
  import opened Gl
  import opened Wrappers
  import opened Qualifier
  import C = OpenglContext

  /** The range of the `int` fields that `abortAssign` guards. */
  const IntRange: int := 0x8000_0000

  datatype Vbo = Vbo(id: Qualified, elementByteSize: int, elementCount: int)

  /**
   * `BufferSizeInformation::getByteSize()`: the bytes the recorded elements
   * occupy, nothing when there are no elements or they are empty.
   */
  function ByteSize(v: Vbo): (r: int)
    ensures v.elementCount >= 0 && v.elementByteSize >= 0 ==> r >= 0
    ensures v.elementCount >= 0 && v.elementByteSize >= 0 ==> (r >= v.elementCount && r >= v.elementByteSize) || r == 0
    ensures r == 0 <==> v.elementCount == 0 || v.elementByteSize == 0
  {
    v.elementCount * v.elementByteSize
  }

  /**
   * `set(span<T const>, hint, target)`: records the element size and count
   * (aborting when either does not fit an `int`), binds the buffer to
   * `target` through the context and uploads the bytes there. A byte count
   * that overflows `int` is undefined.
   */
  function SetData(ctx: C.Context, v: Vbo, elementSize: nat, count: nat, target: BufferTarget): (r: Result<(Step<C.Context>, Vbo)>)
    requires elementSize < IntRange && count < IntRange ==> elementSize * count < IntRange
    ensures r.Err? <==> elementSize >= IntRange || count >= IntRange
    ensures r.Ok? ==>
      var v' := r.value.1;
      var s := r.value.0;
      v' == v.(elementByteSize := elementSize, elementCount := count) &&
      C.BoundBuffer(s.state, target) == v.id && !s.asserted &&
      s.events == C.BindBuffer(ctx, v.id, target).events + [BufferData(target, ByteSize(v'))]
  {
    if elementSize >= IntRange || count >= IntRange then Err(Aborted)
    else
      var v' := v.(elementByteSize := elementSize, elementCount := count);
      var b := C.BindBuffer(ctx, v.id, target);
      Ok((Step(b.state, b.events + [BufferData(target, ByteSize(v'))], false), v'))
  }

  /**
   * The byte count `set` uploads is the size of the elements it was given
   * times their number, and it fits the `int` that `getByteSize` returns.
   */
  lemma SetDataUploadsByteSize(ctx: C.Context, v: Vbo, elementSize: nat, count: nat, target: BufferTarget)
    requires elementSize < IntRange && count < IntRange && elementSize * count < IntRange
    ensures SetData(ctx, v, elementSize, count, target).Ok?
    ensures var (s, v') := SetData(ctx, v, elementSize, count, target).value;
      ByteSize(v') == elementSize * count < IntRange &&
      |s.events| > 0 && s.events[|s.events| - 1] == BufferData(target, elementSize * count)
  {
  }
}

=== FILE: wrappers.dfy ===
/** Option and result types shared by the model. */
module Wrappers {

  /** An optional value: `None` models `std::nullopt`, `te::nullopt` and null pointers. */
  datatype Option<+T> = None | Some(value: T) {

    /** The value, or `default` when absent (`std::optional::value_or`). */
    function GetOr(default: T): T {
      match this
      case Some(v) => v
      case None => default
    }
  }

  /** Why an operation did not produce a value. */
  datatype Failure =
    | Aborted      // `std::abort()` was called
    | OutOfRange   // `std::out_of_range` was thrown

  datatype Result<+T> = Ok(value: T) | Err(failure: Failure)
}
